=== FILE: README.md ===
# PCF usage dashboard: the usage aggregation core in Dafny

The usage dashboard asks a Cloud Foundry foundation's usage API for the app and service usage records of one org over a date range. It turns that flat record list into a rollup:

- an `OrgUsage`, which maps space guid → `SpaceUsage` and app key → `AUsage`;
- an `SIUsage`, which maps space guid → `SISpaceUsage` and service instance guid → `ServiceInstanceUsage`.

The repository holds two versions of the service:

- **The older one** (`Usage/controller/UsageService.java`). It queries the fixed range of the requested quarter. It groups apps by app guid, counts every service record, copies instance durations unchanged, and keeps no state.
- **The newer one** (`usage/service/UsageService.java`).
  - It cuts the current quarter at today's date.
  - It groups apps by name within a space and stores them under `appName-spaceName`.
  - It keeps only the allowed services and divides instance durations by `86400 * daysElapsed`.
  - It stamps every rollup with the current year.
  - It keeps the rollups in two caches keyed by (foundation, org, year, quarter). The lazy path fills a cache on first request and never replaces an entry. The bulk path walks every foundation, listed org and elapsed quarter, and overwrites.

`SIUsage` does not report its stored totals. It recomputes them on every call as a long sum over its spaces, each count first narrowed to an int.

## Modules

Each file holds one module.

| file | module | contents |
|---|---|---|
| `outcomes.dfy` | `Outcomes` | `Option`; `Result` with the exceptions of the Java code as `UsageError` values |
| `java_text.dfy` | `JavaText` | `Integer.toString`, `Integer.parseInt`, `String.split` on a literal separator |
| `sums.dfy` | `Sums` | `Long.intValue`, long wrap-around, Java's truncating `/`, sums over map values |
| `grouping.dfy` | `Grouping` | `Collectors.groupingBy` and the put-in-a-loop idiom on sequences |
| `usage_model.dfy` | `UsageModel` | the record and rollup datatypes, with the fields the aggregation reads or sets |
| `si_usage.dfy` | `SIUsageTotals` | `SIUsage.getTotalSvcs` / `getTotalSis` and the builder default |
| `quarters.dfy` | `Quarters` | the `START_DATES` / `END_DATES` windows and the `"YYYY-Qn"` split |
| `app_aggregation.dfy` | `AppAggregation` | both versions of the app rollup |
| `service_aggregation.dfy` | `ServiceAggregation` | both versions of the service rollup |
| `usage_cache.dfy` | `UsageCache` | the lazy get-or-compute and the bulk refresh over `map<CacheKey, R>` |
| `orgs.dfy` | `Orgs` | the org name filters and the startup foundation → org list directory |
| `usage_api.dfy` | `UsageApi` | the usage API call plus JSON read, as a parameter |
| `quarterly_service.dfy` | `QuarterlyUsageService` | the newer service end to end: window, fetch, rollup, stamps, caches |
| `legacy_service.dfy` | `LegacyUsageService` | the older service end to end |

Java exceptions are `Failure` values:

- `IndexOutOfBounds` for `START_DATES[quarter - 1]`, for `d[0]` when the label splits into no pieces at all (`"-Q"` does), and for `d[1]` when it splits into one;
- `NumberFormat` for `Integer.parseInt`;
- `DivisionByZero` for `/ (86400 * days)`;
- `MissingOrgList` for a foundation without an org list;
- an upstream failure for the HTTP call or the JSON read.

Java's `HashMap` walks its keys in an unspecified order. The model walks them in first-occurrence order, but every contract about a walk's result is stated so that it holds whatever the order:
- An entry that later puts overwrite comes from *some* group with that key. The contract is exact when the key is unique, and for a service instance whose records all lie in one space.
- A space's memory-time total is the accumulator folded over its apps in *some* order of the app names.

## Model

Paths are relative to the repository root.

| member | source | states |
|---|---|---|
| Sums.IntValue | Usage/src/main/java/io/pivotal/tola/cfapi/Usage/model/SIUsage.java:28 | `Long::intValue` yields a signed 32-bit value congruent to its argument modulo 2^32, and equal to it whenever the argument fits in an int |
| Sums.Wrap64Add | Usage/src/main/java/io/pivotal/tola/cfapi/Usage/model/SIUsage.java:28 | wrapping a long sum after every addition gives the same result as wrapping the exact sum once, so `LongStream.sum` is the exact sum reduced to 64 bits |
| Sums.JavaDiv | Usage/src/main/java/io/pivotal/tola/cfapi/usage/service/UsageService.java:312 | Java long division truncates: the remainder is smaller than the divisor in magnitude and is zero or has the sign of the dividend |
| Sums.JavaDivAgainstFloor | Usage/src/main/java/io/pivotal/tola/cfapi/usage/service/UsageService.java:312 | for a positive divisor, Java's quotient equals the floor quotient on non-negative dividends; on negative ones it is one more exactly when the division is inexact |
| JavaText.ParseInt | Usage/src/main/java/io/pivotal/tola/cfapi/usage/service/UsageService.java:81-82 | `Integer.parseInt` succeeds exactly when the string is a decimal literal (digits after at most one `+` or `-`) whose value fits in an int, and then returns that value; every other string is a `NumberFormatException` |
| JavaText.ParseIntRejects | Usage/src/main/java/io/pivotal/tola/cfapi/usage/service/UsageService.java:81-82 | the empty string, a bare `-`, `"+12x"`, `"abc"` and `"2147483648"` are rejected, while `"-2147483648"` parses to the int minimum |
| JavaText.ParseIntRoundTrip | Usage/src/main/java/io/pivotal/tola/cfapi/usage/service/UsageService.java:81-82 | parsing the decimal rendering of any int gives back that int |
| JavaText.FindFrom | Usage/src/main/java/io/pivotal/tola/cfapi/usage/service/UsageService.java:80 | the split scans for the leftmost occurrence of the separator: a found position is an occurrence with none before it, and "not found" means no occurrence at all |
| JavaText.DropTrailingEmpty | Usage/src/main/java/io/pivotal/tola/cfapi/usage/service/UsageService.java:80 | `split` drops trailing empty strings only: the result is a prefix of the pieces, ends in a nonempty piece, and every dropped piece is empty |
| JavaText.SplitTwoPieces | Usage/src/main/java/io/pivotal/tola/cfapi/usage/service/UsageService.java:80 | `a + "-Q" + b` splits into exactly `[a, b]` when neither part contains `Q` and `b` is nonempty |
| Quarters.TablesMatchCalendar | Usage/src/main/java/io/pivotal/tola/cfapi/usage/service/UsageService.java:37-38 | entry q-1 of `START_DATES` is the first day of month 3q-2, and entry q-1 of `END_DATES` is the last day of month 3q, for every q in 1..4 |
| Quarters.QuarterWindow | Usage/src/main/java/io/pivotal/tola/cfapi/usage/service/UsageService.java:148-155 | q outside 1..4 is an index error. Otherwise the window starts on the first day of the quarter and ends on today's date for the current quarter, or on the quarter's last day for any other quarter |
| Quarters.QueryRange | Usage/src/main/java/io/pivotal/tola/cfapi/Usage/controller/UsageService.java:172-175 | the older service's range runs from the quarter's first day to its last day; q outside 1..4 is an index error |
| Quarters.PastQuarterWindowsAgree | Usage/src/main/java/io/pivotal/tola/cfapi/usage/service/UsageService.java:148-155 | for any quarter other than the current one, the newer window equals the older service's query range, including the error case |
| Quarters.SplitQuarter | Usage/src/main/java/io/pivotal/tola/cfapi/usage/service/UsageService.java:80-82 | the label parses exactly when the split gives at least two pieces and both first pieces parse, and then yields their values. With no piece, or one piece that parses, it is an index error; otherwise it is the number-format error of the first piece that fails |
| Quarters.SplitQuarterRoundTrip | Usage/src/main/java/io/pivotal/tola/cfapi/usage/service/UsageService.java:80-82 | splitting the label `"YYYY-Qn"` of any int year and quarter on `"-Q"` and parsing both pieces gives back exactly (year, quarter) |
| SIUsageTotals.SumNarrowed | Usage/src/main/java/io/pivotal/tola/cfapi/Usage/model/SIUsage.java:28 | adding the narrowed counts one space at a time to a long that wraps at every addition, in any order, gives the exact sum over all spaces wrapped once |
| SIUsageTotals.GetTotalSvcs | Usage/src/main/java/io/pivotal/tola/cfapi/Usage/model/SIUsage.java:24-31 | the reported service total is the long sum of the spaces' narrowed `totalSvcs`, and 0 for an empty space map |
| SIUsageTotals.GetTotalSis | Usage/src/main/java/io/pivotal/tola/cfapi/Usage/model/SIUsage.java:33-40 | the reported instance total is the long sum of the spaces' narrowed `totalSis`, and 0 for an empty space map |
| SIUsageTotals.Build | Usage/src/main/java/io/pivotal/tola/cfapi/Usage/model/SIUsage.java:21-22 | a freshly built `SIUsage` has empty maps, so both reported totals are 0 |
| SIUsageTotals.SetStoredTotals | Usage/src/main/java/io/pivotal/tola/cfapi/Usage/model/SIUsage.java:17-18 | setting the stored totals changes those fields and leaves both reported totals unchanged |
| SIUsageTotals.AddSpaceRaisesTotals | Usage/src/main/java/io/pivotal/tola/cfapi/Usage/model/SIUsage.java:24-40 | putting a new space raises each reported total by exactly that space's narrowed count, in long arithmetic |
| SIUsageTotals.ReportedSvcsExact | Usage/src/main/java/io/pivotal/tola/cfapi/Usage/model/SIUsage.java:28 | when every space's `totalSvcs` fits in an int and there are at most 2^32 spaces, the reported total is the exact sum |
| SIUsageTotals.ReportedSisExact | Usage/src/main/java/io/pivotal/tola/cfapi/Usage/model/SIUsage.java:37 | when every space's `totalSis` fits in an int and there are at most 2^32 spaces, the reported total is the exact sum |
| Grouping.GroupBy | Usage/src/main/java/io/pivotal/tola/cfapi/usage/service/UsageService.java:181 | `groupingBy` has exactly the distinct keys of the input; each bucket is nonempty and holds the elements with that key, in input order |
| Grouping.SelectMembers | Usage/src/main/java/io/pivotal/tola/cfapi/usage/service/UsageService.java:181 | a bucket holds only input elements carrying its key, and every such element is in it |
| Grouping.GroupSizesSum | Usage/src/main/java/io/pivotal/tola/cfapi/Usage/controller/UsageService.java:70 | the buckets partition the input: their sizes add up to its length |
| Grouping.SelectNested | Usage/src/main/java/io/pivotal/tola/cfapi/usage/service/UsageService.java:181-194 | grouping by space and then grouping a space's records by app gives the records of that (space, app) pair |
| Grouping.LastByKey | Usage/src/main/java/io/pivotal/tola/cfapi/usage/service/UsageService.java:315 | putting each element under its key yields exactly the distinct keys of the input |
| Grouping.LastByKeyIsLast | Usage/src/main/java/io/pivotal/tola/cfapi/usage/service/UsageService.java:315 | the element stored under a key is the last element carrying that key |
| Grouping.LastByKeyUnique | Usage/src/main/java/io/pivotal/tola/cfapi/usage/service/UsageService.java:315 | when no two elements share a key, every element is the one stored under its key |
| AppAggregation.AppGroupsFacts | Usage/src/main/java/io/pivotal/tola/cfapi/usage/service/UsageService.java:181-210 | every (space, app) bucket the nested walk visits holds exactly the records of its pair, and every record lands in some bucket |
| AppAggregation.LegacyAppRollup | Usage/src/main/java/io/pivotal/tola/cfapi/Usage/controller/UsageService.java:67-105 | the space keys are the distinct space guids, and each `SpaceUsage` is built from exactly its space's records and named after the first. The app keys are the distinct app guids, and each `AUsage` is built from that app's records in one space where it occurs and names that space |
| AppAggregation.LegacySpaceCountsSum | Usage/src/main/java/io/pivotal/tola/cfapi/Usage/controller/UsageService.java:80 | the spaces' `totalAis` add up to the number of records |
| AppAggregation.LegacyAppCountsSumToSpace | Usage/src/main/java/io/pivotal/tola/cfapi/Usage/controller/UsageService.java:85-97 | within one space, the sizes of the per-app record buckets add up to the space's `totalAis` |
| AppAggregation.AppsOfSpaceSum | Usage/src/main/java/io/pivotal/tola/cfapi/Usage/controller/UsageService.java:85-97 | for any map of stored apps keyed by the record app guids, each naming a space of its records and counting its records, the counts of the apps naming space s add up to the number of records of s, when no app guid spans two spaces |
| AppAggregation.LegacyStoredAppCountsSumToSpace | Usage/src/main/java/io/pivotal/tola/cfapi/Usage/controller/UsageService.java:80-97 | when no app guid spans two spaces, the `totalAis` of the `AUsage` entries stored in `aUsage` that name a space add up to that space's `totalAis` in `spaceUsage` |
| AppAggregation.LegacyAppCountIsRecordCount | Usage/src/main/java/io/pivotal/tola/cfapi/Usage/controller/UsageService.java:94 | when no app guid spans two spaces, an app's `totalAis` is the number of its records |
| AppAggregation.LegacyAppCountsSum | Usage/src/main/java/io/pivotal/tola/cfapi/Usage/controller/UsageService.java:85-97 | when no app guid spans two spaces, the stored apps' `totalAis` add up to the input length |
| AppAggregation.AppRollup | Usage/src/main/java/io/pivotal/tola/cfapi/usage/service/UsageService.java:178-216 | the space keys are the distinct space guids. The app keys are the records' `appName-spaceName` keys, and each `AUsage` is built from one app name's records in one space. It copies that space's guid and name, and its instance count stays 0. Each space's memory-time total is the accumulator folded over its apps, visited in some order that lists every app name once |
| AppAggregation.SpaceMbIsSumOverApps | Usage/src/main/java/io/pivotal/tola/cfapi/usage/service/UsageService.java:195-206 | when the space accumulator is additive, a space's memory-time total is the sum of its apps' contributions, so it does not depend on the walk order |
| AppAggregation.NewAppExact | Usage/src/main/java/io/pivotal/tola/cfapi/usage/service/UsageService.java:194-208 | when storage keys do not collide, every record's app is stored under its own `appName-spaceName` key. It is built from exactly the records of that app name in that space |
| AppAggregation.EmptyAppRollups | Usage/src/main/java/io/pivotal/tola/cfapi/usage/service/UsageService.java:181-215 | no records give empty space and app maps, in both versions |
| ServiceAggregation.IncludedMembers | Usage/src/main/java/io/pivotal/tola/cfapi/usage/service/UsageService.java:277-278 | a record survives the filter exactly when it is in the input and its service is allowed |
| ServiceAggregation.ExcludedVanishes | Usage/src/main/java/io/pivotal/tola/cfapi/usage/service/UsageService.java:277-278 | inserting a record of a disallowed service anywhere does not change the filtered list |
| ServiceAggregation.IncludedKeepsAll | Usage/src/main/java/io/pivotal/tola/cfapi/usage/service/UsageService.java:277-278 | when every service is allowed, the filter keeps the whole list, as the older version does |
| ServiceAggregation.InstancesFacts | Usage/src/main/java/io/pivotal/tola/cfapi/usage/service/UsageService.java:304-320 | the instance map has exactly the distinct instance guids, and each entry is built from some record of that instance |
| ServiceAggregation.OneSpaceInstanceIsLast | Usage/src/main/java/io/pivotal/tola/cfapi/usage/service/UsageService.java:304-315 | when all records of an instance lie in one space, the stored entry is built from its last record in input order, whatever order the spaces are walked in |
| ServiceAggregation.InstanceExact | Usage/src/main/java/io/pivotal/tola/cfapi/usage/service/UsageService.java:308-315 | an instance seen in one record only is stored exactly as that record gives it |
| ServiceAggregation.LegacySvcRollup | Usage/src/main/java/io/pivotal/tola/cfapi/Usage/controller/UsageService.java:124-165 | the space keys are the distinct space guids, and each `SISpaceUsage` counts exactly its space's records. The instance keys are the distinct instance guids, each from some record of the instance |
| ServiceAggregation.CopyKeepsDuration | Usage/src/main/java/io/pivotal/tola/cfapi/Usage/controller/UsageService.java:149-156 | in the older version each stored duration is some record's `durationInSeconds` of that instance, unchanged |
| ServiceAggregation.PerDayDivisorExact | Usage/src/main/java/io/pivotal/tola/cfapi/usage/service/UsageService.java:312 | for 1 to 24855 elapsed days the int product `86400 * days` does not wrap and is positive |
| ServiceAggregation.SvcRollup | Usage/src/main/java/io/pivotal/tola/cfapi/usage/service/UsageService.java:274-324 | fails with a division by zero exactly when the divisor is 0 and some allowed record exists. On success the space and instance keys are those of the allowed records only, and with a nonzero divisor every duration is divided per day |
| ServiceAggregation.SvcRollupIgnoresExcluded | Usage/src/main/java/io/pivotal/tola/cfapi/usage/service/UsageService.java:277-279 | a record of a disallowed service does not change the newer rollup at all |
| ServiceAggregation.ExcludedRecordAbsent | Usage/src/main/java/io/pivotal/tola/cfapi/usage/service/UsageService.java:277-315 | a disallowed record whose space and instance no allowed record shares appears in neither map |
| ServiceAggregation.SISpacesCountSum | Usage/src/main/java/io/pivotal/tola/cfapi/usage/service/UsageService.java:296 | the per-space `totalSis` add up to the number of records counted |
| ServiceAggregation.SvcCounts | Usage/src/main/java/io/pivotal/tola/cfapi/usage/service/UsageService.java:296 | in the newer version the counts add up to the number of allowed records. Below 2^31 records, `getTotalSis` reports that number, taking the newer package's `SIUsage` to behave like `Usage/model/SIUsage.java` |
| ServiceAggregation.LegacySvcCounts | Usage/src/main/java/io/pivotal/tola/cfapi/Usage/controller/UsageService.java:137 | in the older version the counts add up to the input length, and `getTotalSis` reports it below 2^31 records |
| ServiceAggregation.EmptySvcRollups | Usage/src/main/java/io/pivotal/tola/cfapi/Usage/controller/UsageService.java:124-165 | no records give empty maps in both versions, even with a zero divisor, and both reported totals are 0 |
| UsageCache.GetOrCompute | Usage/src/main/java/io/pivotal/tola/cfapi/usage/service/UsageService.java:128-146 | on a hit, the stored rollup comes back and the cache is unchanged. On a miss, the computed rollup is stored under the key, or the failure is propagated. The lookup computes exactly when the key was absent |
| UsageCache.LazyKeepsEntries | Usage/src/main/java/io/pivotal/tola/cfapi/usage/service/UsageService.java:133-143 | the lazy path only adds the key it was asked for: every other entry keeps its value, and no key disappears |
| UsageCache.SecondLookupHits | Usage/src/main/java/io/pivotal/tola/cfapi/usage/service/UsageService.java:130-132 | a second lookup of the same key returns the same rollup, computes nothing and changes nothing, whatever the compute function now does |
| UsageCache.LookupAllKeeps | Usage/src/main/java/io/pivotal/tola/cfapi/usage/service/UsageService.java:128-146 | after a run of lookups every requested key is cached, and every earlier entry is unchanged |
| UsageCache.LookupAllComputesOnce | Usage/src/main/java/io/pivotal/tola/cfapi/usage/service/UsageService.java:133-143 | a run of lookups computes exactly as many rollups as there are distinct requested keys missing at the start |
| UsageCache.RefreshQuartersOk | Usage/src/main/java/io/pivotal/tola/cfapi/usage/service/UsageService.java:78-86 | one org's quarter loop completes exactly when every label parses and every rollup computes |
| UsageCache.RefreshQuartersFrame | Usage/src/main/java/io/pivotal/tola/cfapi/usage/service/UsageService.java:78-86 | a key that none of the org's quarters names keeps its presence and value |
| UsageCache.RefreshQuartersWrites | Usage/src/main/java/io/pivotal/tola/cfapi/usage/service/UsageService.java:78-86 | after a completed loop every key of the org's quarters holds its freshly computed rollup |
| UsageCache.RefreshOrgsOk | Usage/src/main/java/io/pivotal/tola/cfapi/usage/service/UsageService.java:73-89 | the org loop completes exactly when every non-null org's quarter loop would |
| UsageCache.RefreshOrgsFrame | Usage/src/main/java/io/pivotal/tola/cfapi/usage/service/UsageService.java:73-89 | a key of no listed org keeps its presence and value |
| UsageCache.RefreshOrgsWrites | Usage/src/main/java/io/pivotal/tola/cfapi/usage/service/UsageService.java:73-89 | after a completed org loop every targeted key holds its freshly computed rollup |
| UsageCache.RefreshAllOk | Usage/src/main/java/io/pivotal/tola/cfapi/usage/service/UsageService.java:65-91 | the bulk refresh completes exactly when every foundation has an org list and every quarter of every listed org parses and computes |
| UsageCache.RefreshAllFrame | Usage/src/main/java/io/pivotal/tola/cfapi/usage/service/UsageService.java:65-91 | the bulk refresh leaves every untargeted key as it was, whether or not it completes |
| UsageCache.RefreshAllOverwrites | Usage/src/main/java/io/pivotal/tola/cfapi/usage/service/UsageService.java:84-85 | a completed bulk refresh overwrites: every targeted key holds the rollup just computed for it, whatever was cached before |
| UsageCache.RefreshThenLookupHits | Usage/src/main/java/io/pivotal/tola/cfapi/usage/service/UsageService.java:84-132 | after a completed bulk refresh, a lazy lookup of a refreshed key is a hit that returns the refreshed rollup |
| Orgs.FilterOrgs | Usage/src/main/java/io/pivotal/tola/cfapi/usage/service/UsageService.java:58 | an org is kept exactly when it is listed and its name passes the filter; the result is no longer than the listing |
| Orgs.FilterOrgsIdempotent | Usage/src/main/java/io/pivotal/tola/cfapi/usage/service/UsageService.java:58 | filtering a listing twice by the same names is filtering it once |
| Orgs.ListOrgs | Usage/src/main/java/io/pivotal/tola/cfapi/usage/service/UsageService.java:58-59 | every stored org is non-null, listed and not excluded, and every listed org whose name is not excluded is stored |
| Orgs.PopulateOrgs | Usage/src/main/java/io/pivotal/tola/cfapi/usage/service/UsageService.java:53-63 | the directory has one entry per configured foundation, holding that foundation's filtered listing |
| Orgs.LegacyOrgs | Usage/src/main/java/io/pivotal/tola/cfapi/Usage/controller/UsageService.java:44-45 | an org is kept exactly when it is listed and its name is not "system" in any mix of letter cases |
| Orgs.SystemOrgDropped | Usage/src/main/java/io/pivotal/tola/cfapi/Usage/controller/UsageService.java:44 | "system" and "SyStEm" are dropped, and a listed "systems" is kept |
| QuarterlyUsageService.GenerateAppUsage | Usage/src/main/java/io/pivotal/tola/cfapi/usage/service/UsageService.java:157-217 | fails exactly when the fetch fails. Otherwise the rollup carries the org, the current year and the quarter of the range start. Its space keys are the fetched space guids, and its app keys are their `appName-spaceName` keys |
| QuarterlyUsageService.GenerateSvcUsage | Usage/src/main/java/io/pivotal/tola/cfapi/usage/service/UsageService.java:253-325 | fetch failures propagate. A fetched list fails exactly when the per-day divisor is 0 and an allowed record exists. On success it is stamped like the app rollup and keyed by the allowed records only |
| QuarterlyUsageService.AppUsageByFoundationOrg | Usage/src/main/java/io/pivotal/tola/cfapi/usage/service/UsageService.java:148-155 | q outside 1..4 throws before anything is fetched. The current quarter is fetched from its first day to today, and any other quarter over its whole range |
| QuarterlyUsageService.SvcUsageByFoundationOrg | Usage/src/main/java/io/pivotal/tola/cfapi/usage/service/UsageService.java:243-250 | the same window choice for the service rollup |
| QuarterlyUsageService.StampsMatchRequest | Usage/src/main/java/io/pivotal/tola/cfapi/usage/service/UsageService.java:165-166 | the stamped quarter is the requested one when `getQuarter` places the quarter's first day in it. The stamped year is always the current year, and it equals the requested year only for the current year |
| QuarterlyUsageService.AppUsage | Usage/src/main/java/io/pivotal/tola/cfapi/usage/service/UsageService.java:128-146 | a cached (foundation, org, year, quarter) is returned as stored. A missing one is computed for that quarter and stored, or its failure is returned |
| QuarterlyUsageService.SvcUsage | Usage/src/main/java/io/pivotal/tola/cfapi/usage/service/UsageService.java:223-241 | the same get-or-compute over the service cache |
| QuarterlyUsageService.RefreshAppUsage | Usage/src/main/java/io/pivotal/tola/cfapi/usage/service/UsageService.java:65-91 | the bulk app refresh completes exactly when every foundation has an org list and every elapsed quarter of every org parses and computes; untargeted entries are kept |
| QuarterlyUsageService.RefreshSvcUsage | Usage/src/main/java/io/pivotal/tola/cfapi/usage/service/UsageService.java:93-118 | the same for the service cache |
| QuarterlyUsageService.RefreshedAppUsageServed | Usage/src/main/java/io/pivotal/tola/cfapi/usage/service/UsageService.java:84-132 | after a completed bulk refresh, the lazy `appUsage` of any refreshed key is a hit returning the quarter's rollup as computed now |
| QuarterlyUsageService.RefreshedSvcUsageServed | Usage/src/main/java/io/pivotal/tola/cfapi/usage/service/UsageService.java:112-227 | the same for `svcUsage` |
| QuarterlyUsageService.RefreshSkipsExcludedOrgs | Usage/src/main/java/io/pivotal/tola/cfapi/usage/service/UsageService.java:53-85 | with the startup directory, the bulk refresh only writes keys of orgs the platform listed under names not on the exclusion list |
| LegacyUsageService.LegacyAppUsage | Usage/src/main/java/io/pivotal/tola/cfapi/Usage/controller/UsageService.java:52-106 | q outside 1..4 is an index error. Otherwise the result fails exactly when the fetch of the quarter's full range fails. On success it is stamped with the requested year and quarter and keyed by the fetched space and app guids |
| LegacyUsageService.LegacySvcUsage | Usage/src/main/java/io/pivotal/tola/cfapi/Usage/controller/UsageService.java:109-166 | the same for the service rollup, keyed by the fetched space and instance guids |
| LegacyUsageService.PastQuarterSameSpaces | Usage/src/main/java/io/pivotal/tola/cfapi/Usage/controller/UsageService.java:172-175 | for a quarter other than the current one both services ask for the same range, so they succeed together and list the same spaces |

## Behaviour of the code worth knowing

- **Org filters.** The newer service drops only the configured exclusions (usage/service/UsageService.java:58). The older one drops only "system", ignoring case (Usage/controller/UsageService.java:44). Neither applies the other's filter.
- **Instance counts.** The newer service never sets `totalAis` on a `SpaceUsage` or an `AUsage`, so both keep their builder value, 0 in the model. The older one sets them to record counts.
- **Day count.** Nothing guards the division by `86400 * daysElapsed` (usage/service/UsageService.java:312). The model fails with `DivisionByZero` when the divisor is 0 and some allowed record exists.
- **App durations.** Both versions pass the same record lists to the duration helper: a space's records `v` and an app's records `av`, which carry the raw seconds (Usage/controller/UsageService.java:82 and :96, usage/service/UsageService.java:191 and :204). The newer version adds the elapsed day count as a second argument. The helper itself is not part of this model, so what it does with the day count is left unstated; the model passes both arguments on to a parameter function (`AppMetrics.totalDuration`).
- **Year stamp.** The newer service stamps rollups with `dateUtils.getYear()`, not the requested year (usage/service/UsageService.java:165). `StampsMatchRequest` states the consequence.
- **Fields.** The older service sets `spaceGuid` and `spaceName` on an `AUsage` and a `serviceInstanceUsage` map on an `SIUsage` (Usage/controller/UsageService.java:90-91, 163). Neither appears in the model classes `AUsage.java` (lines 10-15) and `SIUsage.java` (lines 13-22). The datatypes carry these fields because the aggregation code sets them.

## Left out

- HTTP and JSON: the usage API call and the Jackson read are one function parameter (`UsageApi.Upstream`) returning records or a failure. The source carries on with a null after a failed read and then throws; the model returns the failure instead.
- Concurrency: `synchronized`, `ConcurrentHashMap` and `parallelStream` are not modelled. The caches are sequential state, the double-checked lookup is a plain get-or-compute, and the bulk refresh walks foundations in list order.
- Floating point: `siDurationInSecs` and `getSiDurationInSecs` are not modelled.
- Unseen helpers: `UsageUtils`, `DateUtils` and `SpaceUsage.computeTotalMbPerAis` are function parameters whose bodies are not modelled. That covers `getQuarter`, `getNoOfDaysElapsed`, `getYear`, `getCurrentDate`, `getDayStart` and `getElapsedQuartersInCurrentYear`. The `getDayStart(start)` conversion is folded into `quarterOf`.
- Dates: dates are their `yyyy-MM-dd` text. The `Date`-typed `appUsage` and `svcUsage` overloads (usage/service/UsageService.java:124-126 and 219-221) are `GenerateAppUsage` / `GenerateSvcUsage` on the converted text.
- Startup directory: the CloudFoundryOperations org listing is a function parameter. `@PostConstruct` is a plain function over it.
- Logging is not modelled.
- Nulls: the model has no null values. A null grouping key (`spaceGuid` in both versions, `appName` in the newer one, `appGuid` in the older one) makes `groupingBy` throw a `NullPointerException` in the source. A null `serviceInstanceGuid` does not throw: the instance is stored under the `HashMap` null key (usage/service/UsageService.java:315, Usage/controller/UsageService.java:156), which the model cannot express because its records always carry strings. A null `siSpaceUsage` makes the getters return 0; a model `SIUsage` always has a map, and an empty one also reports 0. The null org check of the bulk refresh is modelled as an `Option`.
- Year rendering: the older service builds its query range with `String.format("%d-%s", year, …)` (Usage/controller/UsageService.java:174). That output depends on the default locale, which may use non-ASCII digits. `Quarters.QueryRange` and `Quarters.PastQuarterWindowsAgree` render the year as `Integer.toString` does, with ASCII digits.
- Cache key: the `"%s$%s$%s$%s"` key string is the `CacheKey` datatype. Keys therefore never collide, even when a foundation name contains `$`.
- `SpaceUsage` defaults: `SpaceUsage.java` is not part of this model. Its builder is taken to start `totalAis` and the memory-time total at 0.
- Newer model classes: the newer service imports its rollup classes from `io.pivotal.tola.cfapi.usage.model` (usage/service/UsageService.java:13), and that package is not part of this model. Its `SIUsage`, `AUsage` and `SpaceUsage` are taken to behave like the `Usage/model` classes: the same derived `getTotalSis` / `getTotalSvcs`, and builders that start the stored totals and `totalAis` at 0. `SvcCounts`, `AppRollup` and `SvcRollup` rest on this.
- Day-count type: the return type of `DateUtils.getNoOfDaysElapsed` is not part of this model. The product `86400 * daysElapsed` is taken to be int arithmetic, so the divisor wraps to 32 bits (`PerDayDivisor`). With a long day count it would not wrap for any realistic date range, and the 24855-day bound of `PerDayDivisorExact` would not matter.
- Record field types: the `AppUsage_` and `ServiceUsage_` classes are not part of this model. Durations are taken to be longs, so the instance division is Java long division.
- JavaText.ParseInt: does not accept non-ASCII Unicode digits, which `Integer.parseInt` would.
- Orgs.IsSystemName: folds ASCII letters only. `equalsIgnoreCase` also folds some non-ASCII letters, for example the long s.
- AppAggregation.LegacyAppRollup: an app guid that occurs in two spaces is stored once, built from its records in one of those spaces. The model does not say which space, because that depends on the `HashMap` walk order. `LegacyAppCountIsRecordCount`, `LegacyAppCountsSum` and `LegacyStoredAppCountsSumToSpace` are stated only when no app guid spans two spaces: otherwise a space can lose the instances of an app stored under its other space.
- AppAggregation.AppRollup: two different (app name, space name) pairs can produce the same `appName-spaceName` string, for example app `a-b` in space `c` and app `a` in space `b-c`. So can two space guids that share a space name, for example a space deleted and re-created under its old name within the quarter. The later put then wins. `NewAppExact` therefore assumes keys do not collide.
- AppAggregation.SpaceMbIsSumOverApps: states the memory-time total only for an additive accumulator, because `SpaceUsage.computeTotalMbPerAis` is not shown.
- ServiceAggregation.InstancesFacts: its contract says only "some record of the instance". For an instance whose records span two or more spaces, the stored record is the last in the space walk order, and that order depends on the `HashMap` walk. For an instance whose records all lie in one space, `OneSpaceInstanceIsLast` pins the entry to its last record in input order.
- AppAggregation.AppRollup: a space's memory-time total is stated as the fold over some order of its app names, not the one order Java's `HashMap` takes. For an accumulator that is not commutative the model does not say which of these totals the source computes. `SpaceMbIsSumOverApps` is exact for an additive one.

=== FILE: app_aggregation.dfy ===
/**
 * Application usage aggregation, in the two versions the repository holds.
 *
 * Both group the records by space, build one SpaceUsage per space, then
 * group each space's records by app and put one AUsage per app into a map
 * shared by all spaces. The older version groups and keys apps by app guid
 * and counts records; the newer one groups apps by name, keys them by
 * "appName-spaceName", passes the elapsed days to the duration helper and
 * folds each app into the space's memory-time total.
 */
module AppAggregation {
  import opened UsageModel
  import opened Grouping
  import opened Sums

  function SpaceGuidOf(r: AppRecord): string {
    r.spaceGuid
  }

  function AppGuidOf(r: AppRecord): string {
    r.appGuid
  }

  function AppNameOf(r: AppRecord): string {
    r.appName
  }

  /** The UsageUtils and SpaceUsage helpers the newer version calls; their bodies are not modelled. */
  datatype AppMetrics = AppMetrics(
    uniqueApps: seq<AppRecord> -> nat,            // UsageUtils.getUniqueApps(v).size()
    totalMbPerAis: seq<AppRecord> -> int,         // UsageUtils.computeTotalMbPerAis(v)
    totalDuration: (seq<AppRecord>, int) -> int,  // UsageUtils.computeTotalDurationInSecs(v, daysElapsed)
    accumulateMb: (int, int, int) -> int)         // SpaceUsage.computeTotalMbPerAis(mb, secs), on the running total

  /** The UsageUtils helpers the older version calls; their bodies are not modelled. */
  datatype LegacyAppMetrics = LegacyAppMetrics(
    uniqueApps: seq<AppRecord> -> nat,            // UsageUtils.getUniqueApps(v).size()
    totalMbPerAis: seq<AppRecord> -> int,         // UsageUtils.computeTotalMbPerAis(v)
    totalDuration: seq<AppRecord> -> int)         // UsageUtils.computeTotalDurationInSecs(v)

  /** One bucket of the inner grouping: the records of one app within one space, and the first of them. */
  datatype AppGroup = AppGroup(spaceGuid: string, spaceName: string, appKey: string, first: AppRecord, members: seq<AppRecord>)

  predicate WellFormed(g: AppGroup) {
    |g.members| > 0 && g.first == g.members[0]
  }

  /** Some bucket of gs belongs to space s and app key k. */
  predicate HasGroup(gs: seq<AppGroup>, s: string, k: string) {
    exists j :: 0 <= j < |gs| && gs[j].spaceGuid == s && gs[j].appKey == k
  }

  lemma HasGroupAppend(a: seq<AppGroup>, b: seq<AppGroup>, s: string, k: string)
    ensures HasGroup(a, s, k) || HasGroup(b, s, k) ==> HasGroup(a + b, s, k)
  {
    if HasGroup(b, s, k) {
      var j :| 0 <= j < |b| && b[j].spaceGuid == s && b[j].appKey == k;
      assert (a + b)[|a| + j] == b[j];
    }
    if HasGroup(a, s, k) {
      var j :| 0 <= j < |a| && a[j].spaceGuid == s && a[j].appKey == k;
      assert (a + b)[j] == a[j];
    }
  }

  /** g is a nonempty bucket of the app map of space (spaceGuid, spaceName). */
  predicate InAppMap(g: AppGroup, spaceGuid: string, spaceName: string, appMap: map<string, seq<AppRecord>>) {
    && WellFormed(g) && g.spaceGuid == spaceGuid && g.spaceName == spaceName
    && g.appKey in appMap && g.members == appMap[g.appKey]
  }

  /** The buckets of one space's app map, in the order the map is walked; empty buckets are skipped. */
  function WalkApps(spaceGuid: string, spaceName: string, appMap: map<string, seq<AppRecord>>, apps: seq<string>): (gs: seq<AppGroup>)
    requires forall i :: 0 <= i < |apps| ==> apps[i] in appMap
  {
    if apps == [] then []
    else
      var av := appMap[apps[0]];
      var rest := WalkApps(spaceGuid, spaceName, appMap, apps[1..]);
      if |av| > 0 then [AppGroup(spaceGuid, spaceName, apps[0], av[0], av)] + rest else rest
  }

  lemma {:induction false} WalkAppsFacts(spaceGuid: string, spaceName: string, appMap: map<string, seq<AppRecord>>, apps: seq<string>)
    requires forall i :: 0 <= i < |apps| ==> apps[i] in appMap
    ensures forall j :: 0 <= j < |WalkApps(spaceGuid, spaceName, appMap, apps)| ==>
      InAppMap(WalkApps(spaceGuid, spaceName, appMap, apps)[j], spaceGuid, spaceName, appMap)
    ensures forall i :: 0 <= i < |apps| && |appMap[apps[i]]| > 0 ==>
      HasGroup(WalkApps(spaceGuid, spaceName, appMap, apps), spaceGuid, apps[i])
  {
    if apps != [] {
      var av := appMap[apps[0]];
      var rest := WalkApps(spaceGuid, spaceName, appMap, apps[1..]);
      WalkAppsFacts(spaceGuid, spaceName, appMap, apps[1..]);
      var here: seq<AppGroup> := if |av| > 0 then [AppGroup(spaceGuid, spaceName, apps[0], av[0], av)] else [];
      assert WalkApps(spaceGuid, spaceName, appMap, apps) == here + rest;
      forall i | 0 <= i < |apps| && |appMap[apps[i]]| > 0
        ensures HasGroup(here + rest, spaceGuid, apps[i])
      {
        if i == 0 {
          assert here[0].spaceGuid == spaceGuid && here[0].appKey == apps[0];
        } else {
          assert apps[i] == apps[1..][i - 1];
        }
        HasGroupAppend(here, rest, spaceGuid, apps[i]);
      }
      forall j | 0 <= j < |here + rest| ensures InAppMap((here + rest)[j], spaceGuid, spaceName, appMap) {
        if j >= |here| {
          assert (here + rest)[j] == rest[j - |here|];
        }
      }
    }
  }

  /** g is a nonempty bucket of one of the spaces of spaceMap, apps grouped by appKey. */
  predicate InSpaceMap(g: AppGroup, spaceMap: map<string, seq<AppRecord>>, appKey: AppRecord -> string) {
    && g.spaceGuid in spaceMap && |spaceMap[g.spaceGuid]| > 0
    && InAppMap(g, g.spaceGuid, spaceMap[g.spaceGuid][0].spaceName, GroupBy(spaceMap[g.spaceGuid], appKey))
  }

  /** The buckets of every space, spaces walked in turn, each space's apps grouped by appKey. */
  function WalkSpaces(spaceMap: map<string, seq<AppRecord>>, spaces: seq<string>, appKey: AppRecord -> string): (gs: seq<AppGroup>)
    requires forall i :: 0 <= i < |spaces| ==> spaces[i] in spaceMap
  {
    if spaces == [] then []
    else
      var v := spaceMap[spaces[0]];
      var rest := WalkSpaces(spaceMap, spaces[1..], appKey);
      if |v| > 0 then WalkApps(spaces[0], v[0].spaceName, GroupBy(v, appKey), KeyOrder(v, appKey)) + rest
      else rest
  }

  lemma {:induction false} WalkSpacesFacts(spaceMap: map<string, seq<AppRecord>>, spaces: seq<string>, appKey: AppRecord -> string)
    requires forall i :: 0 <= i < |spaces| ==> spaces[i] in spaceMap
    ensures forall j :: 0 <= j < |WalkSpaces(spaceMap, spaces, appKey)| ==>
      InSpaceMap(WalkSpaces(spaceMap, spaces, appKey)[j], spaceMap, appKey)
    ensures forall i, k :: 0 <= i < |spaces| && k in GroupBy(spaceMap[spaces[i]], appKey) ==>
      HasGroup(WalkSpaces(spaceMap, spaces, appKey), spaces[i], k)
  {
    if spaces != [] {
      var s := spaces[0];
      var v := spaceMap[s];
      var rest := WalkSpaces(spaceMap, spaces[1..], appKey);
      WalkSpacesFacts(spaceMap, spaces[1..], appKey);
      var appMap := GroupBy(v, appKey);
      var apps := KeyOrder(v, appKey);
      var here := if |v| > 0 then WalkApps(s, v[0].spaceName, appMap, apps) else [];
      assert WalkSpaces(spaceMap, spaces, appKey) == here + rest;
      if |v| > 0 {
        WalkAppsFacts(s, v[0].spaceName, appMap, apps);
      }
      forall i, k | 0 <= i < |spaces| && k in GroupBy(spaceMap[spaces[i]], appKey)
        ensures HasGroup(here + rest, spaces[i], k)
      {
        if i == 0 {
          assert k in KeySet(v, appKey);
          var ai :| 0 <= ai < |apps| && apps[ai] == k;
        } else {
          assert spaces[i] == spaces[1..][i - 1];
        }
        HasGroupAppend(here, rest, spaces[i], k);
      }
      forall j | 0 <= j < |here + rest| ensures InSpaceMap((here + rest)[j], spaceMap, appKey) {
        if j >= |here| {
          assert (here + rest)[j] == rest[j - |here|];
        } else {
          assert (here + rest)[j] == here[j];
        }
      }
    }
  }

  /** The (space, app) buckets of the whole input, in the order the nested forEach visits them. */
  function AppGroups(recs: seq<AppRecord>, appKey: AppRecord -> string): seq<AppGroup> {
    WalkSpaces(GroupBy(recs, SpaceGuidOf), KeyOrder(recs, SpaceGuidOf), appKey)
  }

  /** The records of space s whose app key is k. */
  function Bucket(recs: seq<AppRecord>, appKey: AppRecord -> string, s: string, k: string): seq<AppRecord> {
    Select(Select(recs, SpaceGuidOf, s), appKey, k)
  }

  /** The name of space s as the first of its records carries it. */
  function SpaceNameOf(recs: seq<AppRecord>, s: string): string
    requires s in KeySet(recs, SpaceGuidOf)
  {
    SelectMembers(recs, SpaceGuidOf, s);
    var i :| 0 <= i < |recs| && recs[i].spaceGuid == s;
    assert recs[i] in Select(recs, SpaceGuidOf, s);
    Select(recs, SpaceGuidOf, s)[0].spaceName
  }

  /** g holds exactly the records of its (space, app) pair and is named after its space's first record. */
  predicate IsBucketOf(recs: seq<AppRecord>, appKey: AppRecord -> string, g: AppGroup) {
    && WellFormed(g) && g.spaceGuid in KeySet(recs, SpaceGuidOf)
    && g.spaceName == SpaceNameOf(recs, g.spaceGuid)
    && g.members == Bucket(recs, appKey, g.spaceGuid, g.appKey)
    && g.first in recs && g.first.spaceGuid == g.spaceGuid && appKey(g.first) == g.appKey
  }

  lemma BucketOfSpaceMap(recs: seq<AppRecord>, appKey: AppRecord -> string, g: AppGroup)
    requires InSpaceMap(g, GroupBy(recs, SpaceGuidOf), appKey)
    ensures IsBucketOf(recs, appKey, g)
  {
    var v := Select(recs, SpaceGuidOf, g.spaceGuid);
    assert g.members == Select(v, appKey, g.appKey);
    SelectMembers(v, appKey, g.appKey);
    SelectMembers(recs, SpaceGuidOf, g.spaceGuid);
    assert g.first == g.members[0];
    assert g.first in v;
  }

  lemma RecordHasGroup(recs: seq<AppRecord>, appKey: AppRecord -> string, i: int)
    requires 0 <= i < |recs|
    ensures HasGroup(AppGroups(recs, appKey), recs[i].spaceGuid, appKey(recs[i]))
  {
    var spaceMap := GroupBy(recs, SpaceGuidOf);
    var spaces := KeyOrder(recs, SpaceGuidOf);
    WalkSpacesFacts(spaceMap, spaces, appKey);
    var s := recs[i].spaceGuid;
    assert s in KeySet(recs, SpaceGuidOf);
    var si :| 0 <= si < |spaces| && spaces[si] == s;
    var v := Select(recs, SpaceGuidOf, s);
    SelectMembers(recs, SpaceGuidOf, s);
    var vi :| 0 <= vi < |v| && v[vi] == recs[i];
    assert appKey(v[vi]) in KeySet(v, appKey);
  }

  /** Every bucket is the bucket of its (space, app) pair, and every record lands in a bucket. */
  lemma AppGroupsFacts(recs: seq<AppRecord>, appKey: AppRecord -> string)
    ensures forall j :: 0 <= j < |AppGroups(recs, appKey)| ==> IsBucketOf(recs, appKey, AppGroups(recs, appKey)[j])
    ensures forall i :: 0 <= i < |recs| ==> HasGroup(AppGroups(recs, appKey), recs[i].spaceGuid, appKey(recs[i]))
  {
    var gs := AppGroups(recs, appKey);
    WalkSpacesFacts(GroupBy(recs, SpaceGuidOf), KeyOrder(recs, SpaceGuidOf), appKey);
    forall j | 0 <= j < |gs| ensures IsBucketOf(recs, appKey, gs[j]) {
      BucketOfSpaceMap(recs, appKey, gs[j]);
    }
    forall i | 0 <= i < |recs| ensures HasGroup(gs, recs[i].spaceGuid, appKey(recs[i])) {
      RecordHasGroup(recs, appKey, i);
    }
  }

  // ---------------------------------------------------------------------
  // The older version: Usage/controller/UsageService.appUsage
  // ---------------------------------------------------------------------

  function LegacySpace(spaceGuid: string, v: seq<AppRecord>, metrics: LegacyAppMetrics): SpaceUsage
    requires |v| > 0
  {
    SpaceUsage(spaceGuid, v[0].spaceName, metrics.uniqueApps(v), |v|, metrics.totalMbPerAis(v), metrics.totalDuration(v))
  }

  function LegacyApp(g: AppGroup, metrics: LegacyAppMetrics): AUsage {
    AUsage(g.spaceGuid, g.spaceName, g.first.appGuid, g.first.appName, |g.members|,
           metrics.totalMbPerAis(g.members), metrics.totalDuration(g.members))
  }

  function GroupAppKey(g: AppGroup): string {
    g.appKey
  }

  /** su is the SpaceUsage the older version builds for space s: every field taken from the space's records. */
  predicate LegacySpaceEntry(recs: seq<AppRecord>, metrics: LegacyAppMetrics, s: string, su: SpaceUsage)
    requires s in KeySet(recs, SpaceGuidOf)
  {
    var v := Select(recs, SpaceGuidOf, s);
    && su.spaceGuid == s
    && su.spaceName == SpaceNameOf(recs, s)
    && su.totalAis == |v|
    && su.totalApps == metrics.uniqueApps(v)
    && su.totalMbPerAis == metrics.totalMbPerAis(v)
    && su.aiDurationInSecs == metrics.totalDuration(v)
  }

  /**
   * a is the AUsage the older version stores under app guid k: built from the
   * records of k in one space where k occurs, and naming that space.
   */
  predicate LegacyAppEntry(recs: seq<AppRecord>, metrics: LegacyAppMetrics, spaces: map<string, SpaceUsage>, k: string, a: AUsage) {
    var b := Bucket(recs, AppGuidOf, a.spaceGuid, k);
    && a.appGuid == k && a.spaceGuid in spaces
    && a.spaceName == spaces[a.spaceGuid].spaceName
    && (exists i :: 0 <= i < |recs| && recs[i].appGuid == k && recs[i].spaceGuid == a.spaceGuid)
    && |b| > 0 && a.appName == b[0].appName
    && a.totalAis == |b|
    && a.totalMbPerAis == metrics.totalMbPerAis(b)
    && a.aiDurationInSecs == metrics.totalDuration(b)
  }

  /**
   * appUsage of the older service, after parsing: spaces keyed by space guid,
   * apps grouped by app guid and stored under it.
   */
  function LegacyAppRollup(orgGuid: string, year: int, quarter: int, recs: seq<AppRecord>, metrics: LegacyAppMetrics): (r: OrgUsage)
    ensures r.orgGuid == orgGuid && r.year == year && r.quarter == quarter
    ensures r.spaceUsage.Keys == KeySet(recs, SpaceGuidOf)
    ensures forall s :: s in r.spaceUsage ==> LegacySpaceEntry(recs, metrics, s, r.spaceUsage[s])
    ensures r.aUsage.Keys == KeySet(recs, AppGuidOf)
    ensures forall k :: k in r.aUsage ==> LegacyAppEntry(recs, metrics, r.spaceUsage, k, r.aUsage[k])
  {
    var spaces := LegacySpaces(recs, metrics);
    var apps := LegacyApps(recs, metrics);
    LegacySpacesFacts(recs, metrics);
    LegacyAppsFacts(recs, metrics);
    OrgUsage(orgGuid, year, quarter, spaces, apps)
  }

  /** One SpaceUsage per space guid, from that space's records. */
  function LegacySpaces(recs: seq<AppRecord>, metrics: LegacyAppMetrics): map<string, SpaceUsage> {
    var spaceMap := GroupBy(recs, SpaceGuidOf);
    map s | s in spaceMap && |spaceMap[s]| > 0 :: LegacySpace(s, spaceMap[s], metrics)
  }

  /** One AUsage per bucket, stored under its app guid; a later bucket of the same guid overwrites. */
  function LegacyApps(recs: seq<AppRecord>, metrics: LegacyAppMetrics): map<string, AUsage> {
    var last := LastByKey(AppGroups(recs, AppGuidOf), GroupAppKey);
    map k | k in last :: LegacyApp(last[k], metrics)
  }

  lemma LegacySpacesFacts(recs: seq<AppRecord>, metrics: LegacyAppMetrics)
    ensures LegacySpaces(recs, metrics).Keys == KeySet(recs, SpaceGuidOf)
    ensures forall s :: s in LegacySpaces(recs, metrics) ==> LegacySpaceEntry(recs, metrics, s, LegacySpaces(recs, metrics)[s])
  {
    var spaceMap := GroupBy(recs, SpaceGuidOf);
    var m := LegacySpaces(recs, metrics);
    assert m.Keys == spaceMap.Keys;
    forall s | s in m ensures LegacySpaceEntry(recs, metrics, s, m[s]) {
      assert spaceMap[s] == Select(recs, SpaceGuidOf, s);
      assert m[s] == LegacySpace(s, spaceMap[s], metrics);
    }
  }

  lemma GroupIsBucket(recs: seq<AppRecord>, appKey: AppRecord -> string, j: int)
    requires 0 <= j < |AppGroups(recs, appKey)|
    ensures IsBucketOf(recs, appKey, AppGroups(recs, appKey)[j])
  {
    WalkSpacesFacts(GroupBy(recs, SpaceGuidOf), KeyOrder(recs, SpaceGuidOf), appKey);
    BucketOfSpaceMap(recs, appKey, AppGroups(recs, appKey)[j]);
  }

  lemma BucketKeyOfRecords(recs: seq<AppRecord>, appKey: AppRecord -> string, g: AppGroup)
    requires IsBucketOf(recs, appKey, g)
    ensures g.appKey in KeySet(recs, appKey)
  {
    var i :| 0 <= i < |recs| && recs[i] == g.first;
  }

  lemma RecordKeyOfGroups(recs: seq<AppRecord>, appKey: AppRecord -> string, i: int)
    requires 0 <= i < |recs|
    ensures appKey(recs[i]) in KeySet(AppGroups(recs, appKey), GroupAppKey)
  {
    var gs := AppGroups(recs, appKey);
    RecordHasGroup(recs, appKey, i);
    var j :| 0 <= j < |gs| && gs[j].spaceGuid == recs[i].spaceGuid && gs[j].appKey == appKey(recs[i]);
    assert GroupAppKey(gs[j]) == appKey(recs[i]);
  }

  lemma GroupKeysOfRecords(recs: seq<AppRecord>, appKey: AppRecord -> string, gs: seq<AppGroup>)
    requires forall j :: 0 <= j < |gs| ==> gs[j].appKey in KeySet(recs, appKey)
    ensures KeySet(gs, GroupAppKey) <= KeySet(recs, appKey)
  {
    forall k | k in KeySet(gs, GroupAppKey) ensures k in KeySet(recs, appKey) {
      var j :| 0 <= j < |gs| && GroupAppKey(gs[j]) == k;
    }
  }

  lemma RecordKeysOfGroups(recs: seq<AppRecord>, appKey: AppRecord -> string, gs: seq<AppGroup>)
    requires gs == AppGroups(recs, appKey)
    ensures KeySet(recs, appKey) <= KeySet(gs, GroupAppKey)
  {
    forall k | k in KeySet(recs, appKey) ensures k in KeySet(gs, GroupAppKey) {
      var i :| 0 <= i < |recs| && appKey(recs[i]) == k;
      RecordKeyOfGroups(recs, appKey, i);
    }
  }

  /** Storing the buckets under their app keys gives exactly the keys of the records. */
  lemma BucketKeys(recs: seq<AppRecord>, appKey: AppRecord -> string)
    ensures KeySet(AppGroups(recs, appKey), GroupAppKey) == KeySet(recs, appKey)
  {
    var gs := AppGroups(recs, appKey);
    forall j | 0 <= j < |gs| ensures gs[j].appKey in KeySet(recs, appKey) {
      GroupIsBucket(recs, appKey, j);
      BucketKeyOfRecords(recs, appKey, gs[j]);
    }
    GroupKeysOfRecords(recs, appKey, gs);
    RecordKeysOfGroups(recs, appKey, gs);
  }

  lemma LegacyAppEntryOfGroup(recs: seq<AppRecord>, metrics: LegacyAppMetrics, j: int)
    requires 0 <= j < |AppGroups(recs, AppGuidOf)|
    ensures var g := AppGroups(recs, AppGuidOf)[j];
      LegacyAppEntry(recs, metrics, LegacySpaces(recs, metrics), g.appKey, LegacyApp(g, metrics))
  {
    var g := AppGroups(recs, AppGuidOf)[j];
    GroupIsBucket(recs, AppGuidOf, j);
    var i :| 0 <= i < |recs| && recs[i] == g.first;
    LegacySpacesFacts(recs, metrics);
    assert LegacySpaceEntry(recs, metrics, g.spaceGuid, LegacySpaces(recs, metrics)[g.spaceGuid]);
  }

  lemma LegacyAppsStoreLast(recs: seq<AppRecord>, metrics: LegacyAppMetrics)
    ensures LegacyApps(recs, metrics).Keys == LastByKey(AppGroups(recs, AppGuidOf), GroupAppKey).Keys
  {
  }

  lemma LegacyAppsKeys(recs: seq<AppRecord>, metrics: LegacyAppMetrics)
    ensures LegacyApps(recs, metrics).Keys == KeySet(recs, AppGuidOf)
  {
    LegacyAppsStoreLast(recs, metrics);
    BucketKeys(recs, AppGuidOf);
  }

  lemma LegacyAppsEntries(recs: seq<AppRecord>, metrics: LegacyAppMetrics, k: string)
    requires k in LegacyApps(recs, metrics)
    ensures LegacyAppEntry(recs, metrics, LegacySpaces(recs, metrics), k, LegacyApps(recs, metrics)[k])
  {
    var gs := AppGroups(recs, AppGuidOf);
    var j := LastByKeyIndex(gs, GroupAppKey, k);
    assert LegacyApps(recs, metrics)[k] == LegacyApp(gs[j], metrics);
    LegacyAppEntryOfGroup(recs, metrics, j);
  }

  lemma LegacyAppsFacts(recs: seq<AppRecord>, metrics: LegacyAppMetrics)
    ensures LegacyApps(recs, metrics).Keys == KeySet(recs, AppGuidOf)
    ensures forall k :: k in LegacyApps(recs, metrics) ==>
      LegacyAppEntry(recs, metrics, LegacySpaces(recs, metrics), k, LegacyApps(recs, metrics)[k])
  {
    LegacyAppsKeys(recs, metrics);
    forall k | k in LegacyApps(recs, metrics)
      ensures LegacyAppEntry(recs, metrics, LegacySpaces(recs, metrics), k, LegacyApps(recs, metrics)[k])
    {
      LegacyAppsEntries(recs, metrics, k);
    }
  }

  function TotalAisOfSpace(s: SpaceUsage): int {
    s.totalAis
  }

  function TotalAisOfApp(a: AUsage): int {
    a.totalAis
  }

  /** The spaces' instance counts add up to the number of records. */
  lemma LegacySpaceCountsSum(orgGuid: string, year: int, quarter: int, recs: seq<AppRecord>, metrics: LegacyAppMetrics)
    ensures MapSum(LegacyAppRollup(orgGuid, year, quarter, recs, metrics).spaceUsage, TotalAisOfSpace) == |recs|
  {
    var spaces := LegacySpaces(recs, metrics);
    var groups := GroupBy(recs, SpaceGuidOf);
    LegacySpacesFacts(recs, metrics);
    forall s | s in spaces ensures TotalAisOfSpace(spaces[s]) == Length(groups[s]) {
      assert LegacySpaceEntry(recs, metrics, s, spaces[s]);
    }
    MapSumCongruent(spaces, TotalAisOfSpace, groups, Length);
    GroupSizesSum(recs, SpaceGuidOf);
  }

  /** Within one space, the per-app record counts add up to the space's instance count. */
  lemma LegacyAppCountsSumToSpace(orgGuid: string, year: int, quarter: int, recs: seq<AppRecord>, metrics: LegacyAppMetrics, s: string)
    requires s in LegacyAppRollup(orgGuid, year, quarter, recs, metrics).spaceUsage
    ensures MapSum(GroupBy(Select(recs, SpaceGuidOf, s), AppGuidOf), Length)
         == LegacyAppRollup(orgGuid, year, quarter, recs, metrics).spaceUsage[s].totalAis
  {
    LegacySpacesFacts(recs, metrics);
    assert LegacySpaceEntry(recs, metrics, s, LegacySpaces(recs, metrics)[s]);
    GroupSizesSum(Select(recs, SpaceGuidOf, s), AppGuidOf);
  }

  /** Every app guid occurs in one space only. */
  predicate AppsStayInOneSpace(recs: seq<AppRecord>) {
    forall i, j :: 0 <= i < |recs| && 0 <= j < |recs| && recs[i].appGuid == recs[j].appGuid ==>
      recs[i].spaceGuid == recs[j].spaceGuid
  }

  /** The bucket of an app in the one space it occurs in holds all of its records. */
  lemma BucketOfSoleSpace(recs: seq<AppRecord>, k: string, s: string, i: int)
    requires AppsStayInOneSpace(recs)
    requires 0 <= i < |recs| && recs[i].appGuid == k && recs[i].spaceGuid == s
    ensures Bucket(recs, AppGuidOf, s, k) == Select(recs, AppGuidOf, k)
  {
    forall j | 0 <= j < |recs| && AppGuidOf(recs[j]) == k ensures SpaceGuidOf(recs[j]) == s {
      assert recs[i].appGuid == recs[j].appGuid;
    }
    SelectRefines(recs, SpaceGuidOf, s, AppGuidOf, k);
  }

  lemma LegacyAppCountIsRecordCount(recs: seq<AppRecord>, metrics: LegacyAppMetrics, k: string)
    requires AppsStayInOneSpace(recs)
    requires k in LegacyApps(recs, metrics)
    ensures LegacyApps(recs, metrics)[k].totalAis == |Select(recs, AppGuidOf, k)|
  {
    LegacyAppsFacts(recs, metrics);
    var a := LegacyApps(recs, metrics)[k];
    assert LegacyAppEntry(recs, metrics, LegacySpaces(recs, metrics), k, a);
    assert a.totalAis == |Bucket(recs, AppGuidOf, a.spaceGuid, k)|;
    var i :| 0 <= i < |recs| && recs[i].appGuid == k && recs[i].spaceGuid == a.spaceGuid;
    BucketOfSoleSpace(recs, k, a.spaceGuid, i);
  }

  /**
   * When no app guid spans two spaces, no AUsage is overwritten: each app's
   * count is the number of its records, and the counts add up to the input length.
   */
  lemma LegacyAppCountsSum(orgGuid: string, year: int, quarter: int, recs: seq<AppRecord>, metrics: LegacyAppMetrics)
    requires AppsStayInOneSpace(recs)
    ensures forall k :: k in LegacyAppRollup(orgGuid, year, quarter, recs, metrics).aUsage ==>
      LegacyAppRollup(orgGuid, year, quarter, recs, metrics).aUsage[k].totalAis == |Select(recs, AppGuidOf, k)|
    ensures MapSum(LegacyAppRollup(orgGuid, year, quarter, recs, metrics).aUsage, TotalAisOfApp) == |recs|
  {
    var apps := LegacyApps(recs, metrics);
    var groups := GroupBy(recs, AppGuidOf);
    LegacyAppsFacts(recs, metrics);
    forall k | k in apps ensures TotalAisOfApp(apps[k]) == Length(groups[k]) {
      LegacyAppCountIsRecordCount(recs, metrics, k);
    }
    MapSumCongruent(apps, TotalAisOfApp, groups, Length);
    GroupSizesSum(recs, AppGuidOf);
  }

  /** The apps a rollup stores for space s: those whose AUsage names s. */
  function AppsOfSpace(apps: map<string, AUsage>, s: string): (m: map<string, AUsage>)
    ensures forall k :: k in m <==> k in apps && apps[k].spaceGuid == s
    ensures forall k :: k in m ==> m[k] == apps[k]
  {
    map k | k in apps && apps[k].spaceGuid == s :: apps[k]
  }

  /** Every stored app names a space where one of its records lies. */
  ghost predicate StoredInRecordSpaces(recs: seq<AppRecord>, apps: map<string, AUsage>) {
    forall k :: k in apps ==> exists i :: 0 <= i < |recs| && recs[i].appGuid == k && recs[i].spaceGuid == apps[k].spaceGuid
  }

  /** Record j of space s's records, as an index into recs. */
  lemma SpaceRecordIndex(recs: seq<AppRecord>, s: string, j: int) returns (i: int)
    requires 0 <= j < |Select(recs, SpaceGuidOf, s)|
    ensures 0 <= i < |recs| && recs[i] == Select(recs, SpaceGuidOf, s)[j] && recs[i].spaceGuid == s
  {
    SelectMembers(recs, SpaceGuidOf, s);
    var v := Select(recs, SpaceGuidOf, s);
    assert v[j] in recs;
    i :| 0 <= i < |recs| && recs[i] == v[j];
  }

  /** A stored app that names space s has a record in s. */
  lemma StoredAppInSpace(recs: seq<AppRecord>, apps: map<string, AUsage>, s: string, k: string)
    requires StoredInRecordSpaces(recs, apps)
    requires k in apps && apps[k].spaceGuid == s
    ensures k in KeySet(Select(recs, SpaceGuidOf, s), AppGuidOf)
  {
    var i :| 0 <= i < |recs| && recs[i].appGuid == k && recs[i].spaceGuid == apps[k].spaceGuid;
    SelectMembers(recs, SpaceGuidOf, s);
    var v := Select(recs, SpaceGuidOf, s);
    assert recs[i] in v;
    var j :| 0 <= j < |v| && v[j] == recs[i];
    assert AppGuidOf(v[j]) == k;
  }

  /** With no app guid spanning two spaces, a stored app names the space of each of its records. */
  lemma StoredSpaceIsRecordSpace(recs: seq<AppRecord>, apps: map<string, AUsage>, i: int)
    requires AppsStayInOneSpace(recs)
    requires StoredInRecordSpaces(recs, apps)
    requires 0 <= i < |recs| && recs[i].appGuid in apps
    ensures apps[recs[i].appGuid].spaceGuid == recs[i].spaceGuid
  {
    var k := recs[i].appGuid;
    var i2 :| 0 <= i2 < |recs| && recs[i2].appGuid == k && recs[i2].spaceGuid == apps[k].spaceGuid;
    assert recs[i].appGuid == recs[i2].appGuid;
  }

  /** An app with a record in space s is stored naming s, when no app guid spans two spaces. */
  lemma SpaceAppIsStored(recs: seq<AppRecord>, apps: map<string, AUsage>, s: string, k: string)
    requires AppsStayInOneSpace(recs)
    requires StoredInRecordSpaces(recs, apps)
    requires apps.Keys == KeySet(recs, AppGuidOf)
    requires k in KeySet(Select(recs, SpaceGuidOf, s), AppGuidOf)
    ensures k in apps && apps[k].spaceGuid == s
  {
    var v := Select(recs, SpaceGuidOf, s);
    var j :| 0 <= j < |v| && AppGuidOf(v[j]) == k;
    var i := SpaceRecordIndex(recs, s, j);
    assert AppGuidOf(recs[i]) in KeySet(recs, AppGuidOf);
    StoredSpaceIsRecordSpace(recs, apps, i);
  }

  /** The apps stored for space s are exactly the app guids of its records. */
  lemma AppsOfSpaceKeys(recs: seq<AppRecord>, apps: map<string, AUsage>, s: string)
    requires AppsStayInOneSpace(recs)
    requires StoredInRecordSpaces(recs, apps)
    requires apps.Keys == KeySet(recs, AppGuidOf)
    ensures AppsOfSpace(apps, s).Keys == KeySet(Select(recs, SpaceGuidOf, s), AppGuidOf)
  {
    var m := AppsOfSpace(apps, s);
    forall k | k in m ensures k in KeySet(Select(recs, SpaceGuidOf, s), AppGuidOf) {
      StoredAppInSpace(recs, apps, s, k);
    }
    forall k | k in KeySet(Select(recs, SpaceGuidOf, s), AppGuidOf) ensures k in m {
      SpaceAppIsStored(recs, apps, s, k);
    }
  }

  /** The records of an app stored for space s are its bucket in s. */
  lemma StoredAppBucket(recs: seq<AppRecord>, apps: map<string, AUsage>, s: string, k: string)
    requires AppsStayInOneSpace(recs)
    requires StoredInRecordSpaces(recs, apps)
    requires k in apps && apps[k].spaceGuid == s
    ensures Select(recs, AppGuidOf, k) == Select(Select(recs, SpaceGuidOf, s), AppGuidOf, k)
  {
    var i :| 0 <= i < |recs| && recs[i].appGuid == k && recs[i].spaceGuid == apps[k].spaceGuid;
    BucketOfSoleSpace(recs, k, s, i);
  }

  /**
   * Stored counts that are record counts add up, over the apps of space s,
   * to the number of records in s.
   */
  lemma AppsOfSpaceSum(recs: seq<AppRecord>, apps: map<string, AUsage>, s: string)
    requires AppsStayInOneSpace(recs)
    requires StoredInRecordSpaces(recs, apps)
    requires apps.Keys == KeySet(recs, AppGuidOf)
    requires forall k :: k in apps ==> apps[k].totalAis == |Select(recs, AppGuidOf, k)|
    ensures MapSum(AppsOfSpace(apps, s), TotalAisOfApp) == |Select(recs, SpaceGuidOf, s)|
  {
    var m := AppsOfSpace(apps, s);
    var v := Select(recs, SpaceGuidOf, s);
    var groups := GroupBy(v, AppGuidOf);
    AppsOfSpaceKeys(recs, apps, s);
    forall k | k in m ensures TotalAisOfApp(m[k]) == Length(groups[k]) {
      StoredAppBucket(recs, apps, s, k);
    }
    MapSumCongruent(m, TotalAisOfApp, groups, Length);
    GroupSizesSum(v, AppGuidOf);
  }

  lemma LegacyAppsInRecordSpaces(recs: seq<AppRecord>, metrics: LegacyAppMetrics)
    ensures StoredInRecordSpaces(recs, LegacyApps(recs, metrics))
  {
    var apps := LegacyApps(recs, metrics);
    forall k | k in apps
      ensures exists i :: 0 <= i < |recs| && recs[i].appGuid == k && recs[i].spaceGuid == apps[k].spaceGuid
    {
      LegacyAppsEntries(recs, metrics, k);
    }
  }

  lemma LegacyRollupParts(orgGuid: string, year: int, quarter: int, recs: seq<AppRecord>, metrics: LegacyAppMetrics)
    ensures LegacyAppRollup(orgGuid, year, quarter, recs, metrics).aUsage == LegacyApps(recs, metrics)
    ensures LegacyAppRollup(orgGuid, year, quarter, recs, metrics).spaceUsage == LegacySpaces(recs, metrics)
  {
  }

  lemma LegacySpaceTotal(recs: seq<AppRecord>, metrics: LegacyAppMetrics, s: string)
    requires s in LegacySpaces(recs, metrics)
    ensures LegacySpaces(recs, metrics)[s].totalAis == |Select(recs, SpaceGuidOf, s)|
  {
    LegacySpacesFacts(recs, metrics);
    assert LegacySpaceEntry(recs, metrics, s, LegacySpaces(recs, metrics)[s]);
  }

  lemma LegacyAppCounts(recs: seq<AppRecord>, metrics: LegacyAppMetrics)
    requires AppsStayInOneSpace(recs)
    ensures forall k :: k in LegacyApps(recs, metrics) ==> LegacyApps(recs, metrics)[k].totalAis == |Select(recs, AppGuidOf, k)|
  {
    forall k | k in LegacyApps(recs, metrics) ensures LegacyApps(recs, metrics)[k].totalAis == |Select(recs, AppGuidOf, k)| {
      LegacyAppCountIsRecordCount(recs, metrics, k);
    }
  }

  /**
   * When no app guid spans two spaces, the instance counts of the AUsage
   * entries stored for a space add up to that space's instance count.
   */
  lemma LegacyStoredAppCountsSumToSpace(orgGuid: string, year: int, quarter: int, recs: seq<AppRecord>, metrics: LegacyAppMetrics, s: string)
    requires AppsStayInOneSpace(recs)
    requires s in LegacyAppRollup(orgGuid, year, quarter, recs, metrics).spaceUsage
    ensures var r := LegacyAppRollup(orgGuid, year, quarter, recs, metrics);
      MapSum(AppsOfSpace(r.aUsage, s), TotalAisOfApp) == r.spaceUsage[s].totalAis
  {
    LegacyRollupParts(orgGuid, year, quarter, recs, metrics);
    LegacyStoredCounts(recs, metrics, s);
  }

  lemma LegacyStoredCounts(recs: seq<AppRecord>, metrics: LegacyAppMetrics, s: string)
    requires AppsStayInOneSpace(recs)
    requires s in LegacySpaces(recs, metrics)
    ensures MapSum(AppsOfSpace(LegacyApps(recs, metrics), s), TotalAisOfApp) == LegacySpaces(recs, metrics)[s].totalAis
  {
    LegacySpaceTotal(recs, metrics, s);
    LegacyAppsKeys(recs, metrics);
    LegacyAppsInRecordSpaces(recs, metrics);
    LegacyAppCounts(recs, metrics);
    AppsOfSpaceSum(recs, LegacyApps(recs, metrics), s);
  }

  // ---------------------------------------------------------------------
  // The newer version: usage/service/UsageService.generateAppUsage
  // ---------------------------------------------------------------------

  /** The key an app is stored under: its name, a dash and its space's name. */
  function StorageKey(g: AppGroup): string {
    g.appKey + "-" + g.spaceName
  }

  /** The storage key of the app of record i, its space named after the space's first record. */
  function RecordStorageKey(recs: seq<AppRecord>, i: int): string
    requires 0 <= i < |recs|
  {
    recs[i].appName + "-" + SpaceNameOf(recs, recs[i].spaceGuid)
  }

  function StorageKeys(recs: seq<AppRecord>): set<string> {
    set i | 0 <= i < |recs| :: RecordStorageKey(recs, i)
  }

  /** The AUsage the newer version builds for one bucket; its instance count is never set. */
  function NewApp(g: AppGroup, days: int, metrics: AppMetrics): AUsage {
    AUsage(g.spaceGuid, g.spaceName, g.first.appGuid, g.first.appName, 0,
           metrics.totalMbPerAis(g.members), metrics.totalDuration(g.members, days))
  }

  /** The space's memory-time total after folding the apps of gs, in turn, into acc. */
  function MbFold(gs: seq<AppGroup>, acc: int, days: int, metrics: AppMetrics): int {
    if gs == [] then acc
    else
      var a := NewApp(gs[0], days, metrics);
      MbFold(gs[1..], metrics.accumulateMb(acc, a.totalMbPerAis, a.aiDurationInSecs), days, metrics)
  }

  /**
   * ks lists every app name of appMap exactly once: an order in which the
   * inner forEach may visit the HashMap of app buckets.
   */
  predicate IsWalkOrder(appMap: map<string, seq<AppRecord>>, ks: seq<string>) {
    && (forall i :: 0 <= i < |ks| ==> ks[i] in appMap)
    && (forall i, j :: 0 <= i < j < |ks| ==> ks[i] != ks[j])
    && (forall k :: k in appMap ==> k in ks)
  }

  /**
   * total is what the space's memory-time fold gives when the apps of space s
   * are visited in some order; which order Java's HashMap takes is not modelled.
   */
  ghost predicate SomeWalkMbFold(recs: seq<AppRecord>, s: string, days: int, metrics: AppMetrics, total: int)
    requires s in KeySet(recs, SpaceGuidOf)
  {
    var appMap := GroupBy(Select(recs, SpaceGuidOf, s), AppNameOf);
    exists ks :: IsWalkOrder(appMap, ks) && total == MbFold(WalkApps(s, SpaceNameOf(recs, s), appMap, ks), 0, days, metrics)
  }

  function NewSpace(s: string, v: seq<AppRecord>, days: int, metrics: AppMetrics): SpaceUsage
    requires |v| > 0
  {
    var apps := WalkApps(s, v[0].spaceName, GroupBy(v, AppNameOf), KeyOrder(v, AppNameOf));
    SpaceUsage(s, v[0].spaceName, metrics.uniqueApps(v), 0, MbFold(apps, 0, days, metrics), metrics.totalDuration(v, days))
  }

  /** su is the SpaceUsage the newer version builds for space s. */
  ghost predicate NewSpaceEntry(recs: seq<AppRecord>, days: int, metrics: AppMetrics, s: string, su: SpaceUsage)
    requires s in KeySet(recs, SpaceGuidOf)
  {
    var v := Select(recs, SpaceGuidOf, s);
    && su.spaceGuid == s
    && su.spaceName == SpaceNameOf(recs, s)
    && su.totalAis == 0
    && su.totalApps == metrics.uniqueApps(v)
    && SomeWalkMbFold(recs, s, days, metrics, su.totalMbPerAis)
    && su.aiDurationInSecs == metrics.totalDuration(v, days)
  }

  /**
   * a is the AUsage the newer version stores under key k: built from the
   * records of one app name in one space, and k names both.
   */
  predicate NewAppEntry(recs: seq<AppRecord>, days: int, metrics: AppMetrics, spaces: map<string, SpaceUsage>, k: string, a: AUsage) {
    var b := Bucket(recs, AppNameOf, a.spaceGuid, a.appName);
    && a.spaceGuid in spaces
    && a.spaceName == spaces[a.spaceGuid].spaceName
    && k == a.appName + "-" + a.spaceName
    && |b| > 0 && a.appGuid == b[0].appGuid
    && a.totalAis == 0
    && a.totalMbPerAis == metrics.totalMbPerAis(b)
    && a.aiDurationInSecs == metrics.totalDuration(b, days)
  }

  function NewSpaces(recs: seq<AppRecord>, days: int, metrics: AppMetrics): map<string, SpaceUsage> {
    var spaceMap := GroupBy(recs, SpaceGuidOf);
    map s | s in spaceMap && |spaceMap[s]| > 0 :: NewSpace(s, spaceMap[s], days, metrics)
  }

  /** One AUsage per bucket, under its storage key; a later bucket with the same key overwrites. */
  function NewApps(recs: seq<AppRecord>, days: int, metrics: AppMetrics): map<string, AUsage> {
    var last := LastByKey(AppGroups(recs, AppNameOf), StorageKey);
    map k | k in last :: NewApp(last[k], days, metrics)
  }

  /**
   * generateAppUsage, after parsing: spaces keyed by space guid, apps grouped
   * by name within their space and stored under "appName-spaceName".
   */
  function AppRollup(orgGuid: string, year: int, quarter: int, recs: seq<AppRecord>, days: int, metrics: AppMetrics): (r: OrgUsage)
    ensures r.orgGuid == orgGuid && r.year == year && r.quarter == quarter
    ensures r.spaceUsage.Keys == KeySet(recs, SpaceGuidOf)
    ensures forall s :: s in r.spaceUsage ==> NewSpaceEntry(recs, days, metrics, s, r.spaceUsage[s])
    ensures r.aUsage.Keys == StorageKeys(recs)
    ensures forall k :: k in r.aUsage ==> NewAppEntry(recs, days, metrics, r.spaceUsage, k, r.aUsage[k])
  {
    var spaces := NewSpaces(recs, days, metrics);
    var apps := NewApps(recs, days, metrics);
    NewSpacesFacts(recs, days, metrics);
    NewAppsFacts(recs, days, metrics);
    OrgUsage(orgGuid, year, quarter, spaces, apps)
  }

  lemma NewSpacesFacts(recs: seq<AppRecord>, days: int, metrics: AppMetrics)
    ensures NewSpaces(recs, days, metrics).Keys == KeySet(recs, SpaceGuidOf)
    ensures forall s :: s in NewSpaces(recs, days, metrics) ==> NewSpaceEntry(recs, days, metrics, s, NewSpaces(recs, days, metrics)[s])
  {
    var spaces := NewSpaces(recs, days, metrics);
    var spaceMap := GroupBy(recs, SpaceGuidOf);
    forall s | s in spaces ensures NewSpaceEntry(recs, days, metrics, s, spaces[s]) {
      var v := spaceMap[s];
      assert v == Select(recs, SpaceGuidOf, s);
      assert SpaceNameOf(recs, s) == v[0].spaceName;
      var ks := KeyOrder(v, AppNameOf);
      assert IsWalkOrder(GroupBy(v, AppNameOf), ks);
      assert spaces[s].totalMbPerAis == MbFold(WalkApps(s, SpaceNameOf(recs, s), GroupBy(v, AppNameOf), ks), 0, days, metrics);
    }
  }

  lemma BucketStorageKey(recs: seq<AppRecord>, g: AppGroup)
    requires IsBucketOf(recs, AppNameOf, g)
    ensures exists i :: 0 <= i < |recs| && RecordStorageKey(recs, i) == StorageKey(g)
  {
    var i :| 0 <= i < |recs| && recs[i] == g.first;
    assert RecordStorageKey(recs, i) == StorageKey(g);
  }

  lemma RecordStorageKeyOfGroups(recs: seq<AppRecord>, i: int)
    requires 0 <= i < |recs|
    ensures RecordStorageKey(recs, i) in KeySet(AppGroups(recs, AppNameOf), StorageKey)
  {
    var gs := AppGroups(recs, AppNameOf);
    RecordHasGroup(recs, AppNameOf, i);
    var j :| 0 <= j < |gs| && gs[j].spaceGuid == recs[i].spaceGuid && gs[j].appKey == AppNameOf(recs[i]);
    GroupIsBucket(recs, AppNameOf, j);
    assert StorageKey(gs[j]) == RecordStorageKey(recs, i);
  }

  lemma StorageKeysOfGroups(recs: seq<AppRecord>, gs: seq<AppGroup>)
    requires forall j :: 0 <= j < |gs| ==> StorageKey(gs[j]) in StorageKeys(recs)
    ensures KeySet(gs, StorageKey) <= StorageKeys(recs)
  {
    forall k | k in KeySet(gs, StorageKey) ensures k in StorageKeys(recs) {
      var j :| 0 <= j < |gs| && StorageKey(gs[j]) == k;
    }
  }

  /** The buckets' storage keys are exactly the records' storage keys. */
  lemma GroupStorageKeys(recs: seq<AppRecord>)
    ensures KeySet(AppGroups(recs, AppNameOf), StorageKey) == StorageKeys(recs)
  {
    var gs := AppGroups(recs, AppNameOf);
    forall j | 0 <= j < |gs| ensures StorageKey(gs[j]) in StorageKeys(recs) {
      GroupIsBucket(recs, AppNameOf, j);
      BucketStorageKey(recs, gs[j]);
    }
    StorageKeysOfGroups(recs, gs);
    forall k | k in StorageKeys(recs) ensures k in KeySet(gs, StorageKey) {
      var i :| 0 <= i < |recs| && RecordStorageKey(recs, i) == k;
      RecordStorageKeyOfGroups(recs, i);
    }
  }

  lemma NewAppEntryOfGroup(recs: seq<AppRecord>, days: int, metrics: AppMetrics, j: int)
    requires 0 <= j < |AppGroups(recs, AppNameOf)|
    ensures var g := AppGroups(recs, AppNameOf)[j];
      NewAppEntry(recs, days, metrics, NewSpaces(recs, days, metrics), StorageKey(g), NewApp(g, days, metrics))
  {
    var g := AppGroups(recs, AppNameOf)[j];
    GroupIsBucket(recs, AppNameOf, j);
    var i :| 0 <= i < |recs| && recs[i] == g.first;
    NewSpacesFacts(recs, days, metrics);
    assert NewSpaceEntry(recs, days, metrics, g.spaceGuid, NewSpaces(recs, days, metrics)[g.spaceGuid]);
  }

  lemma NewAppsFacts(recs: seq<AppRecord>, days: int, metrics: AppMetrics)
    ensures NewApps(recs, days, metrics).Keys == StorageKeys(recs)
    ensures forall k :: k in NewApps(recs, days, metrics) ==>
      NewAppEntry(recs, days, metrics, NewSpaces(recs, days, metrics), k, NewApps(recs, days, metrics)[k])
  {
    var gs := AppGroups(recs, AppNameOf);
    var last := LastByKey(gs, StorageKey);
    var apps := NewApps(recs, days, metrics);
    GroupStorageKeys(recs);
    forall k | k in apps ensures NewAppEntry(recs, days, metrics, NewSpaces(recs, days, metrics), k, apps[k]) {
      var j := LastByKeyIndex(gs, StorageKey, k);
      NewAppEntryOfGroup(recs, days, metrics, j);
    }
  }

  /** accumulateMb adds a contribution of each app to the running total. */
  ghost predicate Additive(metrics: AppMetrics, contrib: (int, int) -> int) {
    forall acc, mb, secs :: metrics.accumulateMb(acc, mb, secs) == acc + contrib(mb, secs)
  }

  /** What one app's records contribute to the space total under an additive accumulator. */
  function Contribution(metrics: AppMetrics, days: int, contrib: (int, int) -> int): seq<AppRecord> -> int {
    av => contrib(metrics.totalMbPerAis(av), metrics.totalDuration(av, days))
  }

  lemma {:induction false} MbFoldWalk(s: string, name: string, appMap: map<string, seq<AppRecord>>, ks: seq<string>,
                                      n: map<string, seq<AppRecord>>, acc: int, days: int, metrics: AppMetrics, contrib: (int, int) -> int)
    requires Additive(metrics, contrib)
    requires forall i :: 0 <= i < |ks| ==> ks[i] in appMap
    requires forall i, j :: 0 <= i < j < |ks| ==> ks[i] != ks[j]
    requires forall k :: k in n <==> k in ks
    requires forall k :: k in n ==> n[k] == appMap[k] && |n[k]| > 0
    ensures MbFold(WalkApps(s, name, appMap, ks), acc, days, metrics) == acc + MapSum(n, Contribution(metrics, days, contrib))
    decreases |ks|
  {
    var f := Contribution(metrics, days, contrib);
    if ks == [] {
      assert n == map[];
    } else {
      var k := ks[0];
      assert k in n;
      var rest := n - {k};
      MapSumRemove(n, f, k);
      var av := appMap[k];
      var g := AppGroup(s, name, k, av[0], av);
      assert WalkApps(s, name, appMap, ks) == [g] + WalkApps(s, name, appMap, ks[1..]);
      assert ([g] + WalkApps(s, name, appMap, ks[1..]))[1..] == WalkApps(s, name, appMap, ks[1..]);
      var acc' := metrics.accumulateMb(acc, metrics.totalMbPerAis(av), metrics.totalDuration(av, days));
      assert f(av) == contrib(metrics.totalMbPerAis(av), metrics.totalDuration(av, days));
      forall kk ensures kk in rest <==> kk in ks[1..] {
        if kk in ks[1..] {
          var i :| 0 <= i < |ks[1..]| && ks[1..][i] == kk;
          assert ks[i + 1] == kk;
        }
        if kk in rest {
          var i :| 0 <= i < |ks| && ks[i] == kk;
          assert i != 0;
          assert ks[1..][i - 1] == kk;
        }
      }
      MbFoldWalk(s, name, appMap, ks[1..], rest, acc', days, metrics, contrib);
    }
  }

  /** The stored space total is the fold over one walk order of its apps. */
  lemma NewSpaceMb(recs: seq<AppRecord>, days: int, metrics: AppMetrics, s: string)
    requires s in NewSpaces(recs, days, metrics)
    ensures s in KeySet(recs, SpaceGuidOf)
    ensures SomeWalkMbFold(recs, s, days, metrics, NewSpaces(recs, days, metrics)[s].totalMbPerAis)
  {
    var v := GroupBy(recs, SpaceGuidOf)[s];
    assert v == Select(recs, SpaceGuidOf, s);
    assert SpaceNameOf(recs, s) == v[0].spaceName;
    var ks := KeyOrder(v, AppNameOf);
    assert IsWalkOrder(GroupBy(v, AppNameOf), ks);
  }

  /** Under an additive accumulator every walk order folds to the sum over the apps. */
  lemma WalkMbSum(recs: seq<AppRecord>, days: int, metrics: AppMetrics, contrib: (int, int) -> int, s: string, total: int)
    requires Additive(metrics, contrib)
    requires s in KeySet(recs, SpaceGuidOf)
    requires SomeWalkMbFold(recs, s, days, metrics, total)
    ensures total == MapSum(GroupBy(Select(recs, SpaceGuidOf, s), AppNameOf), Contribution(metrics, days, contrib))
  {
    var appMap := GroupBy(Select(recs, SpaceGuidOf, s), AppNameOf);
    var ks :| IsWalkOrder(appMap, ks) && total == MbFold(WalkApps(s, SpaceNameOf(recs, s), appMap, ks), 0, days, metrics);
    MbFoldWalk(s, SpaceNameOf(recs, s), appMap, ks, appMap, 0, days, metrics, contrib);
  }

  lemma SpaceMbSum(recs: seq<AppRecord>, days: int, metrics: AppMetrics, contrib: (int, int) -> int, s: string)
    requires Additive(metrics, contrib)
    requires s in NewSpaces(recs, days, metrics)
    ensures NewSpaces(recs, days, metrics)[s].totalMbPerAis
         == MapSum(GroupBy(Select(recs, SpaceGuidOf, s), AppNameOf), Contribution(metrics, days, contrib))
  {
    NewSpaceMb(recs, days, metrics, s);
    WalkMbSum(recs, days, metrics, contrib, s, NewSpaces(recs, days, metrics)[s].totalMbPerAis);
  }

  /**
   * With an additive accumulator a space's memory total is the sum over its
   * apps, so every order the app map may be walked in gives the same total.
   */
  lemma SpaceMbIsSumOverApps(orgGuid: string, year: int, quarter: int, recs: seq<AppRecord>, days: int, metrics: AppMetrics,
                             contrib: (int, int) -> int, s: string)
    requires Additive(metrics, contrib)
    requires s in AppRollup(orgGuid, year, quarter, recs, days, metrics).spaceUsage
    ensures AppRollup(orgGuid, year, quarter, recs, days, metrics).spaceUsage[s].totalMbPerAis
         == MapSum(GroupBy(Select(recs, SpaceGuidOf, s), AppNameOf), Contribution(metrics, days, contrib))
  {
    assert AppRollup(orgGuid, year, quarter, recs, days, metrics).spaceUsage == NewSpaces(recs, days, metrics);
    SpaceMbSum(recs, days, metrics, contrib, s);
  }

  /** No two different (space, app name) pairs produce the same storage key. */
  predicate StorageKeysSeparate(recs: seq<AppRecord>) {
    forall i, j :: 0 <= i < |recs| && 0 <= j < |recs| && RecordStorageKey(recs, i) == RecordStorageKey(recs, j) ==>
      recs[i].spaceGuid == recs[j].spaceGuid && recs[i].appName == recs[j].appName
  }

  /** Every stored AUsage comes from a record whose storage key it is stored under. */
  lemma NewAppEntryRecord(recs: seq<AppRecord>, days: int, metrics: AppMetrics, k: string, a: AUsage)
    requires NewAppEntry(recs, days, metrics, NewSpaces(recs, days, metrics), k, a)
    ensures exists j :: 0 <= j < |recs| && RecordStorageKey(recs, j) == k && recs[j].spaceGuid == a.spaceGuid && recs[j].appName == a.appName
  {
    var spaces := NewSpaces(recs, days, metrics);
    var b := Bucket(recs, AppNameOf, a.spaceGuid, a.appName);
    var v := Select(recs, SpaceGuidOf, a.spaceGuid);
    SelectMembers(v, AppNameOf, a.appName);
    SelectMembers(recs, SpaceGuidOf, a.spaceGuid);
    assert b[0] in v;
    var j :| 0 <= j < |recs| && recs[j] == b[0];
    NewSpacesFacts(recs, days, metrics);
    assert NewSpaceEntry(recs, days, metrics, a.spaceGuid, spaces[a.spaceGuid]);
    assert RecordStorageKey(recs, j) == k;
  }

  lemma NewAppStored(recs: seq<AppRecord>, days: int, metrics: AppMetrics, i: int)
    requires StorageKeysSeparate(recs)
    requires 0 <= i < |recs|
    ensures var apps := NewApps(recs, days, metrics);
      var k := RecordStorageKey(recs, i);
      && k in apps
      && apps[k].spaceGuid == recs[i].spaceGuid
      && apps[k].appName == recs[i].appName
  {
    var apps := NewApps(recs, days, metrics);
    NewAppsFacts(recs, days, metrics);
    var k := RecordStorageKey(recs, i);
    assert k in StorageKeys(recs);
    NewAppEntryRecord(recs, days, metrics, k, apps[k]);
  }

  /**
   * When storage keys do not collide, every record's app is stored under its
   * own key, built from exactly the records of that app name in that space.
   */
  lemma NewAppExact(orgGuid: string, year: int, quarter: int, recs: seq<AppRecord>, days: int, metrics: AppMetrics, i: int)
    requires StorageKeysSeparate(recs)
    requires 0 <= i < |recs|
    ensures var r := AppRollup(orgGuid, year, quarter, recs, days, metrics);
      var k := RecordStorageKey(recs, i);
      var b := Bucket(recs, AppNameOf, recs[i].spaceGuid, recs[i].appName);
      && k in r.aUsage
      && r.aUsage[k].spaceGuid == recs[i].spaceGuid
      && r.aUsage[k].appName == recs[i].appName
      && r.aUsage[k].totalMbPerAis == metrics.totalMbPerAis(b)
      && r.aUsage[k].aiDurationInSecs == metrics.totalDuration(b, days)
  {
    var r := AppRollup(orgGuid, year, quarter, recs, days, metrics);
    var k := RecordStorageKey(recs, i);
    NewAppStored(recs, days, metrics, i);
    assert r.aUsage == NewApps(recs, days, metrics);
    assert NewAppEntry(recs, days, metrics, r.spaceUsage, k, r.aUsage[k]);
  }

  /** No records, no spaces and no apps, in either version. */
  lemma EmptyAppRollups(orgGuid: string, year: int, quarter: int, days: int, metrics: AppMetrics, legacy: LegacyAppMetrics)
    ensures AppRollup(orgGuid, year, quarter, [], days, metrics).spaceUsage == map[]
    ensures AppRollup(orgGuid, year, quarter, [], days, metrics).aUsage == map[]
    ensures LegacyAppRollup(orgGuid, year, quarter, [], legacy).spaceUsage == map[]
    ensures LegacyAppRollup(orgGuid, year, quarter, [], legacy).aUsage == map[]
  {
  }
}

=== FILE: grouping.dfy ===
/**
 * Collectors.groupingBy and the put-in-a-loop idiom, on sequences.
 *
 * Java's groupingBy builds a HashMap whose buckets keep the encounter order
 * of the stream; the order in which forEach later walks that map is not
 * specified. Here a walk visits keys in first-occurrence order (KeyOrder).
 * The contracts about a walk's result do not depend on that choice: they
 * name "some" bucket or "some" walk order, or hold for every order.
 */
module Grouping {
  import opened Sums

  /** The keys the elements carry. */
  function KeySet<T, K>(xs: seq<T>, key: T -> K): (ks: set<K>)
    ensures forall i :: 0 <= i < |xs| ==> key(xs[i]) in ks
    ensures forall k :: k in ks ==> exists i :: 0 <= i < |xs| && key(xs[i]) == k
  {
    if xs == [] then {} else KeySet(xs[..|xs| - 1], key) + {key(xs[|xs| - 1])}
  }

  /** There are no more distinct keys than elements. */
  lemma {:induction false} KeySetSize<T, K>(xs: seq<T>, key: T -> K)
    ensures |KeySet(xs, key)| <= |xs|
  {
    if xs != [] {
      var init := xs[..|xs| - 1];
      KeySetSize(init, key);
      var k := key(xs[|xs| - 1]);
      if k in KeySet(init, key) {
        assert KeySet(xs, key) == KeySet(init, key);
      }
    }
  }

  /** The elements whose key is k, in their original order. */
  function Select<T, K(==)>(xs: seq<T>, key: T -> K, k: K): (ys: seq<T>)
    ensures |ys| <= |xs|
    ensures k !in KeySet(xs, key) ==> ys == []
  {
    if xs == [] then []
    else
      var last := xs[|xs| - 1];
      Select(xs[..|xs| - 1], key, k) + if key(last) == k then [last] else []
  }

  /** Select keeps exactly the elements whose key is k. */
  lemma {:induction false} SelectMembers<T, K>(xs: seq<T>, key: T -> K, k: K)
    ensures forall i :: 0 <= i < |Select(xs, key, k)| ==> Select(xs, key, k)[i] in xs && key(Select(xs, key, k)[i]) == k
    ensures forall i :: 0 <= i < |xs| && key(xs[i]) == k ==> xs[i] in Select(xs, key, k)
  {
    if xs != [] {
      var prefix := xs[..|xs| - 1];
      SelectMembers(prefix, key, k);
      forall i | 0 <= i < |xs| && key(xs[i]) == k ensures xs[i] in Select(xs, key, k) {
        if i < |xs| - 1 {
          assert xs[i] == prefix[i];
        }
      }
    }
  }

  /** The distinct keys, in the order they first occur. */
  function KeyOrder<T, K(==)>(xs: seq<T>, key: T -> K): (ks: seq<K>)
    ensures forall i, j :: 0 <= i < j < |ks| ==> ks[i] != ks[j]
    ensures forall i :: 0 <= i < |ks| ==> ks[i] in KeySet(xs, key)
    ensures forall k :: k in KeySet(xs, key) ==> k in ks
  {
    if xs == [] then []
    else
      var ks := KeyOrder(xs[..|xs| - 1], key);
      var k := key(xs[|xs| - 1]);
      if k in ks then ks else ks + [k]
  }

  /**
   * Collectors.groupingBy(key): each element in turn is appended to the
   * bucket of its key, a bucket being created on first use.
   */
  function GroupBy<T, K(==)>(xs: seq<T>, key: T -> K): (m: map<K, seq<T>>)
    ensures m.Keys == KeySet(xs, key)
    ensures forall k :: k in m ==> m[k] == Select(xs, key, k) && |m[k]| > 0
  {
    if xs == [] then map[]
    else
      var m := GroupBy(xs[..|xs| - 1], key);
      var x := xs[|xs| - 1];
      var bucket := if key(x) in m then m[key(x)] else [];
      m[key(x) := bucket + [x]]
  }

  /**
   * map.put(key(x), x) for each x in turn: later elements overwrite earlier
   * ones, so each key ends up holding the last element that carries it.
   */
  function LastByKey<T, K(==)>(xs: seq<T>, key: T -> K): (m: map<K, T>)
    ensures m.Keys == KeySet(xs, key)
  {
    if xs == [] then map[]
    else
      var x := xs[|xs| - 1];
      LastByKey(xs[..|xs| - 1], key)[key(x) := x]
  }

  /** The element stored under k is the last one that carries k. */
  lemma {:induction false} LastByKeyIsLast<T, K>(xs: seq<T>, key: T -> K, k: K)
    requires k in LastByKey(xs, key)
    ensures |Select(xs, key, k)| > 0 && LastByKey(xs, key)[k] == Select(xs, key, k)[|Select(xs, key, k)| - 1]
  {
    assert xs != [];
    var prefix := xs[..|xs| - 1];
    var x := xs[|xs| - 1];
    var tail: seq<T> := if key(x) == k then [x] else [];
    SelectUnfold(xs, key, k);
    assert LastByKey(xs, key) == LastByKey(prefix, key)[key(x) := x];
    if key(x) != k {
      LastByKeyIsLast(prefix, key, k);
    }
  }

  /** What is stored under a key is an element of the sequence that carries that key. */
  lemma LastByKeyIndex<T, K>(xs: seq<T>, key: T -> K, k: K) returns (j: int)
    requires k in LastByKey(xs, key)
    ensures 0 <= j < |xs| && xs[j] == LastByKey(xs, key)[k] && key(xs[j]) == k
  {
    var ys := Select(xs, key, k);
    LastByKeyIsLast(xs, key, k);
    SelectMembers(xs, key, k);
    assert ys[|ys| - 1] in xs;
    j :| 0 <= j < |xs| && xs[j] == ys[|ys| - 1];
  }

  /** When no two elements share a key, every element is the one stored under its key. */
  lemma LastByKeyUnique<T, K>(xs: seq<T>, key: T -> K, i: int)
    requires forall a, b :: 0 <= a < b < |xs| ==> key(xs[a]) != key(xs[b])
    requires 0 <= i < |xs|
    ensures key(xs[i]) in LastByKey(xs, key) && LastByKey(xs, key)[key(xs[i])] == xs[i]
  {
    var k := key(xs[i]);
    var ys := Select(xs, key, k);
    SelectMembers(xs, key, k);
    assert xs[i] in ys;
    LastByKeyIsLast(xs, key, k);
    var last := ys[|ys| - 1];
    assert last in xs;
    var j :| 0 <= j < |xs| && xs[j] == last;
    assert key(xs[j]) == k;
  }

  function Length<T>(s: seq<T>): int {
    |s|
  }

  /** The buckets of groupingBy partition the input: their sizes add up to its length. */
  lemma {:induction false} GroupSizesSum<T, K>(xs: seq<T>, key: T -> K)
    ensures MapSum(GroupBy(xs, key), Length) == |xs|
  {
    if xs != [] {
      var prefix := xs[..|xs| - 1];
      var m := GroupBy(prefix, key);
      var x := xs[|xs| - 1];
      var bucket := if key(x) in m then m[key(x)] else [];
      assert GroupBy(xs, key) == m[key(x) := bucket + [x]];
      assert Length(bucket + [x]) == Length(bucket) + 1;
      GroupSizesSum(prefix, key);
      if key(x) in m {
        MapSumReplace(m, Length, key(x), bucket + [x]);
      } else {
        MapSumInsert(m, Length, key(x), bucket + [x]);
      }
    }
  }

  /** The last element Select keeps for k is the last input element carrying k. */
  lemma {:induction false} SelectLast<T, K>(xs: seq<T>, key: T -> K, k: K, i: int)
    requires 0 <= i < |xs| && key(xs[i]) == k
    requires forall j :: i < j < |xs| ==> key(xs[j]) != k
    ensures |Select(xs, key, k)| > 0 && Select(xs, key, k)[|Select(xs, key, k)| - 1] == xs[i]
  {
    var prefix := xs[..|xs| - 1];
    var x := xs[|xs| - 1];
    var tail: seq<T> := if key(x) == k then [x] else [];
    SelectUnfold(xs, key, k);
    if i < |xs| - 1 {
      assert prefix[i] == xs[i];
      assert forall j :: i < j < |prefix| ==> prefix[j] == xs[j];
      SelectLast(prefix, key, k, i);
    }
  }

  /** One step of Select's definition, from the back. */
  lemma SelectUnfold<T, K>(xs: seq<T>, key: T -> K, k: K)
    requires xs != []
    ensures Select(xs, key, k) == Select(xs[..|xs| - 1], key, k) + if key(xs[|xs| - 1]) == k then [xs[|xs| - 1]] else []
  {
  }

  /** Selecting from a concatenation selects from each part. */
  lemma {:induction false} SelectAppend<T, K>(xs: seq<T>, ys: seq<T>, key: T -> K, k: K)
    ensures Select(xs + ys, key, k) == Select(xs, key, k) + Select(ys, key, k)
    decreases |ys|
  {
    if ys == [] {
      assert xs + ys == xs;
    } else {
      var init := ys[..|ys| - 1];
      var zs := xs + ys;
      assert zs[..|zs| - 1] == xs + init;
      assert zs[|zs| - 1] == ys[|ys| - 1];
      SelectUnfold(zs, key, k);
      SelectUnfold(ys, key, k);
      SelectAppend(xs, init, key, k);
    }
  }

  lemma SelectSingle<T, K>(x: T, key: T -> K, k: K)
    ensures Select([x], key, k) == if key(x) == k then [x] else []
  {
    assert [x][..0] == [];
  }

  /** Selecting by one key and then by a second is selecting by the pair of keys. */
  lemma {:induction false} SelectNested<T, A, B>(xs: seq<T>, ka: T -> A, a: A, kb: T -> B, b: B, kp: T -> (A, B))
    requires forall x :: kp(x) == (ka(x), kb(x))
    ensures Select(Select(xs, ka, a), kb, b) == Select(xs, kp, (a, b))
  {
    if xs != [] {
      var prefix := xs[..|xs| - 1];
      var x := xs[|xs| - 1];
      var inner: seq<T> := if ka(x) == a then [x] else [];
      var outer: seq<T> := if kp(x) == (a, b) then [x] else [];
      assert Select(xs, ka, a) == Select(prefix, ka, a) + inner;
      assert Select(xs, kp, (a, b)) == Select(prefix, kp, (a, b)) + outer;
      SelectNested(prefix, ka, a, kb, b, kp);
      SelectAppend(Select(prefix, ka, a), inner, kb, b);
      if ka(x) == a {
        SelectSingle(x, kb, b);
      }
    }
  }

  /** When every element with key b under kb has key a under ka, selecting by a first changes nothing. */
  lemma {:induction false} SelectRefines<T, A, B>(xs: seq<T>, ka: T -> A, a: A, kb: T -> B, b: B)
    requires forall i :: 0 <= i < |xs| && kb(xs[i]) == b ==> ka(xs[i]) == a
    ensures Select(Select(xs, ka, a), kb, b) == Select(xs, kb, b)
  {
    if xs != [] {
      var prefix := xs[..|xs| - 1];
      var x := xs[|xs| - 1];
      var inner: seq<T> := if ka(x) == a then [x] else [];
      var outer: seq<T> := if kb(x) == b then [x] else [];
      assert Select(xs, ka, a) == Select(prefix, ka, a) + inner;
      assert Select(xs, kb, b) == Select(prefix, kb, b) + outer;
      assert forall i :: 0 <= i < |prefix| ==> prefix[i] == xs[i];
      SelectRefines(prefix, ka, a, kb, b);
      SelectAppend(Select(prefix, ka, a), inner, kb, b);
      if ka(x) == a {
        SelectSingle(x, kb, b);
      }
    }
  }
}

=== FILE: java_text.dfy ===
/**
 * The pieces of java.lang text handling the usage service relies on:
 * decimal rendering of an int (Integer.toString, string concatenation, %d),
 * Integer.parseInt, and String.split with a literal separator.
 * Only ASCII digits are modelled.
 */
module JavaText {
  import opened Outcomes

  const INT_MIN: int := -0x8000_0000
  const INT_MAX: int := 0x7FFF_FFFF

  predicate InInt32(n: int) {
    INT_MIN <= n <= INT_MAX
  }

  predicate IsDigit(c: char) {
    '0' <= c <= '9'
  }

  predicate AllDigits(s: string) {
    forall i :: 0 <= i < |s| ==> IsDigit(s[i])
  }

  function DigitChar(d: nat): (c: char)
    requires d < 10
    ensures IsDigit(c) && c as int - '0' as int == d
  {
    (d + '0' as int) as char
  }

  function DigitValue(c: char): nat
    requires IsDigit(c)
  {
    c as int - '0' as int
  }

  /** The decimal digits of n, most significant first, without leading zeros. */
  function NatDigits(n: nat): (s: string)
    ensures |s| > 0 && AllDigits(s)
    ensures s[0] == '0' ==> n == 0
  {
    if n < 10 then [DigitChar(n)] else NatDigits(n / 10) + [DigitChar(n % 10)]
  }

  /** Integer.toString(n): a minus sign for negative values, then the digits of |n|. */
  function IntToString(n: int): string {
    if n < 0 then "-" + NatDigits(-n) else NatDigits(n)
  }

  /** The number a run of decimal digits denotes. */
  function DigitsValue(s: string): nat
    requires AllDigits(s)
  {
    if s == [] then 0 else DigitsValue(s[..|s| - 1]) * 10 + DigitValue(s[|s| - 1])
  }

  /**
   * s is a decimal integer literal as Integer.parseInt reads it, denoting v:
   * one or more digits, optionally after a single '+' or '-'.
   */
  predicate DenotesInt(s: string, v: int) {
    || (|s| > 0 && AllDigits(s) && v == DigitsValue(s))
    || (|s| > 1 && s[0] == '+' && AllDigits(s[1..]) && v == DigitsValue(s[1..]))
    || (|s| > 1 && s[0] == '-' && AllDigits(s[1..]) && v == -(DigitsValue(s[1..]) as int))
  }

  /**
   * Integer.parseInt(s): succeeds exactly on a literal denoting a value that
   * fits in an int; anything else is a NumberFormatException.
   */
  function ParseInt(s: string): (r: Result<int>)
    ensures r.Success? ==> InInt32(r.value) && DenotesInt(s, r.value)
    ensures r.Failure? ==> r.error == NumberFormat
    ensures r.Failure? ==> forall v :: DenotesInt(s, v) ==> !InInt32(v)
  {
    if |s| == 0 then Failure(NumberFormat)
    else
      var signed := s[0] == '-' || s[0] == '+';
      var body := if signed then s[1..] else s;
      if |body| == 0 || !AllDigits(body) then Failure(NumberFormat)
      else
        var magnitude: int := DigitsValue(body);
        var v := if s[0] == '-' then -magnitude else magnitude;
        if InInt32(v) then Success(v) else Failure(NumberFormat)
  }

  lemma LeadingFiveDigits()
    ensures DigitsValue("21474") == 21474
  {
    assert DigitsValue("2") == 2;
    assert "21"[..1] == "2";
    assert DigitsValue("21") == 21;
    assert "214"[..2] == "21";
    assert DigitsValue("214") == 214;
    assert "2147"[..3] == "214";
    assert DigitsValue("2147") == 2147;
    assert "21474"[..4] == "2147";
    assert DigitsValue("21474") == 21474;
  }

  /** The digits of INT_MAX + 1 denote INT_MAX + 1. */
  lemma PastIntMaxDigits()
    ensures AllDigits("2147483648") && DigitsValue("2147483648") == INT_MAX + 1
  {
    LeadingFiveDigits();
    assert "214748"[..5] == "21474";
    assert DigitsValue("214748") == 214748;
    assert "2147483"[..6] == "214748";
    assert DigitsValue("2147483") == 2147483;
    assert "21474836"[..7] == "2147483";
    assert DigitsValue("21474836") == 21474836;
    assert "214748364"[..8] == "21474836";
    assert DigitsValue("214748364") == 214748364;
    assert "2147483648"[..9] == "214748364";
    assert DigitsValue("2147483648") == 2147483648;
  }

  /** Strings Integer.parseInt rejects: empty, a bare sign, a stray letter, one past INT_MAX. */
  lemma ParseIntRejects()
    ensures ParseInt("") == Failure(NumberFormat)
    ensures ParseInt("-") == Failure(NumberFormat)
    ensures ParseInt("+12x") == Failure(NumberFormat)
    ensures ParseInt("abc") == Failure(NumberFormat)
    ensures ParseInt("2147483648") == Failure(NumberFormat)
    ensures ParseInt("-2147483648") == Success(INT_MIN)
  {
    assert !IsDigit("+12x"[3]);
    assert !IsDigit("abc"[0]);
    PastIntMaxDigits();
  }

  lemma {:induction false} DigitsValueOfNatDigits(n: nat)
    ensures DigitsValue(NatDigits(n)) == n
    decreases n
  {
    if n >= 10 {
      var prefix := NatDigits(n / 10);
      var s := prefix + [DigitChar(n % 10)];
      assert s[..|s| - 1] == prefix;
      DigitsValueOfNatDigits(n / 10);
    }
  }

  /** Rendering an int and parsing it back gives the same int. */
  lemma ParseIntRoundTrip(n: int)
    requires InInt32(n)
    ensures ParseInt(IntToString(n)) == Success(n)
  {
    DigitsValueOfNatDigits(if n < 0 then -n else n);
    if n < 0 {
      assert IntToString(n)[1..] == NatDigits(-n);
    }
  }

  /** No rendered int contains the letter 'Q'. */
  lemma IntToStringHasNoQ(n: int)
    ensures forall i :: 0 <= i < |IntToString(n)| ==> IntToString(n)[i] != 'Q'
  {
  }

  /** sep occurs in s at position i. */
  predicate OccursAt(s: string, sep: string, i: nat) {
    i + |sep| <= |s| && s[i..i + |sep|] == sep
  }

  /** The position of the leftmost occurrence of sep in s, scanning from `from`. */
  function FindFrom(s: string, sep: string, from: nat): (r: Option<nat>)
    requires |sep| > 0
    ensures r.Some? ==> from <= r.value && OccursAt(s, sep, r.value)
    ensures r.Some? ==> forall j :: from <= j < r.value ==> !OccursAt(s, sep, j)
    ensures r.None? ==> forall j :: from <= j ==> !OccursAt(s, sep, j)
    decreases |s| - from
  {
    if from + |sep| > |s| then None
    else if s[from..from + |sep|] == sep then Some(from)
    else FindFrom(s, sep, from + 1)
  }

  /** The pieces between successive leftmost occurrences of sep, empty pieces included. */
  function SplitPieces(s: string, sep: string): (parts: seq<string>)
    requires |sep| > 0
    ensures |parts| > 0
    decreases |s|
  {
    match FindFrom(s, sep, 0)
    case None => [s]
    case Some(i) => [s[..i]] + SplitPieces(s[i + |sep|..], sep)
  }

  function DropTrailingEmpty(parts: seq<string>): (r: seq<string>)
    ensures |r| <= |parts| && r == parts[..|r|]
    ensures |r| > 0 ==> r[|r| - 1] != ""
    ensures forall i :: |r| <= i < |parts| ==> parts[i] == ""
  {
    if |parts| > 0 && parts[|parts| - 1] == "" then DropTrailingEmpty(parts[..|parts| - 1]) else parts
  }

  /**
   * String.split(sep) for a separator without regular-expression
   * metacharacters: the input itself when sep does not occur, otherwise the
   * pieces with trailing empty strings removed.
   */
  function JavaSplit(s: string, sep: string): seq<string>
    requires |sep| > 0
  {
    if FindFrom(s, sep, 0).None? then [s] else DropTrailingEmpty(SplitPieces(s, sep))
  }

  /** a + sep + b splits into [a, b] when neither a nor a nonempty b holds the second letter of sep. */
  lemma SplitTwoPieces(a: string, b: string, sep: string)
    requires |sep| == 2 && sep[0] != sep[1]
    requires forall i :: 0 <= i < |a| ==> a[i] != sep[1]
    requires forall i :: 0 <= i < |b| ==> b[i] != sep[1]
    requires |b| > 0
    ensures JavaSplit(a + sep + b, sep) == [a, b]
  {
    var s := a + sep + b;
    assert OccursAt(s, sep, |a|);
    forall j | 0 <= j < |a| ensures !OccursAt(s, sep, j) {
      if j + 1 < |a| {
        assert s[j + 1] == a[j + 1];
      } else {
        assert s[j + 1] == sep[0];
      }
      assert s[j..j + |sep|][1] == s[j + 1];
    }
    assert FindFrom(s, sep, 0) == Some(|a|);
    assert s[..|a|] == a;
    assert s[|a| + |sep|..] == b;
    forall j | 0 <= j ensures !OccursAt(b, sep, j) {
    }
    assert SplitPieces(b, sep) == [b];
    assert SplitPieces(s, sep) == [a, b];
  }
}

=== FILE: legacy_service.dfy ===
/**
 * The older usage service end to end: the query range of the requested
 * quarter, the records the usage API returns for it, and the rollup stamped
 * with the requested year and quarter. It keeps no cache.
 */
module LegacyUsageService {
  import opened Outcomes
  import opened UsageModel
  import opened Grouping
  import opened Quarters
  import opened AppAggregation
  import opened ServiceAggregation
  import opened UsageApi
  import opened QuarterlyUsageService

  /** What the older service is wired with. */
  datatype LegacyService = LegacyService(upstream: Upstream, appMetrics: LegacyAppMetrics, svcMetrics: SvcMetrics)

  /**
   * appUsage(foundation, orgGuid, year, quarter): the range is built before
   * the call, so a quarter outside 1..4 throws before anything is fetched.
   */
  function LegacyAppUsage(s: LegacyService, foundation: string, orgGuid: string, year: int, quarter: int): (r: Result<OrgUsage>)
    ensures !(1 <= quarter <= 4) ==> r == Failure(IndexOutOfBounds)
    ensures 1 <= quarter <= 4 ==>
      var fetched := s.upstream.apps(foundation, orgGuid, QuarterStart(year, quarter), QuarterEnd(year, quarter));
      && (r.Failure? <==> fetched.Failure?)
      && (r.Failure? ==> r.error == fetched.error)
      && (r.Success? ==> && r.value.orgGuid == orgGuid && r.value.year == year && r.value.quarter == quarter
                         && r.value.spaceUsage.Keys == KeySet(fetched.value, SpaceGuidOf)
                         && r.value.aUsage.Keys == KeySet(fetched.value, AppGuidOf))
  {
    var range :- QueryRange(year, quarter);
    var recs :- s.upstream.apps(foundation, orgGuid, range.0, range.1);
    Success(LegacyAppRollup(orgGuid, year, quarter, recs, s.appMetrics))
  }

  /** svcUsage(foundation, orgGuid, year, quarter): every record counted, durations copied. */
  function LegacySvcUsage(s: LegacyService, foundation: string, orgGuid: string, year: int, quarter: int): (r: Result<SIUsage>)
    ensures !(1 <= quarter <= 4) ==> r == Failure(IndexOutOfBounds)
    ensures 1 <= quarter <= 4 ==>
      var fetched := s.upstream.services(foundation, orgGuid, QuarterStart(year, quarter), QuarterEnd(year, quarter));
      && (r.Failure? <==> fetched.Failure?)
      && (r.Failure? ==> r.error == fetched.error)
      && (r.Success? ==> && r.value.orgGuid == orgGuid && r.value.year == year && r.value.quarter == quarter
                         && r.value.siSpaceUsage.Keys == KeySet(fetched.value, SvcSpaceGuidOf)
                         && r.value.serviceInstanceUsage.Keys == KeySet(fetched.value, InstanceGuidOf))
  {
    var range :- QueryRange(year, quarter);
    var recs :- s.upstream.services(foundation, orgGuid, range.0, range.1);
    Success(LegacySvcRollup(orgGuid, year, quarter, recs, s.svcMetrics))
  }

  /**
   * For a quarter that is not the current one both services ask the usage
   * API for the same range, so they agree on whether a rollup is made and on
   * the spaces it lists.
   */
  lemma PastQuarterSameSpaces(newer: Service, older: LegacyService, foundation: string, orgGuid: string, year: int, quarter: int)
    requires newer.upstream == older.upstream
    requires 1 <= quarter <= 4 && quarter != CurrentQuarter(newer, year)
    ensures AppUsageByFoundationOrg(newer, foundation, orgGuid, year, quarter).Success?
        <==> LegacyAppUsage(older, foundation, orgGuid, year, quarter).Success?
    ensures AppUsageByFoundationOrg(newer, foundation, orgGuid, year, quarter).Success? ==>
      AppUsageByFoundationOrg(newer, foundation, orgGuid, year, quarter).value.spaceUsage.Keys
        == LegacyAppUsage(older, foundation, orgGuid, year, quarter).value.spaceUsage.Keys
  {
  }
}

=== FILE: orgs.dfy ===
/**
 * The org listings both services take from the platform, filtered by name,
 * and the startup directory of the newer service that maps each foundation
 * to its filtered org list.
 */
module Orgs {
  import opened Outcomes
  import opened UsageModel

  /** The orgs of a listing whose names pass keep, in listing order. */
  function FilterOrgs(summaries: seq<Organization>, keep: string -> bool): (r: seq<Organization>)
    ensures |r| <= |summaries|
    ensures forall o :: o in r <==> o in summaries && keep(o.name)
    decreases |summaries|
  {
    if summaries == [] then []
    else
      var rest := FilterOrgs(summaries[1..], keep);
      assert forall o :: o in summaries <==> o == summaries[0] || o in summaries[1..];
      if keep(summaries[0].name) then [summaries[0]] + rest else rest
  }

  /** Filtering a listing twice by the same names is filtering it once. */
  lemma {:induction false} FilterOrgsIdempotent(summaries: seq<Organization>, keep: string -> bool)
    ensures FilterOrgs(FilterOrgs(summaries, keep), keep) == FilterOrgs(summaries, keep)
    decreases |summaries|
  {
    if summaries != [] {
      var rest := FilterOrgs(summaries[1..], keep);
      FilterOrgsIdempotent(summaries[1..], keep);
      if keep(summaries[0].name) {
        assert ([summaries[0]] + rest)[1..] == rest;
      }
    }
  }

  // ---------------------------------------------------------------------
  // The newer service: names on the configured exclusion list are dropped
  // ---------------------------------------------------------------------

  /** One foundation's entry of organizationMap: the listed orgs whose names are not excluded. */
  function ListOrgs(summaries: seq<Organization>, excluded: set<string>): (r: seq<Option<Organization>>)
    ensures |r| <= |summaries|
    ensures forall j :: 0 <= j < |r| ==> r[j].Some? && r[j].value in summaries && r[j].value.name !in excluded
    ensures forall o :: o in summaries && o.name !in excluded ==> Some(o) in r
  {
    var kept := FilterOrgs(summaries, name => name !in excluded);
    var r := seq(|kept|, j requires 0 <= j < |kept| => Some(kept[j]));
    forall o | o in summaries && o.name !in excluded ensures Some(o) in r {
      var j :| 0 <= j < |kept| && kept[j] == o;
      assert r[j] == Some(o);
    }
    r
  }

  function FoundationSet(foundations: seq<string>): set<string> {
    set i | 0 <= i < |foundations| :: foundations[i]
  }

  /** getOrgsByFoundation: one put per configured foundation, each with its filtered listing. */
  function PopulateOrgs(foundations: seq<string>, listing: string -> seq<Organization>, excluded: set<string>): (r: map<string, seq<Option<Organization>>>)
    ensures r.Keys == FoundationSet(foundations)
    ensures forall f :: f in r ==> r[f] == ListOrgs(listing(f), excluded)
    decreases |foundations|
  {
    if foundations == [] then map[]
    else
      var last := foundations[|foundations| - 1];
      var init := foundations[..|foundations| - 1];
      assert FoundationSet(foundations) == FoundationSet(init) + {last} by {
        forall x | x in FoundationSet(foundations) ensures x in FoundationSet(init) + {last} {
          var i :| 0 <= i < |foundations| && foundations[i] == x;
          if i < |init| {
            assert init[i] == x;
          }
        }
      }
      PopulateOrgs(init, listing, excluded)[last := ListOrgs(listing(last), excluded)]
  }

  // ---------------------------------------------------------------------
  // The older service: the org named "system" is dropped, ignoring case
  // ---------------------------------------------------------------------

  function AsciiLower(c: char): char {
    if 'A' <= c <= 'Z' then (c as int + 32) as char else c
  }

  /** equalsIgnoreCase("system"), folding the ASCII letters only. */
  predicate IsSystemName(name: string) {
    |name| == 6 && forall i :: 0 <= i < 6 ==> AsciiLower(name[i]) == "system"[i]
  }

  /** getOrgs of the older service. */
  function LegacyOrgs(summaries: seq<Organization>): (r: seq<Organization>)
    ensures forall o :: o in r <==> o in summaries && !IsSystemName(o.name)
  {
    FilterOrgs(summaries, name => !IsSystemName(name))
  }

  /** The filter drops "system" in any mix of cases, and nothing else. */
  lemma SystemOrgDropped(summaries: seq<Organization>, guid: string)
    ensures Organization(guid, "SyStEm") !in LegacyOrgs(summaries)
    ensures Organization(guid, "system") !in LegacyOrgs(summaries)
    ensures Organization(guid, "systems") in summaries ==> Organization(guid, "systems") in LegacyOrgs(summaries)
  {
    assert IsSystemName("SyStEm");
    assert IsSystemName("system");
    assert !IsSystemName("systems");
  }
}

=== FILE: outcomes.dfy ===
/** Failure-carrying values for the exceptions the usage service can raise. */
module Outcomes {

  /** A value that may be absent (a Java null or a missing map entry). */
  datatype Option<+T> = None | Some(value: T)

  /** The exceptions of the Java code, as values. */
  datatype UsageError =
    | UpstreamError     // the usage API call failed (RestTemplate.exchange threw)
    | ParseError        // Jackson could not read the body; the Java code then dereferences null
    | IndexOutOfBounds  // an array index out of range: START_DATES[quarter - 1], or d[1] after split
    | NumberFormat      // Integer.parseInt rejected its argument
    | MissingOrgList    // no organization list recorded for a foundation (a null list is iterated)
    | DivisionByZero    // long division by zero (ArithmeticException)

  /** Either a computed value or the exception that stopped the computation. */
  datatype Result<+T> = Success(value: T) | Failure(error: UsageError) {

    predicate IsFailure() {
      Failure?
    }

    function PropagateFailure<U>(): Result<U>
      requires Failure?
    {
      Failure(error)
    }

    function Extract(): T
      requires Success?
    {
      value
    }
  }
}

=== FILE: quarterly_service.dfy ===
/**
 * The newer usage service end to end: fetch the usage records of an org for
 * a date range, aggregate them, stamp the rollup with the current year and
 * the quarter of the range start, and keep quarterly rollups in the caches
 * the lazy and bulk paths share.
 *
 * The usage API and its JSON parsing, the date helpers and the metric helpers
 * are parameters. Dates are passed around as their yyyy-MM-dd text.
 */
module QuarterlyUsageService {
  import opened Outcomes
  import opened UsageModel
  import opened Grouping
  import opened Quarters
  import opened AppAggregation
  import opened ServiceAggregation
  import opened UsageCache
  import opened Orgs
  import opened UsageApi

  /** The DateUtils calls the service makes; their bodies are not modelled. */
  datatype Calendar = Calendar(
    currentYear: int,                       // dateUtils.getYear()
    today: string,                          // converttoyyyyMMdd(getCurrentDate())
    quarterOf: (int, string) -> int,        // getQuarter(year, date)
    daysElapsed: (string, string) -> int,   // getNoOfDaysElapsed(start, end)
    elapsedQuarters: seq<string>)           // getElapsedQuartersInCurrentYear(), "YYYY-Qn" labels

  /** Everything the service is configured or wired with. */
  datatype Service = Service(
    calendar: Calendar,
    upstream: Upstream,
    appMetrics: AppMetrics,
    svcMetrics: SvcMetrics,
    includedServices: set<string>,          // config.getIncludedServices()
    excludedOrgs: set<string>)              // config.getExcludedOrgs()

  // ---------------------------------------------------------------------
  // One rollup for a date range
  // ---------------------------------------------------------------------

  /**
   * generateAppUsage: the rollup is stamped with the current year, not the
   * year of the range, and with the quarter the range start falls in.
   */
  function GenerateAppUsage(s: Service, foundation: string, orgGuid: string, start: string, end: string): (r: Result<OrgUsage>)
    ensures r.Failure? <==> s.upstream.apps(foundation, orgGuid, start, end).Failure?
    ensures r.Failure? ==> r.error == s.upstream.apps(foundation, orgGuid, start, end).error
    ensures r.Success? ==> && r.value.orgGuid == orgGuid
                           && r.value.year == s.calendar.currentYear
                           && r.value.quarter == s.calendar.quarterOf(s.calendar.currentYear, start)
    ensures r.Success? ==> var recs := s.upstream.apps(foundation, orgGuid, start, end).value;
      && r.value.spaceUsage.Keys == KeySet(recs, SpaceGuidOf)
      && r.value.aUsage.Keys == StorageKeys(recs)
  {
    var recs :- s.upstream.apps(foundation, orgGuid, start, end);
    var year := s.calendar.currentYear;
    var quarter := s.calendar.quarterOf(year, start);
    Success(AppRollup(orgGuid, year, quarter, recs, s.calendar.daysElapsed(start, end), s.appMetrics))
  }

  /** The service rollup is keyed by the spaces and the instances of the kept records. */
  predicate KeptKeys(u: SIUsage, kept: seq<SvcRecord>) {
    && u.siSpaceUsage.Keys == KeySet(kept, SvcSpaceGuidOf)
    && u.serviceInstanceUsage.Keys == KeySet(kept, InstanceGuidOf)
  }

  /**
   * generateSvcUsage: the same stamping; only allowed services are counted,
   * and dividing by a zero per-day divisor throws.
   */
  function GenerateSvcUsage(s: Service, foundation: string, orgGuid: string, start: string, end: string): (r: Result<SIUsage>)
    ensures s.upstream.services(foundation, orgGuid, start, end).Failure? ==>
      r == Failure(s.upstream.services(foundation, orgGuid, start, end).error)
    ensures s.upstream.services(foundation, orgGuid, start, end).Success? ==>
      (r.Failure? <==> PerDayDivisor(s.calendar.daysElapsed(start, end)) == 0
                       && Included(s.upstream.services(foundation, orgGuid, start, end).value, s.includedServices) != [])
    ensures r.Success? ==> && r.value.orgGuid == orgGuid
                           && r.value.year == s.calendar.currentYear
                           && r.value.quarter == s.calendar.quarterOf(s.calendar.currentYear, start)
    ensures r.Success? ==> KeptKeys(r.value, Included(s.upstream.services(foundation, orgGuid, start, end).value, s.includedServices))
  {
    match s.upstream.services(foundation, orgGuid, start, end)
    case Failure(e) => Failure(e)
    case Success(recs) =>
      var year := s.calendar.currentYear;
      var u := SvcRollup(orgGuid, year, s.calendar.quarterOf(year, start), recs, s.includedServices, PerDayDivisor(s.calendar.daysElapsed(start, end)), s.svcMetrics);
      assert u.Success? ==> KeptKeys(u.value, Included(recs, s.includedServices));
      u
  }

  // ---------------------------------------------------------------------
  // One rollup for a quarter
  // ---------------------------------------------------------------------

  /** The quarter the service is in today. */
  function CurrentQuarter(s: Service, year: int): int {
    s.calendar.quarterOf(year, s.calendar.today)
  }

  /** appUsageByFoundationOrg: the quarter's range, cut at today for the current quarter. */
  function AppUsageByFoundationOrg(s: Service, foundation: string, orgGuid: string, year: int, quarter: int): (r: Result<OrgUsage>)
    ensures !(1 <= quarter <= 4) ==> r == Failure(IndexOutOfBounds)
    ensures 1 <= quarter <= 4 && quarter == CurrentQuarter(s, year) ==>
      r == GenerateAppUsage(s, foundation, orgGuid, QuarterStart(year, quarter), s.calendar.today)
    ensures 1 <= quarter <= 4 && quarter != CurrentQuarter(s, year) ==>
      r == GenerateAppUsage(s, foundation, orgGuid, QuarterStart(year, quarter), QuarterEnd(year, quarter))
  {
    var window :- QuarterWindow(year, quarter, CurrentQuarter(s, year), s.calendar.today);
    GenerateAppUsage(s, foundation, orgGuid, window.0, window.1)
  }

  /** svcUsageByFoundationOrg: the same range choice for the service rollup. */
  function SvcUsageByFoundationOrg(s: Service, foundation: string, orgGuid: string, year: int, quarter: int): (r: Result<SIUsage>)
    ensures !(1 <= quarter <= 4) ==> r == Failure(IndexOutOfBounds)
    ensures 1 <= quarter <= 4 && quarter == CurrentQuarter(s, year) ==>
      r == GenerateSvcUsage(s, foundation, orgGuid, QuarterStart(year, quarter), s.calendar.today)
    ensures 1 <= quarter <= 4 && quarter != CurrentQuarter(s, year) ==>
      r == GenerateSvcUsage(s, foundation, orgGuid, QuarterStart(year, quarter), QuarterEnd(year, quarter))
  {
    var window :- QuarterWindow(year, quarter, CurrentQuarter(s, year), s.calendar.today);
    GenerateSvcUsage(s, foundation, orgGuid, window.0, window.1)
  }

  /**
   * A rollup of a quarter of the current year carries that year and quarter,
   * provided getQuarter places the first day of each quarter in it. For any
   * other year the stamp is the current year, not the one requested.
   */
  lemma StampsMatchRequest(s: Service, foundation: string, orgGuid: string, year: int, quarter: int)
    requires 1 <= quarter <= 4
    requires s.calendar.quarterOf(s.calendar.currentYear, QuarterStart(year, quarter)) == quarter
    requires AppUsageByFoundationOrg(s, foundation, orgGuid, year, quarter).Success?
    ensures AppUsageByFoundationOrg(s, foundation, orgGuid, year, quarter).value.quarter == quarter
    ensures AppUsageByFoundationOrg(s, foundation, orgGuid, year, quarter).value.year == s.calendar.currentYear
    ensures year == s.calendar.currentYear ==> AppUsageByFoundationOrg(s, foundation, orgGuid, year, quarter).value.year == year
  {
  }

  // ---------------------------------------------------------------------
  // The caches
  // ---------------------------------------------------------------------

  function AppCompute(s: Service): CacheKey -> Result<OrgUsage> {
    (k: CacheKey) => AppUsageByFoundationOrg(s, k.foundation, k.orgGuid, k.year, k.quarter)
  }

  function SvcCompute(s: Service): CacheKey -> Result<SIUsage> {
    (k: CacheKey) => SvcUsageByFoundationOrg(s, k.foundation, k.orgGuid, k.year, k.quarter)
  }

  /** appUsage(foundation, orgGuid, year, quarter): the lazy path over quarterlyOrgUsageMap. */
  function AppUsage(s: Service, cache: map<CacheKey, OrgUsage>, foundation: string, orgGuid: string, year: int, quarter: int): (r: Result<Lookup<OrgUsage>>)
    ensures var key := CacheKey(foundation, orgGuid, year, quarter);
      key in cache ==> r == Success(Lookup(cache[key], cache, false))
    ensures var key := CacheKey(foundation, orgGuid, year, quarter);
      var made := AppUsageByFoundationOrg(s, foundation, orgGuid, year, quarter);
      key !in cache ==>
        && (made.Failure? ==> r == Failure(made.error))
        && (made.Success? ==> r == Success(Lookup(made.value, cache[key := made.value], true)))
  {
    GetOrCompute(cache, CacheKey(foundation, orgGuid, year, quarter), AppCompute(s))
  }

  /** svcUsage(foundation, orgGuid, year, quarter): the lazy path over quarterlySIUsageMap. */
  function SvcUsage(s: Service, cache: map<CacheKey, SIUsage>, foundation: string, orgGuid: string, year: int, quarter: int): (r: Result<Lookup<SIUsage>>)
    ensures var key := CacheKey(foundation, orgGuid, year, quarter);
      key in cache ==> r == Success(Lookup(cache[key], cache, false))
    ensures var key := CacheKey(foundation, orgGuid, year, quarter);
      var made := SvcUsageByFoundationOrg(s, foundation, orgGuid, year, quarter);
      key !in cache ==>
        && (made.Failure? ==> r == Failure(made.error))
        && (made.Success? ==> r == Success(Lookup(made.value, cache[key := made.value], true)))
  {
    GetOrCompute(cache, CacheKey(foundation, orgGuid, year, quarter), SvcCompute(s))
  }

  /** getAppUsageByFoundationOrg: every configured foundation, each org it lists, each elapsed quarter. */
  function RefreshAppUsage(s: Service, cache: map<CacheKey, OrgUsage>, foundations: seq<string>,
                           directory: map<string, seq<Option<Organization>>>): (r: Refresh<OrgUsage>)
    ensures r.error.None? <==> AllOk(foundations, directory, s.calendar.elapsedQuarters, AppCompute(s))
    ensures forall k :: !Target(k, foundations, directory, s.calendar.elapsedQuarters) && k in cache ==>
      k in r.cache && r.cache[k] == cache[k]
  {
    var r := RefreshAll(cache, foundations, directory, s.calendar.elapsedQuarters, AppCompute(s));
    RefreshAllOk(cache, foundations, directory, s.calendar.elapsedQuarters, AppCompute(s));
    forall k | !Target(k, foundations, directory, s.calendar.elapsedQuarters) && k in cache
      ensures k in r.cache && r.cache[k] == cache[k]
    {
      RefreshAllFrame(cache, foundations, directory, s.calendar.elapsedQuarters, AppCompute(s), k);
    }
    r
  }

  /** getSIUsageByFoundationOrg: the same walk over quarterlySIUsageMap. */
  function RefreshSvcUsage(s: Service, cache: map<CacheKey, SIUsage>, foundations: seq<string>,
                           directory: map<string, seq<Option<Organization>>>): (r: Refresh<SIUsage>)
    ensures r.error.None? <==> AllOk(foundations, directory, s.calendar.elapsedQuarters, SvcCompute(s))
    ensures forall k :: !Target(k, foundations, directory, s.calendar.elapsedQuarters) && k in cache ==>
      k in r.cache && r.cache[k] == cache[k]
  {
    var r := RefreshAll(cache, foundations, directory, s.calendar.elapsedQuarters, SvcCompute(s));
    RefreshAllOk(cache, foundations, directory, s.calendar.elapsedQuarters, SvcCompute(s));
    forall k | !Target(k, foundations, directory, s.calendar.elapsedQuarters) && k in cache
      ensures k in r.cache && r.cache[k] == cache[k]
    {
      RefreshAllFrame(cache, foundations, directory, s.calendar.elapsedQuarters, SvcCompute(s), k);
    }
    r
  }

  /**
   * After a completed bulk refresh every refreshed key holds the rollup for
   * its quarter as computed now, so a later lazy lookup returns it.
   */
  lemma RefreshedAppUsageServed(s: Service, cache: map<CacheKey, OrgUsage>, foundations: seq<string>,
                                directory: map<string, seq<Option<Organization>>>, k: CacheKey)
    requires RefreshAppUsage(s, cache, foundations, directory).error.None?
    requires Target(k, foundations, directory, s.calendar.elapsedQuarters)
    ensures var after := RefreshAppUsage(s, cache, foundations, directory).cache;
      && AppUsageByFoundationOrg(s, k.foundation, k.orgGuid, k.year, k.quarter).Success?
      && AppUsage(s, after, k.foundation, k.orgGuid, k.year, k.quarter)
         == Success(Lookup(AppUsageByFoundationOrg(s, k.foundation, k.orgGuid, k.year, k.quarter).value, after, false))
  {
    RefreshAllOverwrites(cache, foundations, directory, s.calendar.elapsedQuarters, AppCompute(s), k);
  }

  lemma RefreshedSvcUsageServed(s: Service, cache: map<CacheKey, SIUsage>, foundations: seq<string>,
                                directory: map<string, seq<Option<Organization>>>, k: CacheKey)
    requires RefreshSvcUsage(s, cache, foundations, directory).error.None?
    requires Target(k, foundations, directory, s.calendar.elapsedQuarters)
    ensures var after := RefreshSvcUsage(s, cache, foundations, directory).cache;
      && SvcUsageByFoundationOrg(s, k.foundation, k.orgGuid, k.year, k.quarter).Success?
      && SvcUsage(s, after, k.foundation, k.orgGuid, k.year, k.quarter)
         == Success(Lookup(SvcUsageByFoundationOrg(s, k.foundation, k.orgGuid, k.year, k.quarter).value, after, false))
  {
    RefreshAllOverwrites(cache, foundations, directory, s.calendar.elapsedQuarters, SvcCompute(s), k);
  }

  /**
   * With the directory built at startup, the bulk refresh only ever writes
   * keys of orgs the platform listed under names not on the exclusion list.
   */
  lemma RefreshSkipsExcludedOrgs(s: Service, foundations: seq<string>, listing: string -> seq<Organization>, k: CacheKey)
    requires Target(k, foundations, PopulateOrgs(foundations, listing, s.excludedOrgs), s.calendar.elapsedQuarters)
    ensures exists o :: o in listing(k.foundation) && o.guid == k.orgGuid && o.name !in s.excludedOrgs
  {
    var directory := PopulateOrgs(foundations, listing, s.excludedOrgs);
    var i :| 0 <= i < |foundations| && foundations[i] in directory
      && OrgTarget(k, foundations[i], directory[foundations[i]], s.calendar.elapsedQuarters);
    var orgs := directory[foundations[i]];
    var j :| 0 <= j < |orgs| && orgs[j].Some? && QuarterTarget(k, foundations[i], orgs[j].value, s.calendar.elapsedQuarters);
    var o := orgs[j].value;
    assert o in listing(k.foundation) && o.guid == k.orgGuid && o.name !in s.excludedOrgs;
  }
}

=== FILE: quarters.dfy ===
/**
 * Quarter arithmetic done by the usage services themselves: the date range
 * queried for a quarter (from the START_DATES / END_DATES tables) and the
 * split of a "YYYY-Qn" quarter label. Which quarter "today" falls in, and
 * the list of elapsed quarters, come from a date utility outside this model.
 */
module Quarters {
  import opened Outcomes
  import opened JavaText

  const START_DATES: seq<string> := ["01-01", "04-01", "07-01", "10-01"]
  const END_DATES: seq<string> := ["03-31", "06-30", "09-30", "12-31"]

  /** Days in each month of a common year: the calendar the tables encode. */
  function DaysInMonth(month: int): int
    requires 1 <= month <= 12
  {
    [31, 28, 31, 30, 31, 30, 31, 31, 30, 31, 30, 31][month - 1]
  }

  function TwoDigits(n: nat): string
    requires n < 100
  {
    [DigitChar(n / 10), DigitChar(n % 10)]
  }

  /** A date written yyyy-MM-dd, the year as Integer.toString renders it. */
  function DateText(year: int, month: nat, day: nat): string
    requires month < 100 && day < 100
  {
    IntToString(year) + "-" + TwoDigits(month) + "-" + TwoDigits(day)
  }

  /** Quarter q runs from month 3q - 2 to month 3q. */
  function FirstMonth(quarter: int): int {
    3 * quarter - 2
  }

  function LastMonth(quarter: int): int {
    3 * quarter
  }

  lemma TablesMatchCalendar(quarter: int)
    requires 1 <= quarter <= 4
    ensures START_DATES[quarter - 1] == TwoDigits(FirstMonth(quarter)) + "-" + TwoDigits(1)
    ensures END_DATES[quarter - 1] == TwoDigits(LastMonth(quarter)) + "-" + TwoDigits(DaysInMonth(LastMonth(quarter)))
  {
  }

  /** The first day of a quarter, as both services write it. */
  function QuarterStart(year: int, quarter: int): string
    requires 1 <= quarter <= 4
  {
    DateText(year, FirstMonth(quarter), 1)
  }

  /** The last day of a quarter, as both services write it. */
  function QuarterEnd(year: int, quarter: int): string
    requires 1 <= quarter <= 4
  {
    DateText(year, LastMonth(quarter), DaysInMonth(LastMonth(quarter)))
  }

  /**
   * The date range the newer service queries for (year, quarter): from the
   * first day of the quarter to its last day, or to today when the quarter
   * is the current one. A quarter outside 1..4 indexes past the tables.
   */
  function QuarterWindow(year: int, quarter: int, currentQuarter: int, today: string): (r: Result<(string, string)>)
    ensures r.Success? <==> 1 <= quarter <= 4
    ensures r.Failure? ==> r.error == IndexOutOfBounds
    ensures r.Success? ==> r.value.0 == DateText(year, FirstMonth(quarter), 1)
    ensures r.Success? && quarter == currentQuarter ==> r.value.1 == today
    ensures r.Success? && quarter != currentQuarter ==>
      r.value.1 == DateText(year, LastMonth(quarter), DaysInMonth(LastMonth(quarter)))
  {
    if !(0 <= quarter - 1 < |START_DATES|) then Failure(IndexOutOfBounds)
    else
      TablesMatchCalendar(quarter);
      var start := IntToString(year) + "-" + START_DATES[quarter - 1];
      if currentQuarter == quarter then Success((start, today))
      else Success((start, IntToString(year) + "-" + END_DATES[quarter - 1]))
  }

  /**
   * The date range the older service queries for (year, quarter): always the
   * whole quarter, so q must be in 1..4.
   */
  function QueryRange(year: int, quarter: int): (r: Result<(string, string)>)
    ensures r.Success? <==> 1 <= quarter <= 4
    ensures r.Failure? ==> r.error == IndexOutOfBounds
    ensures r.Success? ==> r.value.0 == DateText(year, FirstMonth(quarter), 1)
    ensures r.Success? ==> r.value.1 == DateText(year, LastMonth(quarter), DaysInMonth(LastMonth(quarter)))
  {
    var qi := quarter - 1;
    if !(0 <= qi < |START_DATES|) then Failure(IndexOutOfBounds)
    else
      TablesMatchCalendar(quarter);
      var start := IntToString(year) + "-" + START_DATES[qi];
      var end := IntToString(year) + "-" + END_DATES[qi];
      Success((start, end))
  }

  /** For a quarter other than the current one both services query the same range. */
  lemma PastQuarterWindowsAgree(year: int, quarter: int, currentQuarter: int, today: string)
    requires quarter != currentQuarter
    ensures QuarterWindow(year, quarter, currentQuarter, today) == QueryRange(year, quarter)
  {
  }

  /** The label of a quarter as the elapsed-quarter list writes it: "YYYY-Qn". */
  function QuarterLabel(year: int, quarter: int): string {
    IntToString(year) + "-Q" + IntToString(quarter)
  }

  /**
   * qu.split("-Q") followed by Integer.parseInt of d[0] and d[1]: a missing
   * piece is an index error, a piece that is not an int a number format error.
   */
  function SplitQuarter(text: string): (r: Result<(int, int)>)
    ensures r.Success? ==> InInt32(r.value.0) && InInt32(r.value.1)
    ensures var d := JavaSplit(text, "-Q");
      r.Success? <==> |d| >= 2 && ParseInt(d[0]).Success? && ParseInt(d[1]).Success?
    ensures var d := JavaSplit(text, "-Q");
      r.Success? ==> r.value == (ParseInt(d[0]).value, ParseInt(d[1]).value)
    ensures var d := JavaSplit(text, "-Q");
      r == Failure(IndexOutOfBounds) <==> |d| == 0 || (|d| == 1 && ParseInt(d[0]).Success?)
    ensures r.Failure? ==> r.error == IndexOutOfBounds || r.error == NumberFormat
  {
    var d := JavaSplit(text, "-Q");
    if |d| == 0 then Failure(IndexOutOfBounds)
    else
      var year :- ParseInt(d[0]);
      if |d| < 2 then Failure(IndexOutOfBounds)
      else
        var quarter :- ParseInt(d[1]);
        Success((year, quarter))
  }

  /** Splitting a quarter label gives back its year and quarter. */
  lemma SplitQuarterRoundTrip(year: int, quarter: int)
    requires InInt32(year) && InInt32(quarter)
    ensures SplitQuarter(QuarterLabel(year, quarter)) == Success((year, quarter))
  {
    IntToStringHasNoQ(year);
    IntToStringHasNoQ(quarter);
    assert IntToString(year) + "-Q" + IntToString(quarter) == QuarterLabel(year, quarter);
    SplitTwoPieces(IntToString(year), IntToString(quarter), "-Q");
    ParseIntRoundTrip(year);
    ParseIntRoundTrip(quarter);
  }
}

=== FILE: service_aggregation.dfy ===
/**
 * Service instance aggregation, in the two versions the repository holds.
 *
 * Both group the service records by space and build one SISpaceUsage per
 * space, then walk the same groups again and put one ServiceInstanceUsage per
 * record into a map keyed by service instance guid, a later record of the
 * same instance overwriting an earlier one. The newer version first keeps
 * only the records whose service name is on the allow-list and divides each
 * instance duration by 86400 * daysElapsed; the older one keeps every record
 * and copies durations unchanged.
 */
module ServiceAggregation {
  import opened Outcomes
  import opened UsageModel
  import opened Grouping
  import opened Sums
  import opened SIUsageTotals

  function SvcSpaceGuidOf(r: SvcRecord): string {
    r.spaceGuid
  }

  function InstanceGuidOf(r: SvcRecord): string {
    r.serviceInstanceGuid
  }

  /** UsageUtils.getUniqueServices(v).size(); its body is not modelled. */
  datatype SvcMetrics = SvcMetrics(uniqueServices: seq<SvcRecord> -> nat)

  /** How a record's duration becomes the instance duration: copied, or divided per day. */
  datatype Conversion = Copy | PerDay(divisor: int)

  predicate ValidConversion(c: Conversion) {
    c.PerDay? ==> c.divisor != 0
  }

  // ---------------------------------------------------------------------
  // The allow-list filter
  // ---------------------------------------------------------------------

  /** stream().filter(su -> includedServices.contains(su.getServiceName())), order kept. */
  function Included(recs: seq<SvcRecord>, included: set<string>): (r: seq<SvcRecord>)
    ensures |r| <= |recs|
  {
    if recs == [] then []
    else
      var rest := Included(recs[..|recs| - 1], included);
      var x := recs[|recs| - 1];
      if x.serviceName in included then rest + [x] else rest
  }

  /** A record survives the filter exactly when it is in the input and its service is allowed. */
  lemma {:induction false} IncludedMembers(recs: seq<SvcRecord>, included: set<string>)
    ensures forall x :: x in Included(recs, included) <==> x in recs && x.serviceName in included
  {
    if recs != [] {
      var init := recs[..|recs| - 1];
      IncludedMembers(init, included);
      assert recs == init + [recs[|recs| - 1]];
    }
  }

  lemma {:induction false} IncludedAppend(a: seq<SvcRecord>, b: seq<SvcRecord>, included: set<string>)
    ensures Included(a + b, included) == Included(a, included) + Included(b, included)
    decreases |b|
  {
    if b == [] {
      assert a + b == a;
    } else {
      var init := b[..|b| - 1];
      var x := b[|b| - 1];
      var tail: seq<SvcRecord> := if x.serviceName in included then [x] else [];
      assert (a + b)[..|a + b| - 1] == a + init;
      assert (a + b)[|a + b| - 1] == x;
      assert Included(a + b, included) == Included(a + init, included) + tail;
      assert Included(b, included) == Included(init, included) + tail;
      IncludedAppend(a, init, included);
      assert Included(a, included) + (Included(init, included) + tail)
          == (Included(a, included) + Included(init, included)) + tail;
    }
  }

  /** A record whose service is not allowed leaves no trace in the filtered list. */
  lemma ExcludedVanishes(a: seq<SvcRecord>, x: SvcRecord, b: seq<SvcRecord>, included: set<string>)
    requires x.serviceName !in included
    ensures Included(a + [x] + b, included) == Included(a + b, included)
  {
    IncludedAppend(a + [x], b, included);
    IncludedAppend(a, [x], included);
    IncludedAppend(a, b, included);
    assert [x][..0] == [];
  }

  /** When every service is allowed, the filter keeps the whole list. */
  lemma {:induction false} IncludedKeepsAll(recs: seq<SvcRecord>, included: set<string>)
    requires forall i :: 0 <= i < |recs| ==> recs[i].serviceName in included
    ensures Included(recs, included) == recs
  {
    if recs != [] {
      var init := recs[..|recs| - 1];
      IncludedKeepsAll(init, included);
      assert recs == init + [recs[|recs| - 1]];
    }
  }

  // ---------------------------------------------------------------------
  // Per-space counts
  // ---------------------------------------------------------------------

  function SISpace(s: string, v: seq<SvcRecord>, metrics: SvcMetrics): SISpaceUsage
    requires |v| > 0
  {
    SISpaceUsage(s, v[0].spaceName, |v|, metrics.uniqueServices(v))
  }

  /** One SISpaceUsage per space guid, from that space's records. */
  function SISpaces(recs: seq<SvcRecord>, metrics: SvcMetrics): map<string, SISpaceUsage> {
    var spaceMap := GroupBy(recs, SvcSpaceGuidOf);
    map s | s in spaceMap && |spaceMap[s]| > 0 :: SISpace(s, spaceMap[s], metrics)
  }

  /** su is the SISpaceUsage built for space s: named after its first record, counting its records. */
  predicate SISpaceEntry(recs: seq<SvcRecord>, metrics: SvcMetrics, s: string, su: SISpaceUsage) {
    var v := Select(recs, SvcSpaceGuidOf, s);
    && |v| > 0
    && su.spaceGuid == s
    && su.spaceName == v[0].spaceName
    && su.totalSis == |v|
    && su.totalSvcs == metrics.uniqueServices(v)
  }

  lemma SISpacesFacts(recs: seq<SvcRecord>, metrics: SvcMetrics)
    ensures SISpaces(recs, metrics).Keys == KeySet(recs, SvcSpaceGuidOf)
    ensures forall s :: s in SISpaces(recs, metrics) ==> SISpaceEntry(recs, metrics, s, SISpaces(recs, metrics)[s])
  {
    var spaceMap := GroupBy(recs, SvcSpaceGuidOf);
    var m := SISpaces(recs, metrics);
    assert m.Keys == spaceMap.Keys;
    forall s | s in m ensures SISpaceEntry(recs, metrics, s, m[s]) {
      assert spaceMap[s] == Select(recs, SvcSpaceGuidOf, s);
      assert m[s] == SISpace(s, spaceMap[s], metrics);
    }
  }

  // ---------------------------------------------------------------------
  // The instance map
  // ---------------------------------------------------------------------

  /** The records of the spaces ks, space after space, as the second forEach visits them. */
  function ConcatBuckets(recs: seq<SvcRecord>, ks: seq<string>): seq<SvcRecord> {
    if ks == [] then [] else Select(recs, SvcSpaceGuidOf, ks[0]) + ConcatBuckets(recs, ks[1..])
  }

  lemma {:induction false} ConcatBucketsMembers(recs: seq<SvcRecord>, ks: seq<string>)
    ensures forall x :: x in ConcatBuckets(recs, ks) <==> x in recs && x.spaceGuid in ks
  {
    if ks != [] {
      ConcatBucketsMembers(recs, ks[1..]);
      SelectMembers(recs, SvcSpaceGuidOf, ks[0]);
      forall x ensures x in ConcatBuckets(recs, ks) <==> x in recs && x.spaceGuid in ks {
        if x in recs && x.spaceGuid in ks && x.spaceGuid != ks[0] {
          var i :| 0 <= i < |ks| && ks[i] == x.spaceGuid;
          assert ks[1..][i - 1] == x.spaceGuid;
        }
        if x in recs && x.spaceGuid == ks[0] {
          var i :| 0 <= i < |recs| && recs[i] == x;
        }
      }
    }
  }

  /** The records in the order the instance map receives them. */
  function SpaceOrdered(recs: seq<SvcRecord>): seq<SvcRecord> {
    ConcatBuckets(recs, KeyOrder(recs, SvcSpaceGuidOf))
  }

  /** Walking the spaces visits every record and nothing else. */
  lemma SpaceOrderedMembers(recs: seq<SvcRecord>)
    ensures forall x :: x in SpaceOrdered(recs) <==> x in recs
  {
    var ks := KeyOrder(recs, SvcSpaceGuidOf);
    ConcatBucketsMembers(recs, ks);
    forall x | x in recs ensures x.spaceGuid in ks {
      var i :| 0 <= i < |recs| && recs[i] == x;
      assert SvcSpaceGuidOf(recs[i]) in KeySet(recs, SvcSpaceGuidOf);
    }
  }

  /** The ServiceInstanceUsage built from one record. */
  function Instance(x: SvcRecord, c: Conversion): ServiceInstanceUsage
    requires ValidConversion(c)
  {
    var duration := match c
      case Copy => x.durationInSeconds
      case PerDay(divisor) => JavaDiv(x.durationInSeconds, divisor);
    ServiceInstanceUsage(x.spaceName, x.serviceInstanceName, x.serviceName, duration)
  }

  /** One ServiceInstanceUsage per record under its instance guid; the last record of an instance wins. */
  function Instances(recs: seq<SvcRecord>, c: Conversion): map<string, ServiceInstanceUsage>
    requires ValidConversion(c)
  {
    var last := LastByKey(SpaceOrdered(recs), InstanceGuidOf);
    map k | k in last :: Instance(last[k], c)
  }

  /** u is the ServiceInstanceUsage of some record of instance k. */
  predicate InstanceEntry(recs: seq<SvcRecord>, c: Conversion, k: string, u: ServiceInstanceUsage)
    requires ValidConversion(c)
  {
    exists i :: 0 <= i < |recs| && recs[i].serviceInstanceGuid == k && u == Instance(recs[i], c)
  }

  lemma WalkKeysOfRecords(recs: seq<SvcRecord>, walk: seq<SvcRecord>)
    requires forall x :: x in walk ==> x in recs
    ensures KeySet(walk, InstanceGuidOf) <= KeySet(recs, InstanceGuidOf)
  {
    forall k | k in KeySet(walk, InstanceGuidOf) ensures k in KeySet(recs, InstanceGuidOf) {
      var j :| 0 <= j < |walk| && InstanceGuidOf(walk[j]) == k;
      assert walk[j] in walk;
      var i :| 0 <= i < |recs| && recs[i] == walk[j];
    }
  }

  lemma InstanceKeys(recs: seq<SvcRecord>)
    ensures KeySet(SpaceOrdered(recs), InstanceGuidOf) == KeySet(recs, InstanceGuidOf)
  {
    var walk := SpaceOrdered(recs);
    SpaceOrderedMembers(recs);
    WalkKeysOfRecords(recs, walk);
    WalkKeysOfRecords(walk, recs);
  }

  lemma LastIsRecord(recs: seq<SvcRecord>, k: string)
    requires k in LastByKey(SpaceOrdered(recs), InstanceGuidOf)
    ensures exists i :: 0 <= i < |recs| && recs[i].serviceInstanceGuid == k && recs[i] == LastByKey(SpaceOrdered(recs), InstanceGuidOf)[k]
  {
    var walk := SpaceOrdered(recs);
    var last := LastByKey(walk, InstanceGuidOf);
    var j := LastByKeyIndex(walk, InstanceGuidOf, k);
    SpaceOrderedMembers(recs);
    assert walk[j] in walk;
    var i :| 0 <= i < |recs| && recs[i] == walk[j];
  }

  lemma InstanceEntryOf(recs: seq<SvcRecord>, c: Conversion, k: string)
    requires ValidConversion(c)
    requires k in Instances(recs, c)
    ensures InstanceEntry(recs, c, k, Instances(recs, c)[k])
  {
    var last := LastByKey(SpaceOrdered(recs), InstanceGuidOf);
    LastIsRecord(recs, k);
    var i :| 0 <= i < |recs| && recs[i].serviceInstanceGuid == k && recs[i] == last[k];
    assert Instances(recs, c)[k] == Instance(recs[i], c);
  }

  lemma InstancesFacts(recs: seq<SvcRecord>, c: Conversion)
    requires ValidConversion(c)
    ensures Instances(recs, c).Keys == KeySet(recs, InstanceGuidOf)
    ensures forall k :: k in Instances(recs, c) ==> InstanceEntry(recs, c, k, Instances(recs, c)[k])
  {
    InstanceMapKeys(recs, c);
    forall k | k in Instances(recs, c) ensures InstanceEntry(recs, c, k, Instances(recs, c)[k]) {
      InstanceEntryOf(recs, c, k);
    }
  }

  lemma InstanceMapKeys(recs: seq<SvcRecord>, c: Conversion)
    requires ValidConversion(c)
    ensures Instances(recs, c).Keys == KeySet(recs, InstanceGuidOf)
  {
    var last := LastByKey(SpaceOrdered(recs), InstanceGuidOf);
    assert Instances(recs, c).Keys == last.Keys;
    InstanceKeys(recs);
  }

  /** An instance seen in one record only is stored exactly as that record gives it. */
  lemma InstanceExact(recs: seq<SvcRecord>, c: Conversion, i: int)
    requires ValidConversion(c)
    requires 0 <= i < |recs|
    requires forall j :: 0 <= j < |recs| && recs[j].serviceInstanceGuid == recs[i].serviceInstanceGuid ==> j == i
    ensures recs[i].serviceInstanceGuid in Instances(recs, c)
    ensures Instances(recs, c)[recs[i].serviceInstanceGuid] == Instance(recs[i], c)
  {
    InstancesFacts(recs, c);
    var k := recs[i].serviceInstanceGuid;
    assert InstanceGuidOf(recs[i]) in KeySet(recs, InstanceGuidOf);
    assert InstanceEntry(recs, c, k, Instances(recs, c)[k]);
  }

  /** A bucket of another space holds no record of an instance that lives in space s. */
  lemma OtherBucketMisses(recs: seq<SvcRecord>, k: string, s: string, t: string)
    requires forall i :: 0 <= i < |recs| && recs[i].serviceInstanceGuid == k ==> recs[i].spaceGuid == s
    requires t != s
    ensures Select(Select(recs, SvcSpaceGuidOf, t), InstanceGuidOf, k) == []
  {
    var b := Select(recs, SvcSpaceGuidOf, t);
    SelectMembers(recs, SvcSpaceGuidOf, t);
    forall j | 0 <= j < |b| ensures InstanceGuidOf(b[j]) != k {
      assert b[j] in recs;
      var i :| 0 <= i < |recs| && recs[i] == b[j];
    }
    assert k !in KeySet(b, InstanceGuidOf);
  }

  /**
   * Walking the spaces ks, each once, meets the records of an instance that
   * lives in space s in input order, or not at all when s is not walked.
   */
  lemma {:induction false} ConcatBucketsSelect(recs: seq<SvcRecord>, ks: seq<string>, k: string, s: string)
    requires forall i :: 0 <= i < |recs| && recs[i].serviceInstanceGuid == k ==> recs[i].spaceGuid == s
    requires forall i, j :: 0 <= i < j < |ks| ==> ks[i] != ks[j]
    ensures Select(ConcatBuckets(recs, ks), InstanceGuidOf, k) == if s in ks then Select(recs, InstanceGuidOf, k) else []
  {
    if ks != [] {
      var b := Select(recs, SvcSpaceGuidOf, ks[0]);
      var rest := ConcatBuckets(recs, ks[1..]);
      assert ConcatBuckets(recs, ks) == b + rest;
      SelectAppend(b, rest, InstanceGuidOf, k);
      ConcatBucketsSelect(recs, ks[1..], k, s);
      if ks[0] == s {
        SelectRefines(recs, SvcSpaceGuidOf, s, InstanceGuidOf, k);
        forall j | 0 <= j < |ks[1..]| ensures ks[1..][j] != s {
          assert ks[1..][j] == ks[j + 1];
        }
      } else {
        OtherBucketMisses(recs, k, s, ks[0]);
        assert s in ks <==> s in ks[1..];
      }
    }
  }

  /** Walking the spaces meets the records of an instance that lives in one space in input order. */
  lemma OneSpaceWalkSelect(recs: seq<SvcRecord>, i: int)
    requires 0 <= i < |recs|
    requires forall j :: 0 <= j < |recs| && recs[j].serviceInstanceGuid == recs[i].serviceInstanceGuid ==> recs[j].spaceGuid == recs[i].spaceGuid
    ensures Select(SpaceOrdered(recs), InstanceGuidOf, recs[i].serviceInstanceGuid) == Select(recs, InstanceGuidOf, recs[i].serviceInstanceGuid)
  {
    var ks := KeyOrder(recs, SvcSpaceGuidOf);
    assert SvcSpaceGuidOf(recs[i]) in KeySet(recs, SvcSpaceGuidOf);
    assert recs[i].spaceGuid in ks;
    ConcatBucketsSelect(recs, ks, recs[i].serviceInstanceGuid, recs[i].spaceGuid);
  }

  /** The walk's last record of an instance that lives in one space is its last record in input order. */
  lemma OneSpaceLastRecord(recs: seq<SvcRecord>, i: int)
    requires 0 <= i < |recs|
    requires forall j :: i < j < |recs| ==> recs[j].serviceInstanceGuid != recs[i].serviceInstanceGuid
    requires forall j :: 0 <= j < |recs| && recs[j].serviceInstanceGuid == recs[i].serviceInstanceGuid ==> recs[j].spaceGuid == recs[i].spaceGuid
    ensures recs[i].serviceInstanceGuid in LastByKey(SpaceOrdered(recs), InstanceGuidOf)
    ensures LastByKey(SpaceOrdered(recs), InstanceGuidOf)[recs[i].serviceInstanceGuid] == recs[i]
  {
    var k := recs[i].serviceInstanceGuid;
    var walk := SpaceOrdered(recs);
    OneSpaceWalkSelect(recs, i);
    SelectLast(recs, InstanceGuidOf, k, i);
    assert k in KeySet(walk, InstanceGuidOf);
    LastByKeyIsLast(walk, InstanceGuidOf, k);
  }

  /**
   * An instance whose records all lie in one space is stored from its last
   * record in input order, whatever order the spaces are walked in.
   */
  lemma OneSpaceInstanceIsLast(recs: seq<SvcRecord>, c: Conversion, i: int)
    requires ValidConversion(c)
    requires 0 <= i < |recs|
    requires forall j :: i < j < |recs| ==> recs[j].serviceInstanceGuid != recs[i].serviceInstanceGuid
    requires forall j :: 0 <= j < |recs| && recs[j].serviceInstanceGuid == recs[i].serviceInstanceGuid ==> recs[j].spaceGuid == recs[i].spaceGuid
    ensures recs[i].serviceInstanceGuid in Instances(recs, c)
    ensures Instances(recs, c)[recs[i].serviceInstanceGuid] == Instance(recs[i], c)
  {
    OneSpaceLastRecord(recs, i);
  }

  // ---------------------------------------------------------------------
  // The two rollups
  // ---------------------------------------------------------------------

  /** The divisor the newer version computes in int arithmetic: 86400 * daysElapsed, wrapped to 32 bits. */
  function PerDayDivisor(days: int): int {
    IntValue(86400 * days)
  }

  /** For any elapsed day count up to 24855 the int product does not wrap. */
  lemma PerDayDivisorExact(days: int)
    requires 1 <= days <= 24855
    ensures PerDayDivisor(days) == 86400 * days > 0
  {
  }

  /** Both rollups: SIUsage.builder() leaves the stored totals at 0. */
  function Rollup(orgGuid: string, year: int, quarter: int, recs: seq<SvcRecord>, c: Conversion, metrics: SvcMetrics): (r: SIUsage)
    requires ValidConversion(c)
    ensures r.orgGuid == orgGuid && r.year == year && r.quarter == quarter
    ensures r.totalSvcs == 0 && r.totalSis == 0
    ensures r.siSpaceUsage.Keys == KeySet(recs, SvcSpaceGuidOf)
    ensures forall s :: s in r.siSpaceUsage ==> SISpaceEntry(recs, metrics, s, r.siSpaceUsage[s])
    ensures r.serviceInstanceUsage.Keys == KeySet(recs, InstanceGuidOf)
    ensures forall k :: k in r.serviceInstanceUsage ==> InstanceEntry(recs, c, k, r.serviceInstanceUsage[k])
  {
    SISpacesFacts(recs, metrics);
    InstancesFacts(recs, c);
    SIUsage(orgGuid, year, quarter, 0, 0, SISpaces(recs, metrics), Instances(recs, c))
  }

  /** svcUsage of the older service, after parsing: every record counted, durations copied. */
  function LegacySvcRollup(orgGuid: string, year: int, quarter: int, recs: seq<SvcRecord>, metrics: SvcMetrics): (r: SIUsage)
    ensures r.orgGuid == orgGuid && r.year == year && r.quarter == quarter
    ensures r.siSpaceUsage.Keys == KeySet(recs, SvcSpaceGuidOf)
    ensures forall s :: s in r.siSpaceUsage ==> SISpaceEntry(recs, metrics, s, r.siSpaceUsage[s])
    ensures r.serviceInstanceUsage.Keys == KeySet(recs, InstanceGuidOf)
    ensures forall k :: k in r.serviceInstanceUsage ==> InstanceEntry(recs, Copy, k, r.serviceInstanceUsage[k])
  {
    Rollup(orgGuid, year, quarter, recs, Copy, metrics)
  }

  /** Without conversion, each stored duration is the duration of some record of the instance, unchanged. */
  lemma CopyKeepsDuration(recs: seq<SvcRecord>, k: string)
    requires k in Instances(recs, Copy)
    ensures exists i :: 0 <= i < |recs| && recs[i].serviceInstanceGuid == k && Instances(recs, Copy)[k].durationInSecs == recs[i].durationInSeconds
  {
    InstanceEntryOf(recs, Copy, k);
    var i :| 0 <= i < |recs| && recs[i].serviceInstanceGuid == k && Instances(recs, Copy)[k] == Instance(recs[i], Copy);
  }

  /**
   * generateSvcUsage, after parsing: only allowed services are counted, and
   * each instance duration is divided by the per-day divisor (PerDayDivisor
   * of daysElapsed), which throws when that divisor is 0 and there is a
   * record to divide.
   */
  function SvcRollup(orgGuid: string, year: int, quarter: int, recs: seq<SvcRecord>, included: set<string>, divisor: int, metrics: SvcMetrics): (r: Result<SIUsage>)
    ensures r.Failure? <==> divisor == 0 && Included(recs, included) != []
    ensures r.Failure? ==> r.error == DivisionByZero
    ensures r.Success? ==> r.value.orgGuid == orgGuid && r.value.year == year && r.value.quarter == quarter
    ensures r.Success? ==> r.value.siSpaceUsage.Keys == KeySet(Included(recs, included), SvcSpaceGuidOf)
    ensures r.Success? ==> r.value.serviceInstanceUsage.Keys == KeySet(Included(recs, included), InstanceGuidOf)
    ensures r.Success? && divisor != 0 ==>
      r.value == Rollup(orgGuid, year, quarter, Included(recs, included), PerDay(divisor), metrics)
  {
    var kept := Included(recs, included);
    if divisor == 0 && kept != [] then Failure(DivisionByZero)
    else
      Success(Rollup(orgGuid, year, quarter, kept, PerDayConversion(divisor), metrics))
  }

  /** Division by the per-day divisor; with a zero divisor there is nothing to divide, and the conversion is never applied. */
  function PerDayConversion(divisor: int): (c: Conversion)
    ensures ValidConversion(c)
    ensures divisor != 0 ==> c == PerDay(divisor)
  {
    if divisor == 0 then Copy else PerDay(divisor)
  }

  // ---------------------------------------------------------------------
  // Properties of the rollups
  // ---------------------------------------------------------------------

  /** A record whose service is not allowed does not change the newer rollup at all. */
  lemma SvcRollupIgnoresExcluded(orgGuid: string, year: int, quarter: int, a: seq<SvcRecord>, x: SvcRecord, b: seq<SvcRecord>,
                                 included: set<string>, divisor: int, metrics: SvcMetrics)
    requires x.serviceName !in included
    ensures SvcRollup(orgGuid, year, quarter, a + [x] + b, included, divisor, metrics)
         == SvcRollup(orgGuid, year, quarter, a + b, included, divisor, metrics)
  {
    ExcludedVanishes(a, x, b, included);
  }

  /**
   * An excluded record whose space and instance no allowed record shares
   * appears in neither map of the newer rollup.
   */
  lemma ExcludedRecordAbsent(orgGuid: string, year: int, quarter: int, recs: seq<SvcRecord>, included: set<string>,
                             divisor: int, metrics: SvcMetrics, i: int)
    requires 0 <= i < |recs| && recs[i].serviceName !in included
    requires forall j :: 0 <= j < |recs| && recs[j].serviceName in included ==> recs[j].spaceGuid != recs[i].spaceGuid
    requires forall j :: 0 <= j < |recs| && recs[j].serviceName in included ==> recs[j].serviceInstanceGuid != recs[i].serviceInstanceGuid
    requires SvcRollup(orgGuid, year, quarter, recs, included, divisor, metrics).Success?
    ensures recs[i].spaceGuid !in SvcRollup(orgGuid, year, quarter, recs, included, divisor, metrics).value.siSpaceUsage
    ensures recs[i].serviceInstanceGuid !in SvcRollup(orgGuid, year, quarter, recs, included, divisor, metrics).value.serviceInstanceUsage
  {
    var kept := Included(recs, included);
    var r := SvcRollup(orgGuid, year, quarter, recs, included, divisor, metrics);
    assert r.value.siSpaceUsage.Keys == KeySet(kept, SvcSpaceGuidOf);
    assert r.value.serviceInstanceUsage.Keys == KeySet(kept, InstanceGuidOf);
    ExcludedKeysAbsent(recs, included, i);
  }

  lemma ExcludedKeysAbsent(recs: seq<SvcRecord>, included: set<string>, i: int)
    requires 0 <= i < |recs| && recs[i].serviceName !in included
    requires forall j :: 0 <= j < |recs| && recs[j].serviceName in included ==> recs[j].spaceGuid != recs[i].spaceGuid
    requires forall j :: 0 <= j < |recs| && recs[j].serviceName in included ==> recs[j].serviceInstanceGuid != recs[i].serviceInstanceGuid
    ensures recs[i].spaceGuid !in KeySet(Included(recs, included), SvcSpaceGuidOf)
    ensures recs[i].serviceInstanceGuid !in KeySet(Included(recs, included), InstanceGuidOf)
  {
    var kept := Included(recs, included);
    IncludedMembers(recs, included);
    forall j | 0 <= j < |kept|
      ensures kept[j].spaceGuid != recs[i].spaceGuid && kept[j].serviceInstanceGuid != recs[i].serviceInstanceGuid
    {
      assert kept[j] in kept;
      var jj :| 0 <= jj < |recs| && recs[jj] == kept[j];
    }
  }

  /** The per-space instance counts add up to the number of records counted. */
  lemma SISpacesCountSum(recs: seq<SvcRecord>, metrics: SvcMetrics)
    ensures MapSum(SISpaces(recs, metrics), ExactSis) == |recs|
  {
    var spaces := SISpaces(recs, metrics);
    var groups := GroupBy(recs, SvcSpaceGuidOf);
    SISpacesFacts(recs, metrics);
    forall s | s in spaces ensures ExactSis(spaces[s]) == Length(groups[s]) {
      assert SISpaceEntry(recs, metrics, s, spaces[s]);
    }
    MapSumCongruent(spaces, ExactSis, groups, Length);
    GroupSizesSum(recs, SvcSpaceGuidOf);
  }

  /** Below 2^31 records, getTotalSis() reports exactly the number of records counted. */
  lemma SISpacesReported(recs: seq<SvcRecord>, metrics: SvcMetrics, u: SIUsage)
    requires |recs| < 0x8000_0000
    requires u.siSpaceUsage == SISpaces(recs, metrics)
    ensures ReportedSis(u) == |recs|
  {
    var spaces := SISpaces(recs, metrics);
    SISpacesFacts(recs, metrics);
    SISpacesCountSum(recs, metrics);
    forall s | s in spaces ensures 0 <= spaces[s].totalSis <= |recs| {
      assert SISpaceEntry(recs, metrics, s, spaces[s]);
    }
    assert |spaces| <= |recs| by {
      KeySetSize(recs, SvcSpaceGuidOf);
    }
    ReportedSisExact(u);
  }

  /** In the older version every record is counted once: the counts sum to the input length. */
  lemma LegacySvcCounts(orgGuid: string, year: int, quarter: int, recs: seq<SvcRecord>, metrics: SvcMetrics)
    ensures MapSum(LegacySvcRollup(orgGuid, year, quarter, recs, metrics).siSpaceUsage, ExactSis) == |recs|
    ensures |recs| < 0x8000_0000 ==> ReportedSis(LegacySvcRollup(orgGuid, year, quarter, recs, metrics)) == |recs|
  {
    var u := LegacySvcRollup(orgGuid, year, quarter, recs, metrics);
    assert u.siSpaceUsage == SISpaces(recs, metrics);
    SISpacesCountSum(recs, metrics);
    if |recs| < 0x8000_0000 {
      SISpacesReported(recs, metrics, u);
    }
  }

  /** In the newer version the counts sum to the number of allowed records. */
  lemma SvcCounts(orgGuid: string, year: int, quarter: int, recs: seq<SvcRecord>, included: set<string>, divisor: int, metrics: SvcMetrics)
    requires SvcRollup(orgGuid, year, quarter, recs, included, divisor, metrics).Success?
    ensures MapSum(SvcRollup(orgGuid, year, quarter, recs, included, divisor, metrics).value.siSpaceUsage, ExactSis) == |Included(recs, included)|
    ensures |recs| < 0x8000_0000 ==>
      ReportedSis(SvcRollup(orgGuid, year, quarter, recs, included, divisor, metrics).value) == |Included(recs, included)|
  {
    var kept := Included(recs, included);
    var u := SvcRollup(orgGuid, year, quarter, recs, included, divisor, metrics).value;
    assert u.siSpaceUsage == SISpaces(kept, metrics);
    SISpacesCountSum(kept, metrics);
    if |recs| < 0x8000_0000 {
      SISpacesReported(kept, metrics, u);
    }
  }

  /** No records, no spaces and no instances, in either version; both totals are then 0. */
  lemma EmptySvcRollups(orgGuid: string, year: int, quarter: int, included: set<string>, divisor: int, metrics: SvcMetrics)
    ensures SvcRollup(orgGuid, year, quarter, [], included, divisor, metrics).Success?
    ensures SvcRollup(orgGuid, year, quarter, [], included, divisor, metrics).value.siSpaceUsage == map[]
    ensures SvcRollup(orgGuid, year, quarter, [], included, divisor, metrics).value.serviceInstanceUsage == map[]
    ensures LegacySvcRollup(orgGuid, year, quarter, [], metrics).siSpaceUsage == map[]
    ensures LegacySvcRollup(orgGuid, year, quarter, [], metrics).serviceInstanceUsage == map[]
    ensures ReportedSis(LegacySvcRollup(orgGuid, year, quarter, [], metrics)) == 0
    ensures ReportedSvcs(LegacySvcRollup(orgGuid, year, quarter, [], metrics)) == 0
  {
  }
}

=== FILE: si_usage.dfy ===
/**
 * The totals an SIUsage reports. getTotalSvcs() and getTotalSis() ignore the
 * stored fields and sum the children of siSpaceUsage, each child count first
 * narrowed to an int (Long::intValue) and the sum kept in a long.
 */
module SIUsageTotals {
  import opened UsageModel
  import opened Sums

  function NarrowedSvcs(s: SISpaceUsage): int {
    IntValue(s.totalSvcs)
  }

  function NarrowedSis(s: SISpaceUsage): int {
    IntValue(s.totalSis)
  }

  function ExactSvcs(s: SISpaceUsage): int {
    s.totalSvcs
  }

  function ExactSis(s: SISpaceUsage): int {
    s.totalSis
  }

  /** The value getTotalSvcs() reports, as a wrapped long. */
  ghost function ReportedSvcs(u: SIUsage): int {
    Wrap64(MapSum(u.siSpaceUsage, NarrowedSvcs))
  }

  /** The value getTotalSis() reports, as a wrapped long. */
  ghost function ReportedSis(u: SIUsage): int {
    Wrap64(MapSum(u.siSpaceUsage, NarrowedSis))
  }

  /** One step of the walk: take one space out of the rest and add its count to the wrapped long. */
  lemma SumStep(rest: map<string, SISpaceUsage>, narrowed: SISpaceUsage -> int, k: string, sum: int)
    requires k in rest
    ensures Wrap64(Wrap64(sum + narrowed(rest[k])) + MapSum(rest - {k}, narrowed)) == Wrap64(sum + MapSum(rest, narrowed))
    ensures |rest - {k}| < |rest|
  {
    MapSumRemove(rest, narrowed, k);
    RemoveShrinks(rest, k);
    Wrap64Add(sum + narrowed(rest[k]), MapSum(rest - {k}, narrowed));
  }

  /**
   * Walks the space map in an unspecified order, adding each narrowed count
   * to a long that wraps at every addition. Whatever the order, the result
   * is the exact sum wrapped once (Sums.Wrap64Add).
   */
  method SumNarrowed(spaces: map<string, SISpaceUsage>, narrowed: SISpaceUsage -> int) returns (total: int)
    ensures total == Wrap64(MapSum(spaces, narrowed))
  {
    var sum := 0;
    var rest := spaces;
    while rest != map[]
      invariant -TWO_63 <= sum < TWO_63
      invariant Wrap64(sum + MapSum(rest, narrowed)) == Wrap64(MapSum(spaces, narrowed))
      decreases |rest|
    {
      var k :| k in rest;
      SumStep(rest, narrowed, k, sum);
      sum := Wrap64(sum + narrowed(rest[k]));
      rest := rest - {k};
    }
    total := sum;
  }

  /** getTotalSvcs(): 0 for an empty space map, otherwise the narrowed sum over the spaces. */
  method GetTotalSvcs(u: SIUsage) returns (count: int)
    ensures count == ReportedSvcs(u)
    ensures u.siSpaceUsage == map[] ==> count == 0
  {
    count := 0;
    if |u.siSpaceUsage| > 0 {
      count := SumNarrowed(u.siSpaceUsage, NarrowedSvcs);
    }
  }

  /** getTotalSis(): 0 for an empty space map, otherwise the narrowed sum over the spaces. */
  method GetTotalSis(u: SIUsage) returns (count: int)
    ensures count == ReportedSis(u)
    ensures u.siSpaceUsage == map[] ==> count == 0
  {
    count := 0;
    if |u.siSpaceUsage| > 0 {
      count := SumNarrowed(u.siSpaceUsage, NarrowedSis);
    }
  }

  /** SIUsage.builder()...build(): the space map defaults to empty, so both reported totals are 0. */
  function Build(orgGuid: string, year: int, quarter: int): (u: SIUsage)
    ensures u.orgGuid == orgGuid && u.year == year && u.quarter == quarter
    ensures u.siSpaceUsage == map[] && u.serviceInstanceUsage == map[]
    ensures ReportedSvcs(u) == 0 && ReportedSis(u) == 0
  {
    SIUsage(orgGuid, year, quarter, 0, 0, map[], map[])
  }

  /** setTotalSvcs / setTotalSis: the stored fields change, the reported totals do not. */
  function SetStoredTotals(u: SIUsage, totalSvcs: int, totalSis: int): (r: SIUsage)
    ensures r.totalSvcs == totalSvcs && r.totalSis == totalSis
    ensures ReportedSvcs(r) == ReportedSvcs(u) && ReportedSis(r) == ReportedSis(u)
  {
    u.(totalSvcs := totalSvcs, totalSis := totalSis)
  }

  /** A new space entry raises each reported total by exactly its narrowed count (in long arithmetic). */
  lemma AddSpaceRaisesTotals(u: SIUsage, key: string, space: SISpaceUsage)
    requires key !in u.siSpaceUsage
    ensures ReportedSvcs(u.(siSpaceUsage := u.siSpaceUsage[key := space])) == Wrap64(ReportedSvcs(u) + IntValue(space.totalSvcs))
    ensures ReportedSis(u.(siSpaceUsage := u.siSpaceUsage[key := space])) == Wrap64(ReportedSis(u) + IntValue(space.totalSis))
  {
    MapSumInsert(u.siSpaceUsage, NarrowedSvcs, key, space);
    MapSumInsert(u.siSpaceUsage, NarrowedSis, key, space);
    Wrap64Add(MapSum(u.siSpaceUsage, NarrowedSvcs), IntValue(space.totalSvcs));
    Wrap64Add(MapSum(u.siSpaceUsage, NarrowedSis), IntValue(space.totalSis));
  }

  /**
   * When every child service count fits in an int and there are at most 2^32
   * spaces, no narrowing or wrapping happens: getTotalSvcs() is the exact sum.
   */
  lemma ReportedSvcsExact(u: SIUsage)
    requires forall k :: k in u.siSpaceUsage ==> -0x8000_0000 <= u.siSpaceUsage[k].totalSvcs < 0x8000_0000
    requires |u.siSpaceUsage| <= TWO_32
    ensures ReportedSvcs(u) == MapSum(u.siSpaceUsage, ExactSvcs)
  {
    var m := u.siSpaceUsage;
    MapSumCongruent(m, NarrowedSvcs, m, ExactSvcs);
    MapSumBounds(m, ExactSvcs, -0x8000_0000, 0x7FFF_FFFF);
    assert |m| * 0x7FFF_FFFF < TWO_63;
    assert |m| * -0x8000_0000 >= -TWO_63;
  }

  /**
   * When every child instance count fits in an int and there are at most 2^32
   * spaces, no narrowing or wrapping happens: getTotalSis() is the exact sum.
   */
  lemma ReportedSisExact(u: SIUsage)
    requires forall k :: k in u.siSpaceUsage ==> -0x8000_0000 <= u.siSpaceUsage[k].totalSis < 0x8000_0000
    requires |u.siSpaceUsage| <= TWO_32
    ensures ReportedSis(u) == MapSum(u.siSpaceUsage, ExactSis)
  {
    var m := u.siSpaceUsage;
    MapSumCongruent(m, NarrowedSis, m, ExactSis);
    MapSumBounds(m, ExactSis, -0x8000_0000, 0x7FFF_FFFF);
    assert |m| * 0x7FFF_FFFF < TWO_63;
    assert |m| * -0x8000_0000 >= -TWO_63;
  }
}

=== FILE: sums.dfy ===
/**
 * Sums over the values of a map (Java's values().stream()...sum()), which
 * do not depend on the order the map is walked in, and the two's-complement
 * narrowings Java applies to longs and ints.
 */
module Sums {

  const TWO_32: int := 0x1_0000_0000
  const TWO_63: int := 0x8000_0000_0000_0000
  const TWO_64: int := 0x1_0000_0000_0000_0000

  /** Long.intValue(): the low 32 bits of x read as a signed int. */
  function IntValue(x: int): (r: int)
    ensures -0x8000_0000 <= r < 0x8000_0000
    ensures (x - r) % TWO_32 == 0
    ensures -0x8000_0000 <= x < 0x8000_0000 ==> r == x
  {
    var low := x % TWO_32;
    if low >= 0x8000_0000 then low - TWO_32 else low
  }

  /** The value a long holds after an addition that may wrap: x reduced into [-2^63, 2^63). */
  function Wrap64(x: int): (r: int)
    ensures -TWO_63 <= r < TWO_63
    ensures -TWO_63 <= x < TWO_63 ==> r == x
  {
    var low := x % TWO_64;
    if low >= TWO_63 then low - TWO_64 else low
  }

  /** Wrapping changes a value by a whole number of 2^64 steps. */
  lemma Wrap64Congruent(x: int)
    ensures (x - Wrap64(x)) % TWO_64 == 0
  {
  }

  /** Adding in wrapped longs step by step gives the wrap of the exact sum. */
  lemma Wrap64Add(a: int, b: int)
    ensures Wrap64(Wrap64(a) + b) == Wrap64(a + b)
  {
    Wrap64Congruent(a);
    var q := (a - Wrap64(a)) / TWO_64;
    assert a - Wrap64(a) == q * TWO_64;
    assert (Wrap64(a) + b) % TWO_64 == (a + b) % TWO_64 by {
      ModShift(a + b, q);
    }
  }

  function Abs(x: int): nat {
    if x < 0 then -x else x
  }

  /**
   * Java's integer division: the quotient is truncated toward zero, so the
   * remainder a - q * b is smaller than b in size and never has the sign
   * opposite to a.
   */
  function JavaDiv(a: int, b: int): (q: int)
    requires b != 0
    ensures Abs(a - q * b) < Abs(b)
    ensures a - q * b == 0 || (a - q * b < 0 <==> a < 0)
  {
    var m := Abs(a) / Abs(b);
    assert Abs(a) - m * Abs(b) < Abs(b);
    if (a < 0) == (b < 0) then m else -m
  }

  /** On a negative dividend Java's quotient differs from the floor quotient exactly when the division is inexact. */
  lemma JavaDivAgainstFloor(a: int, b: int)
    requires b > 0
    ensures a >= 0 ==> JavaDiv(a, b) == a / b
    ensures a < 0 ==> JavaDiv(a, b) == if a % b == 0 then a / b else a / b + 1
  {
    var q := JavaDiv(a, b);
    var r := a - q * b;
    if r == 0 {
      DivUnique(a, b, q);
    } else if a >= 0 {
      DivUnique(a, b, q);
    } else {
      assert -b < r < 0;
      assert a - (q - 1) * b == r + b by {
        assert (q - 1) * b == q * b - b;
      }
      DivUnique(a, b, q - 1);
    }
  }

  /** The floor quotient is the only q whose remainder lies in [0, b). */
  lemma DivUnique(a: int, b: int, q: int)
    requires b > 0
    requires 0 <= a - q * b < b
    ensures q == a / b
  {
    var d := a / b;
    assert 0 <= a - d * b < b;
    if q < d {
      assert (d - q) * b == d * b - q * b;
      AtLeastOnce(d - q, b);
    } else if q > d {
      assert (q - d) * b == q * b - d * b;
      AtLeastOnce(q - d, b);
    }
  }

  lemma AtLeastOnce(n: int, b: int)
    requires n >= 1 && b > 0
    ensures n * b >= b
  {
    assert n * b == (n - 1) * b + b;
  }

  lemma ModShift(x: int, q: int)
    ensures (x - q * TWO_64) % TWO_64 == x % TWO_64
  {
  }

  /** Some element of a nonempty set, fixed but unspecified (the order a HashMap walks its keys in). */
  ghost function Pick<K>(s: set<K>): (k: K)
    requires s != {}
    ensures k in s
  {
    var k :| k in s; k
  }

  /** The sum of f over the values of m, taking the entries in an arbitrary order. */
  ghost function MapSum<K, V>(m: map<K, V>, f: V -> int): int
    decreases |m|
  {
    if m == map[] then 0
    else
      var k := Pick(m.Keys);
      RemoveShrinks(m, k);
      f(m[k]) + MapSum(m - {k}, f)
  }

  lemma RemoveShrinks<K, V>(m: map<K, V>, k: K)
    requires k in m
    ensures |m - {k}| == |m| - 1
  {
    assert m.Keys == (m - {k}).Keys + {k};
  }

  /** The sum peels off any entry, not only the one the definition happens to pick. */
  lemma {:induction false} MapSumRemove<K, V>(m: map<K, V>, f: V -> int, k: K)
    requires k in m
    ensures MapSum(m, f) == f(m[k]) + MapSum(m - {k}, f)
    decreases |m|
  {
    var j := Pick(m.Keys);
    if j != k {
      var mj, mk := m - {j}, m - {k};
      RemoveShrinks(m, j);
      RemoveShrinks(m, k);
      assert k in mj && j in mk;
      MapSumRemove(mj, f, k);
      MapSumRemove(mk, f, j);
      assert mj - {k} == mk - {j};
    }
  }

  /** Inserting a new entry adds exactly its value to the sum. */
  lemma MapSumInsert<K, V>(m: map<K, V>, f: V -> int, k: K, v: V)
    requires k !in m
    ensures MapSum(m[k := v], f) == MapSum(m, f) + f(v)
  {
    MapSumRemove(m[k := v], f, k);
    assert m[k := v] - {k} == m;
  }

  /** Replacing an entry changes the sum by the difference of the two values. */
  lemma MapSumReplace<K, V>(m: map<K, V>, f: V -> int, k: K, v: V)
    requires k in m
    ensures MapSum(m[k := v], f) == MapSum(m, f) - f(m[k]) + f(v)
  {
    MapSumRemove(m[k := v], f, k);
    MapSumRemove(m, f, k);
    assert m[k := v] - {k} == m - {k};
  }

  /** Two maps over the same keys whose entries contribute equally have equal sums. */
  lemma {:induction false} MapSumCongruent<K, V, W>(m: map<K, V>, f: V -> int, n: map<K, W>, g: W -> int)
    requires m.Keys == n.Keys
    requires forall k :: k in m ==> f(m[k]) == g(n[k])
    ensures MapSum(m, f) == MapSum(n, g)
    decreases |m|
  {
    if |m| > 0 {
      var k :| k in m;
      MapSumRemove(m, f, k);
      MapSumRemove(n, g, k);
      RemoveShrinks(m, k);
      MapSumCongruent(m - {k}, f, n - {k}, g);
    }
  }

  /** Every entry contributes between lo and hi, so the sum lies between |m| * lo and |m| * hi. */
  lemma {:induction false} MapSumBounds<K, V>(m: map<K, V>, f: V -> int, lo: int, hi: int)
    requires forall k :: k in m ==> lo <= f(m[k]) <= hi
    ensures |m| * lo <= MapSum(m, f) <= |m| * hi
    decreases |m|
  {
    if |m| > 0 {
      var k :| k in m;
      MapSumRemove(m, f, k);
      RemoveShrinks(m, k);
      MapSumBounds(m - {k}, f, lo, hi);
      assert |m| * lo == (|m| - 1) * lo + lo;
      assert |m| * hi == (|m| - 1) * hi + hi;
    }
  }
}

=== FILE: usage_api.dfy ===
/**
 * The usage API both services call, seen from the aggregation: an HTTP GET of
 * the app or service usages of one org for a date range, and the JSON read
 * of its body into records.
 */
module UsageApi {
  import opened Outcomes
  import opened UsageModel

  /**
   * The usage API call followed by the JSON read, for (foundation, orgGuid,
   * start, end). A failed call or an unreadable body is a failure; the
   * source goes on with a null record list and throws when it reads it.
   */
  datatype Upstream = Upstream(
    apps: (string, string, string, string) -> Result<seq<AppRecord>>,
    services: (string, string, string, string) -> Result<seq<SvcRecord>>)
}

=== FILE: usage_cache.dfy ===
/**
 * The quarterly rollup cache of the newer usage service, seen sequentially.
 *
 * The cache maps (foundation, org guid, year, quarter) to a rollup. The lazy
 * path (appUsage/svcUsage by year and quarter) returns a stored rollup, or
 * computes one and stores it: an entry, once written there, is never
 * replaced. The bulk path (getAppUsageByFoundationOrg and
 * getSIUsageByFoundationOrg) walks every foundation, every listed org and
 * every elapsed quarter and always overwrites. Computing a rollup may fail;
 * a failure is propagated and, on the bulk path, ends the walk with the
 * writes made so far kept.
 */
module UsageCache {
  import opened Outcomes
  import opened UsageModel
  import opened Quarters

  /** The cache key; the source joins the four parts with '$' into one string. */
  datatype CacheKey = CacheKey(foundation: string, orgGuid: string, year: int, quarter: int)

  /** What a lazy lookup returns: the rollup, the cache afterwards, and whether it had to be computed. */
  datatype Lookup<R> = Lookup(value: R, cache: map<CacheKey, R>, computed: bool)

  // ---------------------------------------------------------------------
  // The lazy path
  // ---------------------------------------------------------------------

  /** The double-checked get-or-compute of appUsage/svcUsage(foundation, orgGuid, year, quarter). */
  function GetOrCompute<R>(cache: map<CacheKey, R>, key: CacheKey, compute: CacheKey -> Result<R>): (r: Result<Lookup<R>>)
    ensures r.Failure? <==> key !in cache && compute(key).Failure?
    ensures r.Failure? ==> r.error == compute(key).error
    ensures r.Success? ==> key in r.value.cache && r.value.cache[key] == r.value.value
    ensures r.Success? ==> r.value.computed <==> key !in cache
    ensures r.Success? && key in cache ==> r.value.value == cache[key] && r.value.cache == cache
    ensures r.Success? && key !in cache ==> r.value.value == compute(key).value
  {
    if key in cache then Success(Lookup(cache[key], cache, false))
    else
      var v :- compute(key);
      Success(Lookup(v, cache[key := v], true))
  }

  /** The lazy path never replaces or removes an entry: it only adds the one key it was asked for. */
  lemma LazyKeepsEntries<R>(cache: map<CacheKey, R>, key: CacheKey, compute: CacheKey -> Result<R>)
    requires GetOrCompute(cache, key, compute).Success?
    ensures var after := GetOrCompute(cache, key, compute).value.cache;
      && after.Keys == cache.Keys + {key}
      && forall k :: k in cache ==> after[k] == cache[k]
  {
  }

  /**
   * After one successful lookup, asking again for the same key returns the
   * same rollup, computes nothing and leaves the cache as it is, whatever
   * the compute function would now do.
   */
  lemma SecondLookupHits<R>(cache: map<CacheKey, R>, key: CacheKey, compute: CacheKey -> Result<R>, later: CacheKey -> Result<R>)
    requires GetOrCompute(cache, key, compute).Success?
    ensures var first := GetOrCompute(cache, key, compute).value;
      GetOrCompute(first.cache, key, later) == Success(Lookup(first.value, first.cache, false))
  {
  }

  /** A run of lazy lookups: the final cache and how many rollups were computed. */
  function LookupAll<R>(cache: map<CacheKey, R>, keys: seq<CacheKey>, compute: CacheKey -> Result<R>): Result<(map<CacheKey, R>, nat)>
    decreases |keys|
  {
    if keys == [] then Success((cache, 0))
    else
      var first :- GetOrCompute(cache, keys[0], compute);
      var rest :- LookupAll(first.cache, keys[1..], compute);
      Success((rest.0, rest.1 + if first.computed then 1 else 0))
  }

  function KeysOf(keys: seq<CacheKey>): set<CacheKey> {
    set i | 0 <= i < |keys| :: keys[i]
  }

  lemma KeysOfCons(keys: seq<CacheKey>)
    requires keys != []
    ensures KeysOf(keys) == {keys[0]} + KeysOf(keys[1..])
  {
    var tail := keys[1..];
    forall x | x in KeysOf(keys) ensures x in {keys[0]} + KeysOf(tail) {
      var i :| 0 <= i < |keys| && keys[i] == x;
      if i > 0 {
        assert tail[i - 1] == x;
      }
    }
    forall x | x in KeysOf(tail) ensures x in KeysOf(keys) {
      var i :| 0 <= i < |tail| && tail[i] == x;
      assert keys[i + 1] == x;
    }
  }

  /** Counting the keys still to compute, one key at a time. */
  lemma MissingStep<T>(k: T, all: set<T>, tail: set<T>, present: set<T>, next: set<T>)
    requires all == {k} + tail
    requires next == present + {k}
    ensures |all - present| == |tail - next| + if k in present then 0 else 1
  {
    if k in present {
      assert all - present == tail - next;
    } else {
      assert all - present == {k} + (tail - next);
    }
  }

  /** A run of lookups ends with every requested key cached and every earlier entry unchanged. */
  lemma {:induction false} LookupAllKeeps<R>(cache: map<CacheKey, R>, keys: seq<CacheKey>, compute: CacheKey -> Result<R>)
    requires LookupAll(cache, keys, compute).Success?
    ensures LookupAll(cache, keys, compute).value.0.Keys == cache.Keys + KeysOf(keys)
    ensures forall k :: k in cache ==> LookupAll(cache, keys, compute).value.0[k] == cache[k]
    decreases |keys|
  {
    if keys == [] {
      assert KeysOf(keys) == {};
    } else {
      var first := GetOrCompute(cache, keys[0], compute).value;
      LookupAllKeeps(first.cache, keys[1..], compute);
      KeysOfCons(keys);
    }
  }

  /**
   * Each distinct key is computed at most once: a run of lookups computes
   * exactly as many rollups as there are requested keys not cached when it
   * started.
   */
  lemma {:induction false} LookupAllComputesOnce<R>(cache: map<CacheKey, R>, keys: seq<CacheKey>, compute: CacheKey -> Result<R>)
    requires LookupAll(cache, keys, compute).Success?
    ensures LookupAll(cache, keys, compute).value.1 == |KeysOf(keys) - cache.Keys|
    decreases |keys|
  {
    if keys == [] {
      assert KeysOf(keys) == {};
    } else {
      var k := keys[0];
      var first := GetOrCompute(cache, k, compute).value;
      LookupAllComputesOnce(first.cache, keys[1..], compute);
      KeysOfCons(keys);
      MissingStep(k, KeysOf(keys), KeysOf(keys[1..]), cache.Keys, first.cache.Keys);
    }
  }

  // ---------------------------------------------------------------------
  // The bulk path
  // ---------------------------------------------------------------------

  /** The cache after a bulk refresh, and the exception that ended it early, if any. */
  datatype Refresh<R> = Refresh(cache: map<CacheKey, R>, error: Option<UsageError>)

  /** The elapsed quarters of one org, in turn: split the label, compute, overwrite. */
  function RefreshQuarters<R>(cache: map<CacheKey, R>, foundation: string, org: Organization, quarters: seq<string>,
                              compute: CacheKey -> Result<R>): Refresh<R>
    decreases |quarters|
  {
    if quarters == [] then Refresh(cache, None)
    else
      match SplitQuarter(quarters[0])
      case Failure(e) => Refresh(cache, Some(e))
      case Success(yq) =>
        var key := CacheKey(foundation, org.guid, yq.0, yq.1);
        match compute(key)
        case Failure(e) => Refresh(cache, Some(e))
        case Success(v) => RefreshQuarters(cache[key := v], foundation, org, quarters[1..], compute)
  }

  /** The org list of one foundation, in turn; null entries are skipped. */
  function RefreshOrgs<R>(cache: map<CacheKey, R>, foundation: string, orgs: seq<Option<Organization>>, quarters: seq<string>,
                          compute: CacheKey -> Result<R>): Refresh<R>
    decreases |orgs|
  {
    if orgs == [] then Refresh(cache, None)
    else if orgs[0].None? then RefreshOrgs(cache, foundation, orgs[1..], quarters, compute)
    else
      var r := RefreshQuarters(cache, foundation, orgs[0].value, quarters, compute);
      if r.error.Some? then r else RefreshOrgs(r.cache, foundation, orgs[1..], quarters, compute)
  }

  /**
   * Every foundation in turn. A foundation the org directory does not list
   * yields a null org list, and walking it throws.
   */
  function RefreshAll<R>(cache: map<CacheKey, R>, foundations: seq<string>, directory: map<string, seq<Option<Organization>>>,
                         quarters: seq<string>, compute: CacheKey -> Result<R>): Refresh<R>
    decreases |foundations|
  {
    if foundations == [] then Refresh(cache, None)
    else if foundations[0] !in directory then Refresh(cache, Some(MissingOrgList))
    else
      var r := RefreshOrgs(cache, foundations[0], directory[foundations[0]], quarters, compute);
      if r.error.Some? then r else RefreshAll(r.cache, foundations[1..], directory, quarters, compute)
  }

  /** Key k belongs to org of foundation for one of the quarter labels. */
  predicate QuarterTarget(k: CacheKey, foundation: string, org: Organization, quarters: seq<string>) {
    && k.foundation == foundation && k.orgGuid == org.guid
    && exists i :: 0 <= i < |quarters| && SplitQuarter(quarters[i]) == Success((k.year, k.quarter))
  }

  predicate OrgTarget(k: CacheKey, foundation: string, orgs: seq<Option<Organization>>, quarters: seq<string>) {
    exists i :: 0 <= i < |orgs| && orgs[i].Some? && QuarterTarget(k, foundation, orgs[i].value, quarters)
  }

  /** Key k is one the bulk refresh writes: a listed foundation, one of its orgs, an elapsed quarter. */
  predicate Target(k: CacheKey, foundations: seq<string>, directory: map<string, seq<Option<Organization>>>, quarters: seq<string>) {
    exists i :: 0 <= i < |foundations| && foundations[i] in directory && OrgTarget(k, foundations[i], directory[foundations[i]], quarters)
  }

  /** Every quarter label of the org parses and its rollup can be computed. */
  predicate QuartersOk<R>(foundation: string, org: Organization, quarters: seq<string>, compute: CacheKey -> Result<R>) {
    forall i :: 0 <= i < |quarters| ==>
      && SplitQuarter(quarters[i]).Success?
      && compute(CacheKey(foundation, org.guid, SplitQuarter(quarters[i]).value.0, SplitQuarter(quarters[i]).value.1)).Success?
  }

  predicate OrgsOk<R>(foundation: string, orgs: seq<Option<Organization>>, quarters: seq<string>, compute: CacheKey -> Result<R>) {
    forall i :: 0 <= i < |orgs| && orgs[i].Some? ==> QuartersOk(foundation, orgs[i].value, quarters, compute)
  }

  /** Every foundation is listed, and every quarter of every listed org parses and computes. */
  predicate AllOk<R>(foundations: seq<string>, directory: map<string, seq<Option<Organization>>>, quarters: seq<string>,
                     compute: CacheKey -> Result<R>) {
    forall i :: 0 <= i < |foundations| ==> foundations[i] in directory && OrgsOk(foundations[i], directory[foundations[i]], quarters, compute)
  }

  // Unfolding the target and success predicates one list element at a time.

  function LabelKey(foundation: string, org: Organization, text: string): CacheKey
    requires SplitQuarter(text).Success?
  {
    CacheKey(foundation, org.guid, SplitQuarter(text).value.0, SplitQuarter(text).value.1)
  }

  lemma QuarterTargetCons(k: CacheKey, foundation: string, org: Organization, quarters: seq<string>)
    requires quarters != []
    ensures QuarterTarget(k, foundation, org, quarters) <==>
      (SplitQuarter(quarters[0]).Success? && k == LabelKey(foundation, org, quarters[0]))
      || QuarterTarget(k, foundation, org, quarters[1..])
  {
    if QuarterTarget(k, foundation, org, quarters) {
      QuarterTargetSplit(k, foundation, org, quarters);
    }
    if QuarterTarget(k, foundation, org, quarters[1..]) {
      QuarterTargetFromTail(k, foundation, org, quarters);
    }
    if SplitQuarter(quarters[0]).Success? && k == LabelKey(foundation, org, quarters[0]) {
      assert SplitQuarter(quarters[0]) == Success((k.year, k.quarter));
    }
  }

  lemma QuarterTargetSplit(k: CacheKey, foundation: string, org: Organization, quarters: seq<string>)
    requires quarters != [] && QuarterTarget(k, foundation, org, quarters)
    ensures SplitQuarter(quarters[0]) == Success((k.year, k.quarter)) || QuarterTarget(k, foundation, org, quarters[1..])
  {
    var i :| 0 <= i < |quarters| && SplitQuarter(quarters[i]) == Success((k.year, k.quarter));
    if i > 0 {
      assert quarters[1..][i - 1] == quarters[i];
    }
  }

  lemma QuarterTargetFromTail(k: CacheKey, foundation: string, org: Organization, quarters: seq<string>)
    requires quarters != [] && QuarterTarget(k, foundation, org, quarters[1..])
    ensures QuarterTarget(k, foundation, org, quarters)
  {
    var tail := quarters[1..];
    var i :| 0 <= i < |tail| && SplitQuarter(tail[i]) == Success((k.year, k.quarter));
    assert quarters[i + 1] == tail[i];
  }

  lemma QuartersOkCons<R>(foundation: string, org: Organization, quarters: seq<string>, compute: CacheKey -> Result<R>)
    requires quarters != []
    ensures QuartersOk(foundation, org, quarters, compute) <==>
      && SplitQuarter(quarters[0]).Success?
      && compute(LabelKey(foundation, org, quarters[0])).Success?
      && QuartersOk(foundation, org, quarters[1..], compute)
  {
    var tail := quarters[1..];
    if QuartersOk(foundation, org, quarters, compute) {
      forall i | 0 <= i < |tail|
        ensures SplitQuarter(tail[i]).Success?
        ensures compute(CacheKey(foundation, org.guid, SplitQuarter(tail[i]).value.0, SplitQuarter(tail[i]).value.1)).Success?
      {
        assert tail[i] == quarters[i + 1];
      }
    }
    if SplitQuarter(quarters[0]).Success? && compute(LabelKey(foundation, org, quarters[0])).Success? && QuartersOk(foundation, org, tail, compute) {
      forall i | 0 <= i < |quarters|
        ensures SplitQuarter(quarters[i]).Success?
        ensures compute(CacheKey(foundation, org.guid, SplitQuarter(quarters[i]).value.0, SplitQuarter(quarters[i]).value.1)).Success?
      {
        if i > 0 {
          assert tail[i - 1] == quarters[i];
        }
      }
    }
  }

  lemma OrgTargetCons(k: CacheKey, foundation: string, orgs: seq<Option<Organization>>, quarters: seq<string>)
    requires orgs != []
    ensures OrgTarget(k, foundation, orgs, quarters) <==>
      (orgs[0].Some? && QuarterTarget(k, foundation, orgs[0].value, quarters))
      || OrgTarget(k, foundation, orgs[1..], quarters)
  {
    var tail := orgs[1..];
    if OrgTarget(k, foundation, orgs, quarters) {
      var i :| 0 <= i < |orgs| && orgs[i].Some? && QuarterTarget(k, foundation, orgs[i].value, quarters);
      if i > 0 {
        assert tail[i - 1] == orgs[i];
      }
    }
    if OrgTarget(k, foundation, tail, quarters) {
      var i :| 0 <= i < |tail| && tail[i].Some? && QuarterTarget(k, foundation, tail[i].value, quarters);
      assert orgs[i + 1] == tail[i];
    }
  }

  lemma OrgsOkCons<R>(foundation: string, orgs: seq<Option<Organization>>, quarters: seq<string>, compute: CacheKey -> Result<R>)
    requires orgs != []
    ensures OrgsOk(foundation, orgs, quarters, compute) <==>
      (orgs[0].Some? ==> QuartersOk(foundation, orgs[0].value, quarters, compute)) && OrgsOk(foundation, orgs[1..], quarters, compute)
  {
    var tail := orgs[1..];
    if OrgsOk(foundation, orgs, quarters, compute) {
      forall i | 0 <= i < |tail| && tail[i].Some? ensures QuartersOk(foundation, tail[i].value, quarters, compute) {
        assert tail[i] == orgs[i + 1];
      }
    }
    if (orgs[0].Some? ==> QuartersOk(foundation, orgs[0].value, quarters, compute)) && OrgsOk(foundation, tail, quarters, compute) {
      forall i | 0 <= i < |orgs| && orgs[i].Some? ensures QuartersOk(foundation, orgs[i].value, quarters, compute) {
        if i > 0 {
          assert tail[i - 1] == orgs[i];
        }
      }
    }
  }

  lemma TargetCons(k: CacheKey, foundations: seq<string>, directory: map<string, seq<Option<Organization>>>, quarters: seq<string>)
    requires foundations != []
    ensures Target(k, foundations, directory, quarters) <==>
      (foundations[0] in directory && OrgTarget(k, foundations[0], directory[foundations[0]], quarters))
      || Target(k, foundations[1..], directory, quarters)
  {
    var tail := foundations[1..];
    if Target(k, foundations, directory, quarters) {
      var i :| 0 <= i < |foundations| && foundations[i] in directory && OrgTarget(k, foundations[i], directory[foundations[i]], quarters);
      if i > 0 {
        assert tail[i - 1] == foundations[i];
      }
    }
    if Target(k, tail, directory, quarters) {
      var i :| 0 <= i < |tail| && tail[i] in directory && OrgTarget(k, tail[i], directory[tail[i]], quarters);
      assert foundations[i + 1] == tail[i];
    }
  }

  lemma AllOkCons<R>(foundations: seq<string>, directory: map<string, seq<Option<Organization>>>, quarters: seq<string>,
                     compute: CacheKey -> Result<R>)
    requires foundations != []
    ensures AllOk(foundations, directory, quarters, compute) <==>
      && foundations[0] in directory
      && OrgsOk(foundations[0], directory[foundations[0]], quarters, compute)
      && AllOk(foundations[1..], directory, quarters, compute)
  {
    var tail := foundations[1..];
    if AllOk(foundations, directory, quarters, compute) {
      forall i | 0 <= i < |tail| ensures tail[i] in directory && OrgsOk(tail[i], directory[tail[i]], quarters, compute) {
        assert tail[i] == foundations[i + 1];
      }
    }
    if foundations[0] in directory && OrgsOk(foundations[0], directory[foundations[0]], quarters, compute) && AllOk(tail, directory, quarters, compute) {
      forall i | 0 <= i < |foundations| ensures foundations[i] in directory && OrgsOk(foundations[i], directory[foundations[i]], quarters, compute) {
        if i > 0 {
          assert tail[i - 1] == foundations[i];
        }
      }
    }
  }

  // One org's quarters.

  lemma {:induction false} RefreshQuartersOk<R>(cache: map<CacheKey, R>, foundation: string, org: Organization, quarters: seq<string>,
                                                 compute: CacheKey -> Result<R>)
    ensures RefreshQuarters(cache, foundation, org, quarters, compute).error.None? <==> QuartersOk(foundation, org, quarters, compute)
    decreases |quarters|
  {
    if quarters != [] {
      QuartersOkCons(foundation, org, quarters, compute);
      if SplitQuarter(quarters[0]).Success? {
        var key := LabelKey(foundation, org, quarters[0]);
        if compute(key).Success? {
          RefreshQuartersOk(cache[key := compute(key).value], foundation, org, quarters[1..], compute);
        }
      }
    }
  }

  /** Frame: a key no quarter of the org names keeps its presence and value. */
  lemma {:induction false} RefreshQuartersFrame<R>(cache: map<CacheKey, R>, foundation: string, org: Organization, quarters: seq<string>,
                                                    compute: CacheKey -> Result<R>, k: CacheKey)
    requires !QuarterTarget(k, foundation, org, quarters)
    ensures var after := RefreshQuarters(cache, foundation, org, quarters, compute).cache;
      (k in after <==> k in cache) && (k in cache ==> after[k] == cache[k])
    decreases |quarters|
  {
    if quarters != [] {
      QuarterTargetCons(k, foundation, org, quarters);
      if SplitQuarter(quarters[0]).Success? {
        var key := LabelKey(foundation, org, quarters[0]);
        if compute(key).Success? {
          RefreshQuartersFrame(cache[key := compute(key).value], foundation, org, quarters[1..], compute, k);
        }
      }
    }
  }

  /** On success every key a quarter of the org names holds its freshly computed rollup. */
  lemma {:induction false} RefreshQuartersWrites<R>(cache: map<CacheKey, R>, foundation: string, org: Organization, quarters: seq<string>,
                                                     compute: CacheKey -> Result<R>, k: CacheKey)
    requires RefreshQuarters(cache, foundation, org, quarters, compute).error.None?
    requires QuarterTarget(k, foundation, org, quarters)
    ensures var after := RefreshQuarters(cache, foundation, org, quarters, compute).cache;
      k in after && compute(k) == Success(after[k])
    decreases |quarters|
  {
    QuarterTargetCons(k, foundation, org, quarters);
    var key := LabelKey(foundation, org, quarters[0]);
    var next := cache[key := compute(key).value];
    if QuarterTarget(k, foundation, org, quarters[1..]) {
      RefreshQuartersWrites(next, foundation, org, quarters[1..], compute, k);
    } else {
      RefreshQuartersFrame(next, foundation, org, quarters[1..], compute, k);
    }
  }

  // One foundation's orgs.

  lemma {:induction false} RefreshOrgsOk<R>(cache: map<CacheKey, R>, foundation: string, orgs: seq<Option<Organization>>, quarters: seq<string>,
                                             compute: CacheKey -> Result<R>)
    ensures RefreshOrgs(cache, foundation, orgs, quarters, compute).error.None? <==> OrgsOk(foundation, orgs, quarters, compute)
    decreases |orgs|
  {
    if orgs != [] {
      OrgsOkCons(foundation, orgs, quarters, compute);
      if orgs[0].None? {
        RefreshOrgsOk(cache, foundation, orgs[1..], quarters, compute);
      } else {
        var r := RefreshQuarters(cache, foundation, orgs[0].value, quarters, compute);
        RefreshQuartersOk(cache, foundation, orgs[0].value, quarters, compute);
        RefreshOrgsOk(r.cache, foundation, orgs[1..], quarters, compute);
      }
    }
  }

  lemma {:induction false} RefreshOrgsFrame<R>(cache: map<CacheKey, R>, foundation: string, orgs: seq<Option<Organization>>, quarters: seq<string>,
                                                compute: CacheKey -> Result<R>, k: CacheKey)
    requires !OrgTarget(k, foundation, orgs, quarters)
    ensures var after := RefreshOrgs(cache, foundation, orgs, quarters, compute).cache;
      (k in after <==> k in cache) && (k in cache ==> after[k] == cache[k])
    decreases |orgs|
  {
    if orgs != [] {
      OrgTargetCons(k, foundation, orgs, quarters);
      if orgs[0].None? {
        RefreshOrgsFrame(cache, foundation, orgs[1..], quarters, compute, k);
      } else {
        var r := RefreshQuarters(cache, foundation, orgs[0].value, quarters, compute);
        RefreshQuartersFrame(cache, foundation, orgs[0].value, quarters, compute, k);
        RefreshOrgsFrame(r.cache, foundation, orgs[1..], quarters, compute, k);
      }
    }
  }

  lemma {:induction false} RefreshOrgsWrites<R>(cache: map<CacheKey, R>, foundation: string, orgs: seq<Option<Organization>>, quarters: seq<string>,
                                                 compute: CacheKey -> Result<R>, k: CacheKey)
    requires RefreshOrgs(cache, foundation, orgs, quarters, compute).error.None?
    requires OrgTarget(k, foundation, orgs, quarters)
    ensures var after := RefreshOrgs(cache, foundation, orgs, quarters, compute).cache;
      k in after && compute(k) == Success(after[k])
    decreases |orgs|
  {
    OrgTargetCons(k, foundation, orgs, quarters);
    if orgs[0].None? {
      RefreshOrgsWrites(cache, foundation, orgs[1..], quarters, compute, k);
    } else {
      var r := RefreshQuarters(cache, foundation, orgs[0].value, quarters, compute);
      if OrgTarget(k, foundation, orgs[1..], quarters) {
        RefreshOrgsWrites(r.cache, foundation, orgs[1..], quarters, compute, k);
      } else {
        RefreshQuartersWrites(cache, foundation, orgs[0].value, quarters, compute, k);
        RefreshOrgsFrame(r.cache, foundation, orgs[1..], quarters, compute, k);
      }
    }
  }

  // Every foundation.

  /** The bulk refresh completes exactly when every foundation is listed and every rollup it asks for parses and computes. */
  lemma {:induction false} RefreshAllOk<R>(cache: map<CacheKey, R>, foundations: seq<string>, directory: map<string, seq<Option<Organization>>>,
                                            quarters: seq<string>, compute: CacheKey -> Result<R>)
    ensures RefreshAll(cache, foundations, directory, quarters, compute).error.None? <==> AllOk(foundations, directory, quarters, compute)
    decreases |foundations|
  {
    if foundations != [] {
      AllOkCons(foundations, directory, quarters, compute);
      if foundations[0] in directory {
        var r := RefreshOrgs(cache, foundations[0], directory[foundations[0]], quarters, compute);
        RefreshOrgsOk(cache, foundations[0], directory[foundations[0]], quarters, compute);
        RefreshAllOk(r.cache, foundations[1..], directory, quarters, compute);
      }
    }
  }

  /** The bulk refresh leaves every key it does not target as it was, whether or not it completes. */
  lemma {:induction false} RefreshAllFrame<R>(cache: map<CacheKey, R>, foundations: seq<string>, directory: map<string, seq<Option<Organization>>>,
                                               quarters: seq<string>, compute: CacheKey -> Result<R>, k: CacheKey)
    requires !Target(k, foundations, directory, quarters)
    ensures var after := RefreshAll(cache, foundations, directory, quarters, compute).cache;
      (k in after <==> k in cache) && (k in cache ==> after[k] == cache[k])
    decreases |foundations|
  {
    if foundations != [] {
      TargetCons(k, foundations, directory, quarters);
      if foundations[0] in directory {
        var r := RefreshOrgs(cache, foundations[0], directory[foundations[0]], quarters, compute);
        RefreshOrgsFrame(cache, foundations[0], directory[foundations[0]], quarters, compute, k);
        RefreshAllFrame(r.cache, foundations[1..], directory, quarters, compute, k);
      }
    }
  }

  /**
   * A completed bulk refresh overwrites: every targeted key holds the rollup
   * just computed for it, whatever the cache held before.
   */
  lemma {:induction false} RefreshAllOverwrites<R>(cache: map<CacheKey, R>, foundations: seq<string>, directory: map<string, seq<Option<Organization>>>,
                                                    quarters: seq<string>, compute: CacheKey -> Result<R>, k: CacheKey)
    requires RefreshAll(cache, foundations, directory, quarters, compute).error.None?
    requires Target(k, foundations, directory, quarters)
    ensures var after := RefreshAll(cache, foundations, directory, quarters, compute).cache;
      k in after && compute(k) == Success(after[k])
    decreases |foundations|
  {
    TargetCons(k, foundations, directory, quarters);
    var r := RefreshOrgs(cache, foundations[0], directory[foundations[0]], quarters, compute);
    if Target(k, foundations[1..], directory, quarters) {
      RefreshAllOverwrites(r.cache, foundations[1..], directory, quarters, compute, k);
    } else {
      RefreshOrgsWrites(cache, foundations[0], directory[foundations[0]], quarters, compute, k);
      RefreshAllFrame(r.cache, foundations[1..], directory, quarters, compute, k);
    }
  }

  /**
   * The two paths share one cache: after a completed bulk refresh, a lazy
   * lookup of any refreshed key is a hit that returns the refreshed rollup.
   */
  lemma RefreshThenLookupHits<R>(cache: map<CacheKey, R>, foundations: seq<string>, directory: map<string, seq<Option<Organization>>>,
                                 quarters: seq<string>, compute: CacheKey -> Result<R>, k: CacheKey, later: CacheKey -> Result<R>)
    requires RefreshAll(cache, foundations, directory, quarters, compute).error.None?
    requires Target(k, foundations, directory, quarters)
    ensures var after := RefreshAll(cache, foundations, directory, quarters, compute).cache;
      && GetOrCompute(after, k, later).Success?
      && Success(GetOrCompute(after, k, later).value.value) == compute(k)
      && !GetOrCompute(after, k, later).value.computed
  {
    RefreshAllOverwrites(cache, foundations, directory, quarters, compute, k);
  }
}

=== FILE: usage_model.dfy ===
/**
 * The records the usage service reads and the rollups it builds. Every field
 * is one the aggregation code reads or sets; Java nulls are not modelled.
 */
module UsageModel {

  /** One parsed application usage record (AppUsage_). Durations and memory are read only by the metric helpers. */
  datatype AppRecord = AppRecord(
    spaceGuid: string,
    spaceName: string,
    appGuid: string,
    appName: string,
    durationInSeconds: int,
    memoryInMbPerInstance: int)

  /** One parsed service usage record (ServiceUsage_). */
  datatype SvcRecord = SvcRecord(
    spaceGuid: string,
    spaceName: string,
    serviceInstanceGuid: string,
    serviceInstanceName: string,
    serviceName: string,
    durationInSeconds: int)

  /** Application rollup of one space. */
  datatype SpaceUsage = SpaceUsage(
    spaceGuid: string,
    spaceName: string,
    totalApps: int,
    totalAis: int,
    totalMbPerAis: int,
    aiDurationInSecs: int)

  /** Application rollup of one app within one space, with a back-reference to the space. */
  datatype AUsage = AUsage(
    spaceGuid: string,
    spaceName: string,
    appGuid: string,
    appName: string,
    totalAis: int,
    totalMbPerAis: int,
    aiDurationInSecs: int)

  /** Application rollup of one organization for one period. */
  datatype OrgUsage = OrgUsage(
    orgGuid: string,
    year: int,
    quarter: int,
    spaceUsage: map<string, SpaceUsage>,
    aUsage: map<string, AUsage>)

  /** Service rollup of one space. */
  datatype SISpaceUsage = SISpaceUsage(
    spaceGuid: string,
    spaceName: string,
    totalSis: int,
    totalSvcs: int)

  /** Service rollup of one service instance. */
  datatype ServiceInstanceUsage = ServiceInstanceUsage(
    spaceName: string,
    serviceInstanceName: string,
    serviceName: string,
    durationInSecs: int)

  /**
   * Service rollup of one organization for one period. The stored totals are
   * plain fields; the totals SIUsage reports are recomputed from siSpaceUsage.
   */
  datatype SIUsage = SIUsage(
    orgGuid: string,
    year: int,
    quarter: int,
    totalSvcs: int,
    totalSis: int,
    siSpaceUsage: map<string, SISpaceUsage>,
    serviceInstanceUsage: map<string, ServiceInstanceUsage>)

  /** An organization of a foundation. */
  datatype Organization = Organization(guid: string, name: string)
}
